=== FILE: README.md ===
# chatSenai — a verified model of the SEN.AI chat widget

chatSenai is a React chat widget that a SENAI Moodle course page embeds. The
widget signs the student in from Moodle, sends questions to a backend, and shows
the answer as it streams in. It also keeps a conversation history in the browser.
This project models the widget's core in Dafny and proves properties of that
model. The modules follow the repository's files:

- `moodle_auth.dfy` covers `src/services/moodleAuthService.js`: tokens in the URL, the session handshake, and the user kept in session storage. Browser storage is modelled in `storage.dfy`.
- `auth_wrapper.dfy` covers `src/components/MoodleAuthWrapper.jsx`: the start-up decision between the stored user, the development user, the handshake with its 10-second race, and refusal. It also covers the host page's `postMessage` and the guest fallback of the render.
- `chat_service.dfy` covers the request functions of `src/services/chatService.js`. `http.dfy` models a fetch reply as a value.
- `chat_stream.dfy` covers `getChatStream`: the stream URL, the read loop that splits chunks into lines, frame dispatch and media normalisation, and the 404 fallback to the stored answer. The read loop is proved to produce the same callbacks however the body is cut into chunks.
- `welcome.dfy` covers the page state of `src/pages/Welcome.jsx` as a class. That class covers submit, feedback, loading, deleting and starting chats.
  - `chat_messages.dfy` covers the loaded-message and history-list helpers.
  - `answer_text.dfy` covers the text the answer bubble ends with.
  - `relative_time.dfy` covers the relative times and separators.
  - `sorting.dfy` has the stable sort that `Array.prototype.sort` performs.
- `history_sidebar.dfy` covers `src/components/HistorySidebar.jsx`: display titles, `formatTime`, and `groupByDate`. `day_labels.dfy` holds the age labels and their order. `grouping.dfy` holds the two loops of `groupByDate`.
- `scope_validator.dfy` covers `src/utils/scopeValidator.js`: normalisation, the keyword test, and the out-of-scope answer.
- `strings.dfy` and `wrappers.dfy` hold the JavaScript string operations and the `Option`/`Result` types.

Four points of the code that are easy to misread, and that the model follows:

- The Moodle user lives only in session storage, under `moodle_user`, stored and read back as given.
- When the 10-second timer wins the handshake race, the decoded token is never consulted.
- `deleteChat` sends the development user header, not the stored user's id.
- A delete stops at the first endpoint that answers 2xx.

## Model

| member | source | states |
|---|---|---|
| Storage.KeyValueStore.Get | src/services/moodleAuthService.js:80-83 | `getItem` answers the stored value for a key and nothing when the key is absent |
| Storage.KeyValueStore.SetItem | src/services/moodleAuthService.js:73-75 | `setItem` makes the key hold the value and leaves every other key as it was |
| Storage.KeyValueStore.RemoveItem | src/services/moodleAuthService.js:88-90 | `removeItem` drops the key and leaves every other key as it was |
| MoodleAuth.TokenFromUrl | src/services/moodleAuthService.js:9-17 | the token is `moodle_token` when non-empty and `token` otherwise; origin defaults to `moodle` and page to `chat` when absent or empty; `course_id` is passed through |
| MoodleAuth.IsFromMoodleIff | src/services/moodleAuthService.js:65-68 | the page counts as opened from Moodle exactly when one of the two token parameters is non-empty and the origin is `moodle`, absent or empty |
| MoodleAuth.ValidateMoodleSession | src/services/moodleAuthService.js:23-60 | every handshake outcome becomes a result and none escapes: a network failure carries its message, 401 gives `invalid_session`, any other non-2xx status gives `Erro <status>: <statusText>`, an unreadable body gives the parse error, and success is `ok \|\| valid` with the user fields; a successful result never carries an error |
| MoodleAuth.GetMoodleUser | src/services/moodleAuthService.js:80-83 | the user is the record under `moodle_user`, and there is none exactly when that key is absent |
| MoodleAuth.StoreMoodleUser | src/services/moodleAuthService.js:73-75 | the record is stored under `moodle_user` as given, reads back unchanged, and no other key changes |
| MoodleAuth.ClearMoodleUser | src/services/moodleAuthService.js:88-90 | after clearing there is no user, and no other key changes |
| AuthWrapper.ValidateAuth | src/components/MoodleAuthWrapper.jsx:24-167 | every run of `validateAuth` ends settled, signed in with a user exactly when there is no error; tokens leave the URL only after a handshake that answered `ok`; a user that is both stored and signed in is the same record |
| AuthWrapper.ExistingUserShortCircuits | src/components/MoodleAuthWrapper.jsx:29-41 | a stored non-guest user with some identity is signed in as is, with no handshake and no write |
| AuthWrapper.GuestReusedOnlyWithWindowUser | src/components/MoodleAuthWrapper.jsx:29-42 | a stored guest is reused exactly when the host page published `__MOODLE_USER__.userId`; otherwise the run is the one with no stored user |
| AuthWrapper.DevModeUsesDevUser | src/components/MoodleAuthWrapper.jsx:44-66 | a development build without a usable stored user stores and signs in the development user, with no handshake |
| AuthWrapper.HandshakeOkStoresMoodleUser | src/components/MoodleAuthWrapper.jsx:84-105 | a handshake answering `ok` stores the user marked `fromMoodle: true`, signs that user in and strips the tokens |
| AuthWrapper.HandshakeRejected | src/components/MoodleAuthWrapper.jsx:106-126 | a refused handshake falls back to the decoded token when it has a `userId`; otherwise it reports the handshake's error, or `Sessão inválida` when there is none; the tokens stay in the URL |
| AuthWrapper.TimeoutBypassesDecode | src/components/MoodleAuthWrapper.jsx:74-82 | when the 10-second timer wins, the decoded token is never consulted and production reports `Erro na validação da sessão` |
| AuthWrapper.ProductionWithoutToken | src/components/MoodleAuthWrapper.jsx:127-136 | in production, a page not opened from Moodle is refused with the fixed text and no handshake |
| AuthWrapper.MessageUser | src/components/MoodleAuthWrapper.jsx:176-200 | a `senai_moodle_user` message with a payload carries that payload; any other message carries its own data exactly when that has some identity field; no data carries nothing |
| AuthWrapper.Gate.Validate | src/components/MoodleAuthWrapper.jsx:23-173 | the component's state becomes the decision on the stored user and the URL; the decided record is written under `moodle_user`; the tokens are removed from the URL when decided; the state is settled |
| AuthWrapper.Gate.HandleMessage | src/components/MoodleAuthWrapper.jsx:175-200 | a message carrying a user stores it and signs it in, keeping the rest of the state; any other message changes neither state nor storage |
| AuthWrapper.Gate.Render | src/components/MoodleAuthWrapper.jsx:216-254 | the children are shown exactly when loading is over; an unauthenticated top-level visitor with no token and no identified non-guest user is stored as the guest; otherwise storage is unchanged |
| AuthWrapper.GuestNotReusedAtTopLevel | src/components/MoodleAuthWrapper.jsx:29-42 | after the guest is stored at top level, the next start-up without a published host user ignores it |
| ChatService.MoodleUserId | src/services/chatService.js:28-39 | the user id sent is the stored Moodle user's id when set, and the development placeholder otherwise; it is never empty |
| ChatService.StatusErrorNamesStatus | src/services/chatService.js:90 | the status of an `Erro <status>: …` message is the first run of digits in it, so it can be read back |
| ChatService.Json | src/services/chatService.js:116-121 | the shared response handling succeeds exactly when the status is 2xx and the body parses, returns that body, and throws the fetch error or the call's fixed message otherwise |
| ChatService.ServerFaultMessageText | src/services/chatService.js:86-90 | the fixed 500 message has the same `Erro <status>: <detail>` shape as every other status error |
| ChatService.StartChat | src/services/chatService.js:53-102 | `startChat` returns the parsed body exactly on a 2xx with a readable body; a 500 throws the fixed server-fault text; any other failing status throws `Erro <status>: <statusText>`; a network failure is rethrown |
| ChatService.StartChatErrorNamesStatus | src/services/chatService.js:86-90 | every HTTP failure of `startChat`, the 500 included, names its status as the first number of its message |
| ChatService.SendChatMessage | src/services/chatService.js:105-126 | `sendChatMessage` returns the parsed body exactly on a 2xx with a readable body, and any failing status throws `Erro ao enviar mensagem` |
| ChatService.LoadChat | src/services/chatService.js:339-362 | `loadChat` returns the parsed body exactly on a 2xx with a readable body, and any failing status throws `Erro ao carregar conversa` |
| ChatService.RenameChat | src/services/chatService.js:365-385 | `renameChat` returns the parsed body exactly on a 2xx with a readable body, and any failing status throws `Erro ao renomear conversa` |
| ChatService.RecoverHistory | src/services/chatService.js:327-334 | an error that mentions `fetch` or `network` becomes an empty history, and any other is rethrown |
| ChatService.GetChatHistory | src/services/chatService.js:283-336 | a timeout or a 404 gives an empty history and a readable 2xx gives its body; a network failure, any other failing status (as `Erro <status>: <statusText>`) and an unreadable 2xx body give an empty history when their message mentions `fetch` or `network` and are rethrown unchanged otherwise; nothing network-sounding is ever thrown |
| ChatService.HistoryAfterFailedFetch | src/services/chatService.js:327-331 | a browser's `Failed to fetch` rejection gives an empty history |
| ChatService.HistoryHttpFailure | src/services/chatService.js:303-313 | a failing status other than 404 is thrown exactly when its `Erro <status>: <statusText>` text mentions neither `fetch` nor `network` |
| ChatService.SaveChatQuery | src/services/chatService.js:392-395 | the query is empty exactly when neither the session id nor the title is set; it is `session_id=<s>&title=<t>` when both are set, `session_id=<s>` or `title=<t>` when only one is |
| ChatService.SaveChatUrl | src/services/chatService.js:396 | the URL is the history endpoint, followed by `?` and the query only when the query is not empty |
| ChatService.SaveChat | src/services/chatService.js:388-426 | `saveChat` never throws: a 2xx with a readable body is saved, a 404 is "not implemented", any other status reports `Erro <status>: <body text>`, a 2xx whose body cannot be read reports the parse error, and a network failure reports its message |
| ChatService.SendFeedbackAsWritten | src/services/chatService.js:446-458 | as written, a failing status whose error body is JSON reports the status and the body, and one whose body is not JSON always throws the "body already read" error |
| ChatService.SendFeedbackAsWrittenLosesStatus | src/services/chatService.js:449-457 | as written, two failures with non-JSON error bodies throw the same error whatever their statuses |
| ChatService.SendFeedback | src/services/chatService.js:429-466 | corrected: a failing status reports `Erro ao enviar feedback (<status>): ` and the error body (re-serialised JSON, or its text) from a single read |
| ChatService.SendFeedbackNamesStatus | src/services/chatService.js:457 | corrected: every failure of `sendFeedback` names its status as the first number of its message |
| ChatService.DeleteEndpoints | src/services/chatService.js:471-475 | the three endpoints `deleteChat` tries, each under `<base>/chat/` (their order of trial is stated by `ChatService.DeleteChat`) |
| ChatService.DeleteChat | src/services/chatService.js:469-506 | endpoints are tried in order, stopping at the first 2xx; every endpoint before the last one tried failed; success is `true`; when all three fail, the last failure is thrown, so the "no endpoint" fallback is never reached |
| ChatStream.StripApiSuffix | src/services/chatService.js:137 | `replace(/\/api\/?$/, '')` removes a trailing `/api` or `/api/` and leaves any other base unchanged |
| ChatStream.StreamUrl | src/services/chatService.js:132-140 | with no stream URL the default `/chat/stream/<session>` path is used; an absolute URL is used as given; a path starting with `/api/` follows the base URL stripped of its trailing `/api`, any other path follows the whole base URL |
| ChatStream.StripApiOfApiBase | src/services/chatService.js:137 | a base ending in `/api` loses exactly that suffix |
| ChatStream.StreamUrlJoinsApiPathOnce | src/services/chatService.js:136-137 | a backend path under `/api/` joined to a base that ends in `/api` does not repeat the `/api` segment |
| ChatStream.StreamUrlAppendsOtherPaths | src/services/chatService.js:138 | any other relative path is appended to the base as it stands |
| ChatStream.EntriesPointwise | src/services/chatService.js:235-250 | each media entry is built from the item at the same position |
| ChatStream.MediaOf | src/services/chatService.js:233-251 | the media list has one entry per video and one per image |
| ChatStream.MediaOfLayout | src/services/chatService.js:233-251 | videos come first in input order, then images in input order; an entry is a video exactly when it comes from the video list; a list that is not an array adds nothing |
| ChatStream.NormalizeMedia | src/services/chatService.js:233-251 | the two `forEach` loops build exactly the media list of the frame |
| ChatStream.CollectVideos | src/services/chatService.js:234-242 | the video loop pushes one video entry per item, in order |
| ChatStream.CollectImages | src/services/chatService.js:243-251 | the image loop pushes one image entry per item, in order |
| ChatStream.Dispatch | src/services/chatService.js:227-266 | a sources frame and a media frame report their payload with the text unchanged; a text frame appends the first truthy of `delta`, `content`, `text` and reports it exactly when it is not empty; every report carries the text accumulated after it |
| ChatStream.FramePayload | src/services/chatService.js:213-222 | only a non-blank `data: ` line whose trimmed payload is not `[DONE]` reaches the JSON parser |
| ChatStream.Step | src/services/chatService.js:212-270 | one line adds at most one callback and never changes the earlier ones |
| ChatStream.RunLinesAppend | src/services/chatService.js:212-271 | processing two runs of lines one after the other is processing their concatenation |
| ChatStream.IgnoredLineDropsOut | src/services/chatService.js:213-269 | a blank, non-data, `[DONE]` or unparsable line leaves the outcome as if it were absent, wherever it stands |
| ChatStream.DoneMarkerDoesNotStop | src/services/chatService.js:220-222 | a `data: [DONE]` line does not end the processing of the lines after it |
| ChatStream.CoherentOnlyChunks | src/services/chatService.js:212-271 | while the body is read, every callback is an `onChunk` |
| ChatStream.CoherentSnoc | src/services/chatService.js:257-266 | appending an `onChunk` that carries the text so far keeps the callbacks consistent with the running text |
| ChatStream.DispatchCoherent | src/services/chatService.js:227-266 | one decoded frame keeps every reported accumulated text equal to the fragments reported so far |
| ChatStream.StepCoherent | src/services/chatService.js:212-270 | one line keeps every reported accumulated text equal to the fragments reported so far |
| ChatStream.RunLinesAppendOnly | src/services/chatService.js:194-271 | the running text only grows: every callback is an `onChunk` whose accumulated text is the fragments up to it, and the final text is all fragments |
| ChatStream.SplitNoNewline | src/services/chatService.js:209 | no line of `split('\n')` contains a newline |
| ChatStream.JoinSplit | src/services/chatService.js:209 | joining the lines with newlines gives back the text |
| ChatStream.SplitJoin | src/services/chatService.js:209 | splitting newline-free lines joined with newlines gives back the lines |
| ChatStream.SplitAppend | src/services/chatService.js:206-210 | splitting a longer text is the complete lines of its start followed by the split of the held-back segment with the rest appended |
| ChatStream.UnterminatedTailNotDecoded | src/services/chatService.js:200-210 | text after the last newline completes no line, only extends the held-back buffer, and so is never decoded |
| ChatStream.ChunkStep | src/services/chatService.js:206-210 | one more chunk completes the lines of the held-back segment with the chunk appended, and the rest is held back |
| ChatStream.HandleLine | src/services/chatService.js:212-270 | the loop body applies exactly one step of the line specification to the running text and callbacks |
| ChatStream.HandleLines | src/services/chatService.js:212-271 | the inner loop applies the complete lines of one read in order |
| ChatStream.ConsumeBody | src/services/chatService.js:192-272 | the read loop produces the callbacks and text of the complete lines of the concatenated body, whatever the chunk boundaries, and then `onComplete` with the final text, or stops with the reader's error |
| ChatStream.AssistantMessages | src/services/chatService.js:170-172 | the filter keeps only assistant messages and never more messages than it was given |
| ChatStream.LastOfAssistantMessages | src/services/chatService.js:170-174 | the last message the filter keeps is the last assistant message |
| ChatStream.NoAssistantMessages | src/services/chatService.js:170-173 | the filter keeps nothing exactly when no message is the assistant's |
| ChatStream.LastAssistantText | src/services/chatService.js:164-177 | with no conversation, or one whose messages are not an array, the fallback text is empty |
| ChatStream.LastAssistantTextIsLast | src/services/chatService.js:168-176 | the fallback text is that of the last message the assistant sent |
| ChatStream.LastAssistantTextNone | src/services/chatService.js:168-177 | there is no fallback text when the assistant sent nothing |
| ChatStream.GetChatStream | src/services/chatService.js:129-280 | a failed fetch calls `onError` and throws; a 404 with a stored answer completes with it; other failing statuses report `Erro ao obter stream: <status>`; a 2xx body gives the body's callbacks then exactly one terminal callback matching what is returned or thrown |
| Sorting.SortBy | src/pages/Welcome.jsx:85-89 | the sort returns a permutation of its input, sorted ascending by the comparator's key |
| Sorting.InsertSorted | src/pages/Welcome.jsx:85-89 | inserting one element into a sorted list keeps it sorted |
| Sorting.WithKeyInsert | src/pages/Welcome.jsx:85-89 | inserting keeps the elements that share a key in their order, with the new one after them |
| Sorting.SortByStable | src/pages/Welcome.jsx:85-89 | the sort is stable: elements with equal keys keep their input order, as `Array.prototype.sort` guarantees |
| HistorySidebar.GenerateDisplayTitle | src/components/HistorySidebar.jsx:6-55 | a non-empty title that is not a greeting, not a question and not a generated `Chat DD/MM/YYYY` title is kept; any other is replaced by the date title of the chat's date, or of today when it has none |
| HistorySidebar.DateTitleRoundTrip | src/components/HistorySidebar.jsx:18 | a generated date title matches the sidebar's date-title pattern and gives back the day, month and year it was built from |
| HistorySidebar.TitleIdempotent | src/components/HistorySidebar.jsx:6-55 | titling a title a second time changes nothing |
| HistorySidebar.QuestionReplaced | src/components/HistorySidebar.jsx:14 | a title ending with `?` is never shown as it is |
| HistorySidebar.FormatTime | src/components/HistorySidebar.jsx:264-265 | a message without a timestamp shows the fixed `03.11` |
| HistorySidebar.FormatTimeRoundTrip | src/components/HistorySidebar.jsx:264-271 | a timestamp shows as five characters, `DD.MM`, from which its day and month read back |
| HistorySidebar.GroupByDate | src/components/HistorySidebar.jsx:184-261 | every chat appears in the group of its age label, each group holds exactly the chats with its label in input order, no label repeats and no group is empty; corrected (year key): with no future-dated chat, groups come in strictly ascending age rank
| HistorySidebar.KeysListed | src/components/HistorySidebar.jsx:229-251 | every label the first loop meets is one `orderedLabels` lists, so no group is dropped |
| HistorySidebar.KeysAreAges | src/components/HistorySidebar.jsx:197-225 | with no future-dated chat, every label met is the label of a non-negative day difference |
| HistorySidebar.EveryChatGrouped | src/components/HistorySidebar.jsx:253-258 | every chat's label is the heading of some group of the result |
| HistorySidebar.RankOrderedByPosition | src/components/HistorySidebar.jsx:253-258 | groups copied in the order of a rank-sorted label list, with distinct age-label headings, ascend in rank |
| HistorySidebar.ListedInOrder | src/components/HistorySidebar.jsx:229-251 | every label among the keys that one of the filters accepts is in `orderedLabels` |
| HistorySidebar.GroupsByAge | src/components/HistorySidebar.jsx:184-261 | a chat in an earlier group is strictly more recent than a chat in a later group |
| Grouping.Members | src/components/HistorySidebar.jsx:222-225 | the members filed under a label are chats of the history carrying that label |
| Grouping.MembersSnoc | src/components/HistorySidebar.jsx:222-225 | pushing a chat appends it to its own label's members and to no other's |
| Grouping.MembersNone | src/components/HistorySidebar.jsx:222-225 | a label no chat carries has no members |
| Grouping.CollectByLabel | src/components/HistorySidebar.jsx:190-226 | the first loop's map has a key exactly for each label met, each holding the chats with that label in order, and every chat's label is a key |
| Grouping.CollectNew | src/components/HistorySidebar.jsx:222-225 | a chat with a label not met yet opens a bucket holding just that chat |
| Grouping.CollectOld | src/components/HistorySidebar.jsx:225 | a chat with a label already met is pushed onto that bucket |
| Grouping.CopyInOrder | src/components/HistorySidebar.jsx:253-258 | the copy keeps, in list order and once each, exactly the listed labels that have a bucket, each with its bucket |
| Grouping.CopyTake | src/components/HistorySidebar.jsx:255-256 | copying a listed label with a bucket not yet copied keeps the copy invariant |
| Grouping.CopySkip | src/components/HistorySidebar.jsx:255 | a listed label with no bucket, or already copied, is skipped without breaking the invariant |
| DayLabels.AgeCodeMonotone | src/components/HistorySidebar.jsx:197-220 | an older chat never ranks before a more recent one |
| DayLabels.AgeCodeDetermines | src/components/HistorySidebar.jsx:197-220 | two ages of the same rank have the same label |
| DayLabels.AgeCodeBand | src/components/HistorySidebar.jsx:203-220 | the rank of an age is its category band plus its count: days 2-6, weeks 1-8, months 2-12, years from 1 |
| DayLabels.NumOfAgo | src/components/HistorySidebar.jsx:232 | `parseInt(label.match(/\d+/)[0])` reads back the count written into a `HÁ <n> <unit>` label |
| DayLabels.Classify | src/components/HistorySidebar.jsx:197-250 | each age's label falls in exactly the category filter for its band, and the sort key of that filter gives back its count |
| DayLabels.AlwaysListed | src/components/HistorySidebar.jsx:229-251 | every label the first loop can produce is accepted by `HOJE`, `ONTEM` or one of the four filters |
| DayLabels.CodeInjective | src/components/HistorySidebar.jsx:197-220 | distinct labels have distinct ranks |
| DayLabels.Band | src/components/HistorySidebar.jsx:231-250 | the rank of a produced label is its category band plus the key its filter's comparator uses |
| DayLabels.OrderedLabelsSorted | src/components/HistorySidebar.jsx:229-251 | with the corrected year key, `orderedLabels` is sorted by rank |
| DayLabels.YearPairOrder | src/components/HistorySidebar.jsx:246-250 | two year labels are listed after `HOJE` and `ONTEM` in the order of their year key |
| DayLabels.ElevenYearsListedFirst | src/components/HistorySidebar.jsx:247-248 | as written, a chat 11 years old is listed before a chat 2 years old, although it ranks after it |
| DayLabels.TwoYearsListedFirst | src/components/HistorySidebar.jsx:246-250 | corrected: the same two chats are listed the more recent first |
| RelativeTime.CountedReadsBack | src/pages/Welcome.jsx:138-146 | a counted phrase reads back its count and takes the singular exactly for 1 |
| RelativeTime.FormatRelativeTime | src/pages/Welcome.jsx:129-154 | the text is `Agora` exactly when there is no timestamp or less than a minute has passed |
| RelativeTime.RelativeMinutes | src/pages/Welcome.jsx:138-140 | under an hour the text counts whole minutes, from 1 to 59 |
| RelativeTime.RelativeHours | src/pages/Welcome.jsx:141-143 | under a day the text counts whole hours, from 1 to 23 |
| RelativeTime.RelativeDays | src/pages/Welcome.jsx:144-146 | under thirty days the text counts whole days, from 1 to 29 |
| RelativeTime.RelativeDate | src/pages/Welcome.jsx:147-153 | from thirty days on the text is the message's `DD/MM/YYYY` date |
| RelativeTime.GetTimeSeparator | src/pages/Welcome.jsx:192-213 | there is no separator exactly for the first message or a gap under five minutes |
| RelativeTime.SeparatorCounts | src/pages/Welcome.jsx:200-209 | a separator counts whole minutes under an hour, whole hours (1-23) under a day, and whole days beyond, in the singular exactly for 1 |
| ChatMessages.MessageType | src/pages/Welcome.jsx:722-731 | a loaded message always has a type, and one with neither `type` nor `sender` is `user` or `ai` |
| ChatMessages.NormalizeMessage | src/pages/Welcome.jsx:720-743 | a loaded message takes its position as id, always has a message id, and is the welcome message exactly when it is the first and from the assistant |
| ChatMessages.NormalizeMessages | src/pages/Welcome.jsx:720-744 | the loaded list has one message per stored message, ids 1, 2, ... and no welcome message after the first |
| ChatMessages.FallbackIdsDistinct | src/pages/Welcome.jsx:741 | stored messages without ids get distinct fallback message ids |
| ChatMessages.MessagesToLoad | src/pages/Welcome.jsx:693-715 | `chatData.messages` wins when it is an array; otherwise the first array among `history`, `conversation`, `data.messages` and the history entry's own messages, in that order, or nothing when none is an array |
| ChatMessages.LoadedMessages | src/pages/Welcome.jsx:719-783 | the page always shows at least one message, numbered from 1, the stored messages normalised when `MessagesToLoad` finds any, and the welcome message alone when it finds none or loading failed |
| ChatMessages.VisibleMembers | src/pages/Welcome.jsx:80-83 | the filter keeps exactly the conversations whose key is not a tombstone |
| ChatMessages.HistoryShowsUndeleted | src/pages/Welcome.jsx:80-91 | the installed history is a permutation of the undeleted conversations and holds exactly those |
| ChatMessages.HistoryNewestFirst | src/pages/Welcome.jsx:85-89 | the installed history is ordered by `updated_at`, else `created_at`, newest first |
| ChatMessages.HistoryTiesKeepOrder | src/pages/Welcome.jsx:85-89 | conversations with the same time keep the backend's order |
| AnswerText.ErrorText | src/pages/Welcome.jsx:472-489 | an error mentioning `500` or `Servidor com problema` shows the server-fault text, and any other the generic text |
| AnswerText.MapById | src/pages/Welcome.jsx:421-429 | the update patches the messages with the given id and leaves every other message as it was |
| AnswerText.MapByIdChangesOne | src/pages/Welcome.jsx:421-429 | with ids that are positions, the update changes exactly the one bubble and keeps the ids |
| AnswerText.Applied | src/pages/Welcome.jsx:418-465 | the callbacks change only the text and streaming flag of the bubble |
| AnswerText.AppliedTerminal | src/pages/Welcome.jsx:431-462 | after a terminal callback the bubble shows its text and is no longer streaming |
| AnswerText.FinalText | src/pages/Welcome.jsx:364-504 | when the backend call throws, the bubble shows the error text for its message; otherwise the direct answer `response || message || answer || text` when it is non-empty, else the streamed answer, or the error text of what the stream threw |
| AnswerText.StartChatFaultShown | src/pages/Welcome.jsx:472-489 | a 500 from `startChat` on the first message shows the server-fault text |
| AnswerText.SendMessageFaultGeneric | src/pages/Welcome.jsx:472-489 | any failing status from `sendChatMessage`, 500 included, shows only the generic error text |
| AnswerText.GenericWithoutFiveOrS | src/pages/Welcome.jsx:472 | an error message with neither a `5` nor an `S` gets the generic text |
| AnswerText.StreamFaultShown | src/pages/Welcome.jsx:448-462 | a stream answering 500 ends with the server-fault text in the bubble |
| AnswerText.StreamedAnswerShown | src/pages/Welcome.jsx:418-446 | a stream read to its end leaves the accumulated text of the body in the bubble |
| AnswerText.MissingStreamFallsBack | src/pages/Welcome.jsx:418-446 | a stream answering 404 leaves the stored last assistant answer in the bubble |
| ScopeValidator.Lower | src/utils/scopeValidator.js:102 | lower-casing leaves no upper-case Latin letter and keeps every other character |
| ScopeValidator.Fold | src/utils/scopeValidator.js:102-104 | a folded character is kept, and any character other than a combining mark folds to a lower-case letter without an accent |
| ScopeValidator.Normalise | src/utils/scopeValidator.js:102-104 | the normalised question is no longer than the question and has no upper-case letter, accent or combining mark |
| ScopeValidator.NormaliseFolded | src/utils/scopeValidator.js:102-104 | normalising text that is already folded leaves it unchanged |
| ScopeValidator.NormaliseAppend | src/utils/scopeValidator.js:102-104 | normalising works character by character: the normalised join is the join of the normalised parts |
| ScopeValidator.ValidateQuestionScope | src/utils/scopeValidator.js:97-138 | a question is refused exactly when it is missing, empty, or contains an off-topic keyword after normalisation; accepted questions give the short reason under 15 characters, the course reason exactly when a course keyword occurs, and the generic reason otherwise |
| ScopeValidator.AccentedKeywordNeverMatches | src/utils/scopeValidator.js:102-120 | a keyword holding an accented letter never occurs in a normalised question, so its accented spellings in the lists are dead |
| ScopeValidator.MotorRejectedAsWritten | src/utils/scopeValidator.js:107-116 | as written, the course keyword `motor` and any question containing it are refused as off-topic |
| ScopeValidator.MentionsMoto | src/utils/scopeValidator.js:72 | a question mentioning `motor` contains the off-topic keyword `moto` after normalisation |
| ScopeValidator.ValidateQuestionScopeByWord | src/utils/scopeValidator.js:97-138 | corrected: a question is refused exactly when it is missing, empty, or holds an off-topic keyword as a whole word; accepted questions get the reasons of the original |
| ScopeValidator.ByWordRejectsLess | src/utils/scopeValidator.js:97-138 | the corrected validator refuses only questions the original refuses, with the same reason, and accepts every question the original accepts, with the same reason |
| ScopeValidator.MotorAcceptedByWord | src/utils/scopeValidator.js:29 | corrected: the question `motor` is accepted |
| ScopeValidator.GenerateOutOfScopeResponse | src/utils/scopeValidator.js:144-164 | the out-of-scope answer is flagged out of scope, has a text and suggests seven distinct topics |
| Welcome.UserMessage | src/pages/Welcome.jsx:331-338 | the user's message takes the next id and the trimmed text |
| Welcome.Placeholder | src/pages/Welcome.jsx:344-356 | the answer bubble takes the id after it, starts empty and is streaming |
| Welcome.SubmittedShape | src/pages/Welcome.jsx:331-356 | a submit keeps the old messages, appends the user's text and the answer, keeps ids equal to positions, and leaves nothing streaming |
| Welcome.Dedup | src/pages/Welcome.jsx:162 | `new Set(list)` holds each id of the list exactly once |
| Welcome.ChatPage.constructor | src/pages/Welcome.jsx:19-51 | the page starts with the date title of today, a fresh session, no current chat, only the welcome message, no history, no tombstones and no feedback |
| Welcome.ChatPage.Type | src/pages/Welcome.jsx:19 | typing sets the input text |
| Welcome.ChatPage.RestoreDeleted | src/pages/Welcome.jsx:157-169 | saved tombstones replace the set, without repeats; unreadable ones clear it; none leaves it as it was |
| Welcome.ChatPage.LoadHistory | src/pages/Welcome.jsx:60-113 | an already loaded history is kept unless a reload is forced; otherwise the list becomes the undeleted conversations newest first, or empty when the backend gave no array or failed, and it counts as loaded |
| Welcome.ChatPage.MountLoad | src/pages/Welcome.jsx:171-179 | as written, the delayed first load filters by the first render's empty tombstone set and always loads |
| Welcome.ChatPage.HandleSubmit | src/pages/Welcome.jsx:324-506 | a blank input or a pending answer changes nothing; otherwise the right backend call is made, the user message and the final answer are appended, the input is cleared and loading ends; a first message that starts a chat adopts its session |
| Welcome.ChatPage.Submit | src/pages/Welcome.jsx:328-505 | an accepted text calls `startChat` on a fresh conversation and `sendChatMessage` with the session otherwise, and appends the text and the final answer |
| Welcome.ChatPage.Respond | src/pages/Welcome.jsx:362-504 | the bubble ends with the final answer and not streaming, loading ends, and only a successful `startChat` changes the session |
| Welcome.ChatPage.FinishAnswer | src/pages/Welcome.jsx:401-414 | the direct answer fills the bubble, stops its streaming and ends loading, leaving earlier messages alone |
| Welcome.ChatPage.ApplyCallbacks | src/pages/Welcome.jsx:418-465 | the callbacks patch only the bubble, and loading ends exactly when one of them is terminal |
| Welcome.ApplyStep | src/pages/Welcome.jsx:421-429 | one callback patches the bubble as the next step of the run and nothing else |
| Welcome.ChatPage.HandleNewChat | src/pages/Welcome.jsx:793-826 | a new chat has a new session, no current chat, only the welcome message, no feedback, today's date title, and the history is reloaded at next opening |
| Welcome.ChatPage.HandleLoadChat | src/pages/Welcome.jsx:674-791 | the chosen conversation becomes the current chat and session, takes its display title and its loaded messages, and feedback is reset, whether loading succeeded or not |
| Welcome.ChatPage.HandleDeleteChat | src/pages/Welcome.jsx:633-671 | the conversation's key becomes a tombstone (once), it leaves the list, the tombstones are saved, the backend is asked to delete that key, and deleting the open conversation starts a new chat while any other deletion leaves the open chat alone |
| Welcome.ChatPage.Forget | src/pages/Welcome.jsx:637-656 | the key joins the tombstones once, the list drops that conversation, and the saved list is the old tombstones plus the key |
| Welcome.ChatPage.BeginFeedback | src/pages/Welcome.jsx:509-553 | a click is ignored while feedback is being sent or when the same kind was already sent; otherwise the message is marked sending, a session id that is not a UUID is replaced, and the request names the session, the message and the kind |
| Welcome.ChatPage.FinishFeedback | src/pages/Welcome.jsx:555-568 | a sent feedback is marked sent; a failed one is forgotten, so it can be given again |
| Welcome.FeedbackCycle | src/pages/Welcome.jsx:514-568 | while sending, every click is ignored; once sent, only a click of the same kind is; after a failure none is |
| Welcome.DedupDistinct | src/pages/Welcome.jsx:162 | a list of distinct ids is its own set |
| Welcome.DeletedRestores | src/pages/Welcome.jsx:637-656 | the saved tombstone list read back at start-up is the tombstone set after deletion |
| Welcome.DeletedStaysHidden | src/pages/Welcome.jsx:80-83 | a conversation with a tombstone is absent from every list loaded with the tombstones in force |
| Welcome.MountLoadShowsDeleted | src/pages/Welcome.jsx:157-179 | as written, a conversation whose tombstone was restored at start-up is listed again by the delayed first load, which the filtered load would hide |
| Welcome.VisibleUnchanged | src/pages/Welcome.jsx:640-642 | filtering out tombstones none of the list carries leaves the list unchanged |

## Left out

- Rendering, scrolling, focus, icons, and the copy-to-clipboard button (`handleCopyMessage`). None of these changes what the model states.
- Logging through `console`. It has no effect on state.
- JSON parsing. A stream frame is decoded by a parameter `decode`. A fetch reply is a value that either carries its parsed body or says the body was unreadable.
- Bytes and `TextDecoder`. The stream body is a sequence of already-decoded text chunks.
- `decodeMoodleToken` is imported by `MoodleAuthWrapper.jsx` but defined in no file of the repository. Its outcome is an input to the model.
- `generateUUID` and `Math.random`. Each new session id is a parameter.
- Clocks, dates, time zones and invalid dates. `Date.now()` is one parameter `now`, used for both of `handleSubmit`'s calls. Day differences and calendar dates are inputs.
- Timers. The 1-second delay before the first history load (its stale tombstone set is listed under Findings), the one-minute re-render and the 10-second handshake timer are left out. The handshake race is an input saying which side settled first.
- Concurrency between awaits and React's batching of state updates. Each handler is modelled as running to completion.
- Environment variables: the API base URL, `VITE_X_DEV_USER`, and the development-mode flag. They are parameters or constants.
- Percent-encoding of query parameters.
- `saveCurrentChat` and its effect, the title editing handlers with their `renameChat` call, and `clearDeletedChats`. These are left out of the page model; the `saveChat` and `renameChat` requests themselves are modelled.
- The `loadHistory(true)` reloads inside `handleSubmit`.
- The `isHistoryOpen` and `isLoadingHistory` flags.
- Message timestamps, which are not stored.
- `toLowerCase` and NFD decomposition are modelled for Basic Latin and Latin-1 letters only. Other characters pass through unchanged.
- DayLabels.Num: a label without digits reads as 0. Such a label arises only from an invalid date: a chat with none of `timestamp`, `created_at` and `date` gets the label `HÁ NaN ANOS`, and when another year label is present the year comparator throws on `null[0]` during render. Invalid dates are left out; day differences are whole numbers.
- MoodleAuth.GetMoodleUser: never fails. The source's `JSON.parse` throws on a malformed `moodle_user`; the start-up check catches that, the render does not.
- ScopeValidator.ValidateQuestionScope: the 15-character threshold counts characters, where `.length` counts UTF-16 code units. The two differ only for characters outside the Basic Multilingual Plane.
- HistorySidebar.GroupByDate: the rank order of groups is stated only when no chat is dated in the future.
- HistorySidebar.GroupsByAge: stated only when no chat is dated in the future.
- AnswerText.ErrorText: states which of the two texts is shown. It does not spell out the texts themselves.

## Findings

| source | as written | input that shows it | evidently intended | confidence | as-written member | corrected member |
|---|---|---|---|---|---|---|
| src/utils/scopeValidator.js:72 | the off-topic keyword `moto` is tested with `includes`, so it matches inside `motor`, a course keyword | the question `motor`, or any question about electric motors | off-topic keywords match whole words only | high (not executed) | ScopeValidator.MotorRejectedAsWritten | ScopeValidator.ValidateQuestionScopeByWord, ScopeValidator.MotorAcceptedByWord, ScopeValidator.ByWordRejectsLess |
| src/services/chatService.js:446-458 | an error body is read with `json()` and, when that fails, again with `text()`; the second read throws because the body was already consumed, and the status is lost | a feedback request answered 422 with a plain-text body | the error names its status and the body, read once | high (not executed) | ChatService.SendFeedbackAsWritten, ChatService.SendFeedbackAsWrittenLosesStatus | ChatService.SendFeedback, ChatService.SendFeedbackNamesStatus |
| src/components/HistorySidebar.jsx:247-248 | the year comparator gives the key 1 to every label containing `1 ANO`, which includes `HÁ 11 ANOS` and `HÁ 21 ANOS` | one chat 2 years old and one 11 years old: the 11-year group is listed first | year groups are listed by the number of years, like the other categories | high (not executed) | DayLabels.ElevenYearsListedFirst | DayLabels.TwoYearsListedFirst, DayLabels.OrderedLabelsSorted, HistorySidebar.GroupByDate |
| src/pages/Welcome.jsx:171-179 | the mount effect has no dependencies, so its timer calls the first render's `loadHistory`, which filters by the initial empty tombstone set; the tombstones restored at lines 157-169 are not applied | delete a conversation whose backend delete fails, then reload the page while the backend still lists it: it is listed again | the first automatic load hides every conversation with a saved tombstone | high (not executed) | Welcome.ChatPage.MountLoad, Welcome.MountLoadShowsDeleted | Welcome.ChatPage.LoadHistory, Welcome.DeletedStaysHidden |

=== FILE: answer_text.dfy ===
/** The text shown in the answer bubble: how it is patched while an answer
    streams in, and what it ends as when something fails. */
module AnswerText {
  import opened Wrappers
  import opened Strings
  import opened Http
  import opened ChatStream
  import opened ChatService
  import opened ChatMessages

  const GENERIC_ERROR_TEXT: string :=
    "Desculpe, ocorreu um erro ao processar sua mensagem. Por favor, tente novamente."

  /** The server-fault notice, line by line. */
  const DOWN_HEADING: string := "\U{1F527} Sistema Temporariamente Indisponível"
  const DOWN_CAUSE: string := "O servidor está passando por instabilidade técnica."
  const DOWN_OPTIONS: string := "\U{1F4CB} O que você pode fazer:"
  const DOWN_WAIT: string := "\U{2022} Aguardar alguns minutos e tentar novamente"
  const DOWN_READ: string := "\U{2022} Consultar as apostilas oficiais do curso"
  const DOWN_NOTE: string := "\U{2022} Anotar suas dúvidas para perguntar depois"
  const DOWN_RETRY: string := "\U{23F0} Tente novamente em alguns minutos"
  const DOWN_NOTIFIED: string := "\U{1F527} Nossa equipe técnica foi notificada automaticamente"
  const DOWN_STATUS: string := "Status: Erro 500 - Problema interno do servidor"

  /** The server-fault notice, its lines joined with newlines. */
  const SERVER_DOWN_TEXT: string :=
    DOWN_HEADING + "\n\n" + DOWN_CAUSE + "\n\n" + DOWN_OPTIONS + "\n" + DOWN_WAIT + "\n" + DOWN_READ + "\n"
    + DOWN_NOTE + "\n\n" + DOWN_RETRY + "\n" + DOWN_NOTIFIED + "\n\n" + DOWN_STATUS

  /** The text the `catch` of `handleSubmit` shows for an error message. */
  function ErrorText(message: string): (r: string)
    ensures Contains(message, "500") || Contains(message, "Servidor com problema") ==> r == SERVER_DOWN_TEXT
    ensures !Contains(message, "500") && !Contains(message, "Servidor com problema") ==> r == GENERIC_ERROR_TEXT
  {
    if Contains(message, "500") || Contains(message, "Servidor com problema") then SERVER_DOWN_TEXT
    else GENERIC_ERROR_TEXT
  }

  /** A change to one message: `{...msg, text}` while chunks arrive, and
      `{...msg, text, isStreaming: false}` at the end. */
  datatype Patch = SetText(text: string) | Finish(text: string)

  function Patched(m: Message, p: Patch): (r: Message)
    ensures r == m.(text := p.text, isStreaming := if p.Finish? then false else m.isStreaming)
  {
    match p
    case SetText(t) => m.(text := t)
    case Finish(t) => m.(text := t, isStreaming := false)
  }

  /** `prev.map(msg => msg.id === id ? patched : msg)`. */
  function MapById(ms: seq<Message>, id: int, p: Patch): (r: seq<Message>)
    ensures |r| == |ms|
    ensures forall i :: 0 <= i < |ms| ==> r[i] == if ms[i].id == id then Patched(ms[i], p) else ms[i]
  {
    seq(|ms|, i requires 0 <= i < |ms| => if ms[i].id == id then Patched(ms[i], p) else ms[i])
  }

  /** With ids that are positions, an update by id changes that one message and
      nothing else. */
  lemma MapByIdChangesOne(ms: seq<Message>, k: nat, p: Patch)
    requires IdsArePositions(ms) && k < |ms|
    ensures MapById(ms, k + 1, p) == ms[k := Patched(ms[k], p)]
    ensures IdsArePositions(MapById(ms, k + 1, p))
  {
  }

  /** The update each callback of `getChatStream` makes to the answer bubble. */
  function PatchOf(c: Callback): Patch {
    match c
    case OnChunk(_, accumulated, _) => SetText(accumulated)
    case OnComplete(finalText) => Finish(finalText)
    case OnError(_) => Finish(GENERIC_ERROR_TEXT)
  }

  /** A message after the updates of a run of callbacks. */
  function Applied(m: Message, cs: seq<Callback>): (r: Message)
    ensures r.id == m.id && r.msgType == m.msgType && r.messageId == m.messageId && r.isWelcome == m.isWelcome
    decreases |cs|
  {
    if cs == [] then m else Patched(Applied(m, cs[..|cs| - 1]), PatchOf(cs[|cs| - 1]))
  }

  /** After chunks and one terminal callback, the bubble holds the terminal text and
      is no longer streaming. */
  lemma AppliedTerminal(m: Message, cs: seq<Callback>)
    requires |cs| >= 1 && !cs[|cs| - 1].OnChunk?
    ensures Applied(m, cs) == m.(text := PatchOf(cs[|cs| - 1]).text, isStreaming := false)
  {
  }

  /** `chatResponse.response || .message || .answer || .text`. */
  function DirectAnswer(r: ChatReply): string {
    Or(Or(Or(r.response, r.message), r.answer), r.text)
  }

  /** The backend call of a submit: `startChat` for the first message of a
      conversation, `sendChatMessage` after. */
  function Answer(first: bool, reply: Reply<ChatReply>): Result<ChatReply> {
    if first then StartChat(reply) else SendChatMessage(reply)
  }

  /** The text the answer bubble ends with: the direct answer if there is one, else
      the streamed answer, and the error text for whatever was thrown. */
  function FinalText(first: bool, reply: Reply<ChatReply>, fetch: StreamFetch,
                     storedChat: Option<StoredChat>, decode: Decoder): (r: string)
    ensures Answer(first, reply).Err? ==> r == ErrorText(Answer(first, reply).message)
    // the backend's own answer is shown as it is
    ensures Answer(first, reply).Ok? && DirectAnswer(Answer(first, reply).value) != "" ==>
      r == DirectAnswer(Answer(first, reply).value)
    // without one, the stream's answer or, when the stream throws, the error text
    ensures Answer(first, reply).Ok? && DirectAnswer(Answer(first, reply).value) == "" ==>
      match StreamResult(fetch, storedChat, decode)
      case Ok(t) => r == t
      case Err(m) => r == ErrorText(m)
  {
    match Answer(first, reply)
    case Err(m) => ErrorText(m)
    case Ok(chat) =>
      if DirectAnswer(chat) != "" then DirectAnswer(chat)
      else
        match StreamResult(fetch, storedChat, decode)
        case Ok(t) => t
        case Err(m) => ErrorText(m)
  }

  /** A 500 from `startChat` shows the server-fault text. */
  lemma StartChatFaultShown(reply: Reply<ChatReply>, fetch: StreamFetch, storedChat: Option<StoredChat>, decode: Decoder)
    requires reply.Reply? && reply.status == 500
    ensures FinalText(true, reply, fetch, storedChat, decode) == SERVER_DOWN_TEXT
  {
    assert Answer(true, reply) == Err(SERVER_FAULT_MESSAGE);
    ServerFaultNamesFiveHundred();
  }

  lemma ServerFaultNamesFiveHundred()
    ensures Contains(SERVER_FAULT_MESSAGE, "500")
  {
    assert SERVER_FAULT_MESSAGE == "Erro " + "500" + (": " + SERVER_FAULT_DETAIL);
    ContainsMiddle("Erro ", "500", ": " + SERVER_FAULT_DETAIL);
  }

  /** Any failing status from `sendChatMessage`, a 500 included, shows the generic
      text: its error does not say which status it was. */
  lemma SendMessageFaultGeneric(reply: Reply<ChatReply>, fetch: StreamFetch, storedChat: Option<StoredChat>, decode: Decoder)
    requires reply.Reply? && !IsOk(reply.status)
    ensures FinalText(false, reply, fetch, storedChat, decode) == GENERIC_ERROR_TEXT
  {
    assert Answer(false, reply) == Err(SEND_MESSAGE_ERROR);
    SendMessageErrorIsGeneric();
  }

  lemma SendMessageErrorIsGeneric()
    ensures ErrorText(SEND_MESSAGE_ERROR) == GENERIC_ERROR_TEXT
  {
    assert '5' !in SEND_MESSAGE_ERROR && 'S' !in SEND_MESSAGE_ERROR;
    GenericWithoutFiveOrS(SEND_MESSAGE_ERROR);
  }

  /** A message with neither a `5` nor an `S` in it gets the generic text. */
  lemma GenericWithoutFiveOrS(message: string)
    requires '5' !in message && 'S' !in message
    ensures ErrorText(message) == GENERIC_ERROR_TEXT
  {
    MissingChar(message, "500", 0);
    MissingChar(message, "Servidor com problema", 0);
  }

  /** When the answer has to be streamed and the stream answers 500, the
      server-fault text is shown. */
  lemma StreamFaultShown(first: bool, reply: Reply<ChatReply>, chunks: seq<string>, readError: Option<string>,
                         storedChat: Option<StoredChat>, decode: Decoder)
    requires Answer(first, reply).Ok? && DirectAnswer(Answer(first, reply).value) == ""
    ensures FinalText(first, reply, Responded(500, chunks, readError), storedChat, decode) == SERVER_DOWN_TEXT
  {
    StreamErrorNamesFiveHundred();
  }

  lemma StreamErrorNamesFiveHundred()
    ensures Contains(StreamErrorMessage(500), "500")
  {
    assert NatToString(5) == "5" && NatToString(50) == "50" && NatToString(500) == "500";
    ContainsMiddle("Erro ao obter stream: ", "500", "");
    assert StreamErrorMessage(500) == "Erro ao obter stream: " + "500" + "";
  }

  /** A streamed answer that reads to the end is shown in full: the text of the
      complete `data:` lines of the whole body. */
  lemma StreamedAnswerShown(first: bool, reply: Reply<ChatReply>, status: int, chunks: seq<string>,
                            storedChat: Option<StoredChat>, decode: Decoder)
    requires Answer(first, reply).Ok? && DirectAnswer(Answer(first, reply).value) == ""
    requires IsOk(status)
    ensures FinalText(first, reply, Responded(status, chunks, None), storedChat, decode)
         == BodyState(chunks, decode).fullText
  {
  }

  /** A missing stream (404) falls back to the last assistant message stored for
      the conversation. */
  lemma MissingStreamFallsBack(first: bool, reply: Reply<ChatReply>, chunks: seq<string>, readError: Option<string>,
                               storedChat: Option<StoredChat>, decode: Decoder)
    requires Answer(first, reply).Ok? && DirectAnswer(Answer(first, reply).value) == ""
    requires LastAssistantText(storedChat) != ""
    ensures FinalText(first, reply, Responded(404, chunks, readError), storedChat, decode)
         == LastAssistantText(storedChat)
  {
  }

  /** `p + w + q` contains `w`. */
  lemma ContainsMiddle(p: string, w: string, q: string)
    ensures Contains(p + w + q, w)
  {
    var s := p + w + q;
    assert s[|p|..|p| + |w|] == w;
    ContainsAt(s, w, |p|);
  }
}

=== FILE: auth_wrapper.dfy ===
/** The sign-in gate around the chat (`MoodleAuthWrapper`): the start-up decision
    (`validateAuth`), the override by an identity posted from the embedding page
    (`handleMessage`), and what is rendered once loading is over.

    The decision is a function of its inputs: the stored user, whether the build is
    a development build, `window.__MOODLE_USER__.userId`, the URL parameters, how the
    race between the handshake and the 10-second timer ended, and what
    `decodeMoodleToken` gives for the token. */
module AuthWrapper {
  import opened Wrappers
  import opened Storage
  import opened MoodleAuth

  datatype AuthState = AuthState(loading: bool, authenticated: bool, user: Option<UserRecord>, error: Option<string>)

  const INITIAL_STATE: AuthState := AuthState(true, false, None, None)

  /** A settled state: not loading, and signed in with a user exactly when there is
      no error. */
  predicate Settled(s: AuthState) {
    !s.loading && (s.authenticated <==> s.user.Some?) && (s.authenticated <==> s.error.None?)
  }

  const DEV_USER: UserRecord := UserRecord("dev-user", "Desenvolvedor", "", Some(false))
  const GUEST_USER: UserRecord := UserRecord("guest", "Visitante", "", Some(false))

  const NO_MOODLE_MESSAGE: string := "Acesso não autorizado. Por favor, acesse através do Moodle."
  const VALIDATION_ERROR_MESSAGE: string := "Erro na validação da sessão"
  const INVALID_SESSION_MESSAGE: string := "Sessão inválida"

  /** How `Promise.race([validateMoodleSession(...), timeout])` ended. */
  datatype RaceOutcome = Validated(result: SessionResult) | TimedOut

  /** What calling `decodeMoodleToken(token)` does: it throws (the function is not
      defined by the service it is imported from), or it returns a user or a falsy
      value. */
  datatype TokenDecode = DecodeThrew | Decoded(user: Option<UserRecord>)

  predicate IsGuest(u: UserRecord) {
    u.userId == "guest" || u.fromMoodle == Some(false)
  }

  /** The outcome of one run of `validateAuth`. */
  datatype AuthDecision = AuthDecision(
    state: AuthState,
    stored: Option<UserRecord>,   // the record written with `storeMoodleUser`, if any
    stripTokens: bool,            // `moodle_token` and `token` are removed from the URL
    validated: bool)              // `validateMoodleSession` was called

  function Authenticated(u: UserRecord): AuthState {
    AuthState(false, true, Some(u), None)
  }

  function Rejected(message: string): AuthState {
    AuthState(false, false, None, Some(message))
  }

  /** The `catch` branch of `validateAuth`. */
  function OnValidationError(isDev: bool): AuthDecision {
    if isDev then AuthDecision(Authenticated(DEV_USER), Some(DEV_USER), false, true)
    else AuthDecision(Rejected(VALIDATION_ERROR_MESSAGE), None, false, true)
  }

  /** `validateAuth`. */
  function ValidateAuth(existing: Option<UserRecord>, windowUserId: string, isDev: bool,
                        params: UrlParams, race: RaceOutcome, decoded: TokenDecode): (d: AuthDecision)
    ensures Settled(d.state)
    ensures d.stripTokens ==> d.validated && race.Validated? && race.result.ok
    ensures d.state.authenticated && d.stored.Some? ==> d.state.user == d.stored
  {
    if existing.Some? && HasIdentity(existing.value)
       && (!IsGuest(existing.value) || windowUserId != "") then
      AuthDecision(Authenticated(existing.value), None, false, false)
    else if isDev then
      AuthDecision(Authenticated(DEV_USER), Some(DEV_USER), false, false)
    else if IsFromMoodle(params) then
      match race
      case TimedOut => OnValidationError(isDev)
      case Validated(result) =>
        if result.ok then
          var userData := UserRecord(result.userId, result.userName, result.userEmail, Some(true));
          AuthDecision(Authenticated(userData), Some(userData), true, true)
        else
          match decoded
          case DecodeThrew => OnValidationError(isDev)
          case Decoded(user) =>
            if user.Some? && user.value.userId != "" then
              AuthDecision(Authenticated(user.value), Some(user.value), false, true)
            else
              AuthDecision(Rejected(if result.error != "" then result.error else INVALID_SESSION_MESSAGE), None, false, true)
    else
      AuthDecision(Rejected(NO_MOODLE_MESSAGE), None, false, false)
  }

  /** A stored user with some identity who is not a guest is let in as is, with no
      handshake and no write. */
  lemma ExistingUserShortCircuits(u: UserRecord, windowUserId: string, isDev: bool,
                                  params: UrlParams, race: RaceOutcome, decoded: TokenDecode)
    requires HasIdentity(u) && !IsGuest(u)
    ensures ValidateAuth(Some(u), windowUserId, isDev, params, race, decoded)
         == AuthDecision(Authenticated(u), None, false, false)
  {
  }

  /** A stored guest is reused exactly when the host page published a user id;
      otherwise the decision is the one made with no stored user at all. */
  lemma GuestReusedOnlyWithWindowUser(u: UserRecord, windowUserId: string, isDev: bool,
                                      params: UrlParams, race: RaceOutcome, decoded: TokenDecode)
    requires HasIdentity(u) && IsGuest(u)
    ensures windowUserId != "" ==>
      ValidateAuth(Some(u), windowUserId, isDev, params, race, decoded).state == Authenticated(u)
    ensures windowUserId == "" ==>
      ValidateAuth(Some(u), windowUserId, isDev, params, race, decoded)
      == ValidateAuth(None, windowUserId, isDev, params, race, decoded)
  {
  }

  /** A development build that has no usable stored user stores and signs in the
      fixed development user without contacting the backend. */
  lemma DevModeUsesDevUser(existing: Option<UserRecord>, windowUserId: string,
                           params: UrlParams, race: RaceOutcome, decoded: TokenDecode)
    requires existing.None? || !HasIdentity(existing.value)
    ensures ValidateAuth(existing, windowUserId, true, params, race, decoded)
         == AuthDecision(Authenticated(DEV_USER), Some(DEV_USER), false, false)
  {
  }

  /** A successful handshake stores the user, marked as coming from Moodle, signs
      it in and removes the tokens from the URL. */
  lemma HandshakeOkStoresMoodleUser(existing: Option<UserRecord>, windowUserId: string,
                                    params: UrlParams, result: SessionResult, decoded: TokenDecode)
    requires existing.None? || !HasIdentity(existing.value)
    requires IsFromMoodle(params) && result.ok
    ensures var d := ValidateAuth(existing, windowUserId, false, params, Validated(result), decoded);
      && d.stored == Some(UserRecord(result.userId, result.userName, result.userEmail, Some(true)))
      && d.state.authenticated && d.state.user == d.stored
      && d.stripTokens
  {
  }

  /** A rejected handshake falls back to the decoded token when it names a user, and
      otherwise reports the handshake's error, or a fixed text when it has none. */
  lemma HandshakeRejected(existing: Option<UserRecord>, windowUserId: string,
                          params: UrlParams, result: SessionResult, decoded: Option<UserRecord>)
    requires existing.None? || !HasIdentity(existing.value)
    requires IsFromMoodle(params) && !result.ok
    ensures var d := ValidateAuth(existing, windowUserId, false, params, Validated(result), Decoded(decoded));
      && (decoded.Some? && decoded.value.userId != "" ==> d.state == Authenticated(decoded.value) && d.stored == decoded)
      && (decoded.None? || decoded.value.userId == "" ==>
            d.state == Rejected(if result.error != "" then result.error else INVALID_SESSION_MESSAGE) && d.stored.None?)
      && !d.stripTokens
  {
  }

  /** A timeout goes straight to the error handler: the decoded token is never
      consulted, production reports a generic error and development signs in the
      development user. */
  lemma TimeoutBypassesDecode(existing: Option<UserRecord>, windowUserId: string, isDev: bool,
                              params: UrlParams, decoded1: TokenDecode, decoded2: TokenDecode)
    requires existing.None? || !HasIdentity(existing.value)
    requires IsFromMoodle(params)
    ensures ValidateAuth(existing, windowUserId, isDev, params, TimedOut, decoded1)
         == ValidateAuth(existing, windowUserId, isDev, params, TimedOut, decoded2)
    ensures !isDev ==>
      ValidateAuth(existing, windowUserId, isDev, params, TimedOut, decoded1).state == Rejected(VALIDATION_ERROR_MESSAGE)
  {
  }

  /** In production, a page not opened from Moodle is refused without a handshake. */
  lemma ProductionWithoutToken(existing: Option<UserRecord>, windowUserId: string,
                               params: UrlParams, race: RaceOutcome, decoded: TokenDecode)
    requires existing.None? || !HasIdentity(existing.value)
    requires !IsFromMoodle(params)
    ensures var d := ValidateAuth(existing, windowUserId, false, params, race, decoded);
      d.state == Rejected(NO_MOODLE_MESSAGE) && !d.validated && d.stored.None?
  {
  }

  /** A `message` event's `data`: its `type`, its `payload` when truthy, and the
      object itself read as a user record. */
  datatype MessageData = MessageData(msgType: string, payload: Option<UserRecord>, asUser: UserRecord)

  /** The user a message carries, if `handleMessage` acts on it. */
  function MessageUser(data: Option<MessageData>): (u: Option<UserRecord>)
    ensures u.Some? ==> data.Some?
    ensures data.Some? && data.value.msgType == "senai_moodle_user" && data.value.payload.Some? ==> u == data.value.payload
    ensures data.Some? && !(data.value.msgType == "senai_moodle_user" && data.value.payload.Some?) ==>
      (u.Some? <==> HasIdentity(data.value.asUser)) && (u.Some? ==> u.value == data.value.asUser)
  {
    if data.None? then None
    else if data.value.msgType == "senai_moodle_user" && data.value.payload.Some? then data.value.payload
    else if HasIdentity(data.value.asUser) then Some(data.value.asUser)
    else None
  }

  /** The component's state and the session storage it writes to. */
  class Gate {
    var state: AuthState
    var urlParams: UrlParams
    const store: KeyValueStore<UserRecord>

    constructor (store: KeyValueStore<UserRecord>, urlParams: UrlParams)
      ensures this.store == store && this.urlParams == urlParams
      ensures state == INITIAL_STATE
    {
      this.store := store;
      this.urlParams := urlParams;
      state := INITIAL_STATE;
    }

    /** Run `validateAuth` against the current storage and URL. */
    method Validate(windowUserId: string, isDev: bool, race: RaceOutcome, decoded: TokenDecode)
      modifies this, store
      ensures var d := ValidateAuth(old(GetMoodleUser(store)), windowUserId, isDev, old(urlParams), race, decoded);
        && state == d.state
        && (d.stored.Some? ==> store.items == old(store.items)[USER_KEY := d.stored.value])
        && (d.stored.None? ==> store.items == old(store.items))
        && urlParams == (if d.stripTokens then old(urlParams) - {"moodle_token", "token"} else old(urlParams))
      ensures Settled(state)
    {
      var d := ValidateAuth(GetMoodleUser(store), windowUserId, isDev, urlParams, race, decoded);
      if d.stored.Some? {
        StoreMoodleUser(store, d.stored.value);
      }
      state := d.state;
      if d.stripTokens {
        urlParams := urlParams - {"moodle_token", "token"};
      }
    }

    /** `handleMessage`: an identity posted by the embedding page is stored and signs
        the user in whatever the state was; any other message changes nothing. */
    method HandleMessage(data: Option<MessageData>)
      modifies this, store
      ensures urlParams == old(urlParams)
      ensures MessageUser(data).Some? ==>
        && state == old(state).(loading := false, authenticated := true, user := MessageUser(data), error := None)
        && store.items == old(store.items)[USER_KEY := MessageUser(data).value]
      ensures MessageUser(data).None? ==> state == old(state) && store.items == old(store.items)
      ensures MessageUser(data).Some? ==> Settled(state)
    {
      var u := MessageUser(data);
      if u.Some? {
        StoreMoodleUser(store, u.value);
        state := state.(loading := false, authenticated := true, user := u, error := None);
      }
    }

    /** The render: `None` while loading (the spinner), otherwise the children. An
        unauthenticated visitor in a top-level window with no token and no
        identified non-guest user is stored as the guest user first. */
    method Render(inFrame: bool) returns (showsChildren: bool)
      modifies store
      ensures showsChildren <==> !state.loading
      ensures var existing := old(GetMoodleUser(store));
        var keep := (existing.Some? && HasIdentity(existing.value) && existing.value.userId != "guest")
                    || Truthy(TokenFromUrl(urlParams).token);
        if !state.loading && !state.authenticated && !keep && !inFrame
        then store.items == old(store.items)[USER_KEY := GUEST_USER]
        else store.items == old(store.items)
    {
      if state.loading {
        return false;
      }
      if !state.authenticated {
        var token := TokenFromUrl(urlParams).token;
        var existing := GetMoodleUser(store);
        if (existing.Some? && HasIdentity(existing.value) && existing.value.userId != "guest") || Truthy(token) {
          return true;
        }
        if !inFrame {
          StoreMoodleUser(store, GUEST_USER);
        }
        return true;
      }
      return true;
    }
  }

  /** After a guest is stored, the next start-up in the same top-level window does
      not reuse it unless the host page publishes a user id. */
  lemma GuestNotReusedAtTopLevel(isDev: bool, params: UrlParams, race: RaceOutcome, decoded: TokenDecode)
    ensures ValidateAuth(Some(GUEST_USER), "", isDev, params, race, decoded)
         == ValidateAuth(None, "", isDev, params, race, decoded)
  {
  }
}

=== FILE: chat_messages.dfy ===
/** The messages the chat page holds, the messages of a reopened conversation,
    and the order of the conversation list it loads. */
module ChatMessages {
  import opened Wrappers
  import opened Strings
  import opened Sorting
  import opened HistorySidebar

  /** One chat message as the page holds it. `msgType` is `'user'`, `'ai'` or
      whatever a stored message said; absent flags are false. */
  datatype Message = Message(id: int, msgType: string, text: string, messageId: string,
                             isWelcome: bool, isStreaming: bool)

  const WELCOME_TEXT: string := "Olá! Eu sou a SEN.AI, sua parceira de estudo."
  const WELCOME_MESSAGE: Message := Message(1, "ai", WELCOME_TEXT, "welcome-msg", true, false)

  /** Every message's `id` is its position counted from 1. */
  predicate IdsArePositions(ms: seq<Message>) {
    forall i :: 0 <= i < |ms| ==> ms[i].id == i + 1
  }

  /** A message as the backend stores it; a missing or falsy property is "" (or
      false). `isUser` is `is_user || isUser`, `messageIdField` is `message_id`. */
  datatype RawMessage = RawMessage(msgType: string, sender: string, role: string, isUser: bool,
                                   text: string, content: string, message: string, response: string,
                                   id: string, messageIdField: string)

  function MessageType(m: RawMessage): (t: string)
    ensures t != ""
    ensures m.msgType == "" && m.sender == "" ==> t == "user" || t == "ai"
  {
    if m.msgType != "" then m.msgType
    else if m.sender != "" then m.sender
    else if m.role != "" then (if m.role == "user" then "user" else "ai")
    else if m.isUser then "user"
    else "ai"
  }

  /** One element of the `messagesToLoad.map(...)` in `handleLoadChat`. */
  function NormalizeMessage(m: RawMessage, index: nat): (r: Message)
    ensures r.id == index + 1 && r.messageId != "" && !r.isStreaming
    ensures r.isWelcome <==> index == 0 && r.msgType == "ai"
  {
    var messageType := MessageType(m);
    Message(index + 1, messageType, Or(Or(Or(m.text, m.content), m.message), m.response),
            Or(Or(m.id, m.messageIdField), "msg-" + NatToString(index)),
            index == 0 && messageType == "ai", false)
  }

  function NormalizeMessages(ms: seq<RawMessage>): (r: seq<Message>)
    ensures |r| == |ms| && IdsArePositions(r)
    ensures forall i :: 0 <= i < |r| ==> r[i] == NormalizeMessage(ms[i], i)
    ensures forall i :: 1 <= i < |r| ==> !r[i].isWelcome
  {
    seq(|ms|, i requires 0 <= i < |ms| => NormalizeMessage(ms[i], i))
  }

  /** Stored messages without ids get the distinct ids `msg-0`, `msg-1`, ... */
  lemma FallbackIdsDistinct(ms: seq<RawMessage>, i: nat, j: nat)
    requires i < j < |ms|
    requires ms[i].id == "" && ms[i].messageIdField == "" && ms[j].id == "" && ms[j].messageIdField == ""
    ensures NormalizeMessages(ms)[i].messageId != NormalizeMessages(ms)[j].messageId
  {
    var a, b := NormalizeMessages(ms)[i].messageId, NormalizeMessages(ms)[j].messageId;
    assert a == "msg-" + NatToString(i) && b == "msg-" + NatToString(j);
    if a == b {
      assert NatToString(i) == a[4..] == b[4..] == NatToString(j);
      NatToStringInjective(i, j);
    }
  }

  /** The response of `loadChat`; a property is `Some` when it is an array. */
  datatype ChatData = ChatData(messages: Option<seq<RawMessage>>, history: Option<seq<RawMessage>>,
                               conversation: Option<seq<RawMessage>>, dataMessages: Option<seq<RawMessage>>)

  /** One entry of the conversation list. `titleDate` is the calendar date of its
      first truthy date property when that parses; `updatedAt` and `createdAt` are
      the times of `updated_at` and `created_at` when truthy (`Some(0)` is a truthy
      value that parses to time 0; a falsy property is `None`). */
  datatype HistoryChat = HistoryChat(id: string, sessionId: string, chatId: string, title: string,
                                     updatedAt: Option<int>, createdAt: Option<int>,
                                     titleDate: Option<CalendarDate>, messages: Option<seq<RawMessage>>)

  /** `chat.id || chat.session_id || chat.chat_id`. */
  function ChatKey(c: HistoryChat): string {
    Or(Or(c.id, c.sessionId), c.chatId)
  }

  /** The first of the four response formats that is an array, else the list
      entry's own messages. */
  function MessagesToLoad(d: ChatData, chat: HistoryChat): (r: seq<RawMessage>)
    ensures r == [] || Some(r) in [d.messages, d.history, d.conversation, d.dataMessages, chat.messages]
    // the formats are tried in this order, and the first array wins
    ensures d.messages.Some? ==> r == d.messages.value
    ensures d.messages.None? && d.history.Some? ==> r == d.history.value
    ensures d.messages.None? && d.history.None? && d.conversation.Some? ==> r == d.conversation.value
    ensures d.messages.None? && d.history.None? && d.conversation.None? && d.dataMessages.Some? ==>
      r == d.dataMessages.value
    ensures d.messages.None? && d.history.None? && d.conversation.None? && d.dataMessages.None? ==>
      r == chat.messages.GetOr([])
  {
    if d.messages.Some? then d.messages.value
    else if d.history.Some? then d.history.value
    else if d.conversation.Some? then d.conversation.value
    else if d.dataMessages.Some? then d.dataMessages.value
    else if chat.messages.Some? then chat.messages.value
    else []
  }

  /** The message list `handleLoadChat` installs: the stored messages normalised, or
      the welcome message alone when there are none or `loadChat` throws. */
  function LoadedMessages(loaded: Result<ChatData>, chat: HistoryChat): (r: seq<Message>)
    ensures |r| >= 1 && IdsArePositions(r)
    ensures loaded.Err? ==> r == [WELCOME_MESSAGE]
    ensures loaded.Ok? && MessagesToLoad(loaded.value, chat) != [] ==>
      r == NormalizeMessages(MessagesToLoad(loaded.value, chat))
    ensures loaded.Ok? && MessagesToLoad(loaded.value, chat) == [] ==> r == [WELCOME_MESSAGE]
  {
    match loaded
    case Err(_) => [WELCOME_MESSAGE]
    case Ok(d) =>
      var toLoad := MessagesToLoad(d, chat);
      if |toLoad| > 0 then NormalizeMessages(toLoad) else [WELCOME_MESSAGE]
  }

  // ---------------------------------------------------------------------------
  // The conversation list

  /** `new Date(c.updated_at || c.created_at || 0)`. */
  function ChatTime(c: HistoryChat): int {
    match c.updatedAt
    case Some(t) => t
    case None => c.createdAt.GetOr(0)
  }

  /** The sort key of `(a, b) => dateB - dateA`: newest first. */
  function NewestFirst(c: HistoryChat): int {
    -ChatTime(c)
  }

  /** The list without the conversations whose key is a tombstone, in order. */
  function Visible(xs: seq<HistoryChat>, deleted: seq<string>): (r: seq<HistoryChat>)
    ensures |r| <= |xs|
    decreases |xs|
  {
    if xs == [] then []
    else Visible(xs[..|xs| - 1], deleted) + (if ChatKey(xs[|xs| - 1]) in deleted then [] else [xs[|xs| - 1]])
  }

  /** `Visible` keeps exactly the conversations whose key is not a tombstone. */
  lemma {:induction false} VisibleMembers(xs: seq<HistoryChat>, deleted: seq<string>)
    ensures forall c :: c in Visible(xs, deleted) <==> c in xs && ChatKey(c) !in deleted
    decreases |xs|
  {
    if xs != [] {
      var init := xs[..|xs| - 1];
      assert xs == init + [xs[|xs| - 1]];
      VisibleMembers(init, deleted);
    }
  }

  /** What `loadHistory` installs for a list the backend returned. */
  function SortedHistory(xs: seq<HistoryChat>, deleted: seq<string>): seq<HistoryChat> {
    SortBy(Visible(xs, deleted), NewestFirst)
  }

  /** The installed list holds exactly the conversations that are not deleted. */
  lemma HistoryShowsUndeleted(xs: seq<HistoryChat>, deleted: seq<string>)
    ensures multiset(SortedHistory(xs, deleted)) == multiset(Visible(xs, deleted))
    ensures forall c :: c in SortedHistory(xs, deleted) <==> c in xs && ChatKey(c) !in deleted
  {
    var r := SortedHistory(xs, deleted);
    VisibleMembers(xs, deleted);
    forall c
      ensures c in r <==> c in Visible(xs, deleted)
    {
      assert c in r <==> c in multiset(r);
      assert c in Visible(xs, deleted) <==> c in multiset(Visible(xs, deleted));
    }
  }

  /** The installed list is newest first. */
  lemma HistoryNewestFirst(xs: seq<HistoryChat>, deleted: seq<string>, i: nat, j: nat)
    requires i < j < |SortedHistory(xs, deleted)|
    ensures ChatTime(SortedHistory(xs, deleted)[i]) >= ChatTime(SortedHistory(xs, deleted)[j])
  {
    var r := SortedHistory(xs, deleted);
    assert NewestFirst(r[i]) <= NewestFirst(r[j]);
  }

  /** Conversations of the same time (the same key `v`, minus that time) keep the
      order the backend gave them. */
  lemma HistoryTiesKeepOrder(xs: seq<HistoryChat>, deleted: seq<string>, v: int)
    ensures WithKey(SortedHistory(xs, deleted), NewestFirst, v) == WithKey(Visible(xs, deleted), NewestFirst, v)
  {
    SortByStable(Visible(xs, deleted), NewestFirst, v);
  }

}

=== FILE: chat_service.dfy ===
/** The REST calls of the chat service other than streaming (`chatService.js`): which
    user id the requests carry, and how each call turns the HTTP exchange into a
    value, a thrown error, or a fallback. A call's exchange is a `Reply`; the value
    it returns is `Ok`, the error it throws is `Err`. */
module ChatService {
  import opened Wrappers
  import opened Strings
  import opened Http
  import opened MoodleAuth

  /** The build-time `VITE_X_DEV_USER` is not set: the placeholder is used. */
  const X_DEV_USER: string := "{{x-dev-user}}"

  /** `getMoodleUserId`: the stored Moodle user's id when it is set, otherwise the
      development user. Never empty. */
  function MoodleUserId(stored: Option<UserRecord>): (id: string)
    ensures id != ""
    ensures stored.Some? && stored.value.userId != "" ==> id == stored.value.userId
    ensures stored.None? || stored.value.userId == "" ==> id == X_DEV_USER
  {
    if stored.Some? then Or(stored.value.userId, X_DEV_USER) else X_DEV_USER
  }

  /** `Erro <status>: <detail>`, the text of most HTTP failures. */
  function StatusError(status: int, detail: string): string {
    "Erro " + IntToString(status) + ": " + detail
  }

  /** The status can be read back from a status error: it is the first run of
      digits in the text. */
  lemma StatusErrorNamesStatus(status: nat, detail: string)
    ensures FirstDigitRun(StatusError(status, detail)) == Some(NatToString(status))
  {
    var p, d, q := "Erro ", NatToString(status), ": " + detail;
    assert StatusError(status, detail) == p + d + q;
    FirstDigitRunAfter(p, d, q);
  }

  /** The reply of a call that returns `response.json()` when the status is 2xx and
      throws `onHttpError` otherwise; a rejected fetch or an unparsable body throws
      its own error. */
  function Json<T>(reply: Reply<T>, onHttpError: string): (r: Result<T>)
    ensures r.Ok? <==> reply.Reply? && IsOk(reply.status) && reply.body.Ok?
    ensures r.Ok? ==> r.value == reply.body.value
    ensures reply.NetworkFailure? ==> r == Err(reply.message)
    ensures reply.Reply? && !IsOk(reply.status) ==> r == Err(onHttpError)
  {
    match reply
    case NetworkFailure(m) => Err(m)
    case Reply(status, _, _, body) =>
      if !IsOk(status) then Err(onHttpError)
      else match body
        case Ok(v) => Ok(v)
        case Err(m) => Err(m)
  }

  // ---------------------------------------------------------------------------
  // startChat, sendChatMessage, loadChat, renameChat

  /** What `startChat` and `sendChatMessage` answer; a missing field is "". */
  datatype ChatReply = ChatReply(sessionId: string, response: string, message: string,
                                 answer: string, text: string, streamUrl: string)

  const SERVER_FAULT_DETAIL: string := "Servidor com problema interno. Tente novamente em alguns minutos."
  /** The text thrown for a 500: `Erro 500: ` and the detail above. */
  const SERVER_FAULT_MESSAGE: string := "Erro 500: " + SERVER_FAULT_DETAIL

  /** The 500 text has the shape of every other status error, with the detail in
      place of the status text. */
  lemma ServerFaultMessageText()
    ensures SERVER_FAULT_MESSAGE == StatusError(500, SERVER_FAULT_DETAIL)
  {
    assert NatToString(5) == "5";
    assert NatToString(50) == "50";
    assert NatToString(500) == "500";
  }

  /** `startChat`: a 500 gets its own explanatory text, any other HTTP failure
      names its status and status text. */
  function StartChat(reply: Reply<ChatReply>): (r: Result<ChatReply>)
    ensures r.Ok? <==> reply.Reply? && IsOk(reply.status) && reply.body.Ok?
    ensures r.Ok? ==> r.value == reply.body.value
    ensures reply.NetworkFailure? ==> r == Err(reply.message)
    ensures reply.Reply? && reply.status == 500 ==> r == Err(SERVER_FAULT_MESSAGE)
    ensures reply.Reply? && !IsOk(reply.status) && reply.status != 500 ==>
      r == Err(StatusError(reply.status, reply.statusText))
  {
    if reply.Reply? && !IsOk(reply.status) then
      if reply.status == 500 then Err(SERVER_FAULT_MESSAGE)
      else Err(StatusError(reply.status, reply.statusText))
    else Json(reply, "")
  }

  /** Every HTTP failure of `startChat` names its status as the first number of its
      message, so the 500 case mentions `500`. */
  lemma StartChatErrorNamesStatus(reply: Reply<ChatReply>)
    requires reply.Reply? && !IsOk(reply.status) && reply.status >= 0
    ensures StartChat(reply).Err?
    ensures FirstDigitRun(StartChat(reply).message) == Some(NatToString(reply.status))
  {
    if reply.status == 500 {
      ServerFaultMessageText();
      StatusErrorNamesStatus(500, SERVER_FAULT_DETAIL);
    } else {
      StatusErrorNamesStatus(reply.status, reply.statusText);
    }
  }

  const SEND_MESSAGE_ERROR: string := "Erro ao enviar mensagem"
  const LOAD_CHAT_ERROR: string := "Erro ao carregar conversa"
  const RENAME_CHAT_ERROR: string := "Erro ao renomear conversa"

  /** `sendChatMessage`: any HTTP failure is the same fixed message. */
  function SendChatMessage(reply: Reply<ChatReply>): (r: Result<ChatReply>)
    ensures r.Ok? <==> reply.Reply? && IsOk(reply.status) && reply.body.Ok?
    ensures r.Ok? ==> r.value == reply.body.value
    ensures reply.Reply? && !IsOk(reply.status) ==> r == Err(SEND_MESSAGE_ERROR)
  {
    Json(reply, SEND_MESSAGE_ERROR)
  }

  /** `loadChat`: any HTTP failure is the same fixed message. */
  function LoadChat<T>(reply: Reply<T>): (r: Result<T>)
    ensures r.Ok? <==> reply.Reply? && IsOk(reply.status) && reply.body.Ok?
    ensures r.Ok? ==> r.value == reply.body.value
    ensures reply.Reply? && !IsOk(reply.status) ==> r == Err(LOAD_CHAT_ERROR)
  {
    Json(reply, LOAD_CHAT_ERROR)
  }

  /** `renameChat`: any HTTP failure is the same fixed message. */
  function RenameChat<T>(reply: Reply<T>): (r: Result<T>)
    ensures r.Ok? <==> reply.Reply? && IsOk(reply.status) && reply.body.Ok?
    ensures r.Ok? ==> r.value == reply.body.value
    ensures reply.Reply? && !IsOk(reply.status) ==> r == Err(RENAME_CHAT_ERROR)
  {
    Json(reply, RENAME_CHAT_ERROR)
  }

  // ---------------------------------------------------------------------------
  // getChatHistory

  /** The errors `getChatHistory` swallows: those whose message mentions `fetch`
      or `network` (case-sensitive). */
  predicate LooksLikeNetworkError(message: string) {
    Contains(message, "fetch") || Contains(message, "network")
  }

  function RecoverHistory<T>(message: string): (r: Result<Option<seq<T>>>)
    ensures LooksLikeNetworkError(message) ==> r == Ok(Some([]))
    ensures !LooksLikeNetworkError(message) ==> r == Err(message)
  {
    if LooksLikeNetworkError(message) then Ok(Some([])) else Err(message)
  }

  /** `getChatHistory`. The body is `None` when the JSON is not an array. `aborted`
      says the 15-second timer fired before the response arrived. */
  function GetChatHistory<T>(reply: Reply<Option<seq<T>>>, aborted: bool): (r: Result<Option<seq<T>>>)
    ensures aborted ==> r == Ok(Some([]))
    ensures !aborted && reply.Reply? && reply.status == 404 ==> r == Ok(Some([]))
    ensures !aborted && reply.Reply? && IsOk(reply.status) && reply.body.Ok? ==> r == Ok(reply.body.value)
    // every other failure is swallowed when it sounds like the network, and rethrown otherwise
    ensures !aborted && reply.NetworkFailure? ==> r == RecoverHistory(reply.message)
    ensures !aborted && reply.Reply? && !IsOk(reply.status) && reply.status != 404 ==>
      r == RecoverHistory(StatusError(reply.status, reply.statusText))
    ensures !aborted && reply.Reply? && IsOk(reply.status) && reply.body.Err? ==>
      r == RecoverHistory(reply.body.message)
    // what is thrown is the original error, and never one that mentions the network
    ensures r.Err? ==> !aborted && !LooksLikeNetworkError(r.message)
    ensures r.Err? ==>
      || reply == NetworkFailure(r.message)
      || (reply.Reply? && !IsOk(reply.status) && reply.status != 404
          && r.message == StatusError(reply.status, reply.statusText))
      || (reply.Reply? && IsOk(reply.status) && reply.body == Err(r.message))
  {
    if aborted then Ok(Some([]))
    else match reply
      case NetworkFailure(m) => RecoverHistory(m)
      case Reply(status, statusText, _, body) =>
        if !IsOk(status) then
          if status == 404 then Ok(Some([])) else RecoverHistory(StatusError(status, statusText))
        else match body
          case Ok(v) => Ok(v)
          case Err(m) => RecoverHistory(m)
  }

  /** A browser's rejected fetch (`TypeError: Failed to fetch`) gives an empty history. */
  lemma HistoryAfterFailedFetch<T>()
    ensures GetChatHistory<T>(NetworkFailure("Failed to fetch"), false) == Ok(Some([]))
  {
    assert "Failed to fetch"[10..15] == "fetch";
    ContainsAt("Failed to fetch", "fetch", 10);
  }

  /** An HTTP failure other than 404 is thrown unless its status text mentions
      `fetch` or `network`. */
  lemma HistoryHttpFailure<T>(status: int, statusText: string, text: string, body: Result<Option<seq<T>>>)
    requires !IsOk(status) && status != 404
    ensures var r := GetChatHistory(Reply(status, statusText, text, body), false);
      r.Err? <==> !LooksLikeNetworkError(StatusError(status, statusText))
  {
  }

  // ---------------------------------------------------------------------------
  // saveChat

  datatype SaveOutcome<T> = Saved(data: T) | NotImplemented | Failed(error: string)

  const NOT_IMPLEMENTED_MESSAGE: string := "Endpoint n?o implementado"

  /** The query string `URLSearchParams` builds from a truthy `session_id` and
      `title` (percent-encoding is not modelled). */
  function SaveChatQuery(sessionId: string, title: string): (q: string)
    ensures q == "" <==> sessionId == "" && title == ""
    ensures sessionId != "" ==> StartsWith(q, "session_id=" + sessionId)
    ensures sessionId == "" && title != "" ==> q == "title=" + title
    ensures sessionId != "" && title == "" ==> q == "session_id=" + sessionId
    ensures sessionId != "" && title != "" ==> q == "session_id=" + sessionId + "&title=" + title
  {
    var a := if sessionId != "" then ["session_id=" + sessionId] else [];
    var b := if title != "" then ["title=" + title] else [];
    var parts := a + b;
    if parts == [] then ""
    else if |parts| == 1 then parts[0]
    else
      assert parts[0] == "session_id=" + sessionId;
      assert (parts[0] + "&" + parts[1])[..|parts[0]|] == parts[0];
      parts[0] + "&" + parts[1]
  }

  /** `saveChat`'s URL: the history endpoint, with the query only when there is one. */
  function SaveChatUrl(base: string, sessionId: string, title: string): (u: string)
    ensures StartsWith(u, base + "/chat/history")
    ensures sessionId == "" && title == "" ==> u == base + "/chat/history"
    ensures sessionId != "" || title != "" ==> u == base + "/chat/history?" + SaveChatQuery(sessionId, title)
  {
    var q := SaveChatQuery(sessionId, title);
    var u := base + "/chat/history" + (if q != "" then "?" + q else "");
    assert u[..|base + "/chat/history"|] == base + "/chat/history";
    u
  }

  /** `saveChat`: it never throws. A 404 is "not implemented", any other failure
      (HTTP, network or body) is reported with its message. */
  function SaveChat<T>(reply: Reply<T>): (r: SaveOutcome<T>)
    ensures r.Saved? <==> reply.Reply? && IsOk(reply.status) && reply.body.Ok?
    ensures r.Saved? ==> r.data == reply.body.value
    ensures r.NotImplemented? <==> reply.Reply? && reply.status == 404
    ensures reply.Reply? && !IsOk(reply.status) && reply.status != 404 ==>
      r == Failed(StatusError(reply.status, reply.text))
    ensures reply.NetworkFailure? ==> r == Failed(reply.message)
    ensures reply.Reply? && IsOk(reply.status) && reply.body.Err? ==> r == Failed(reply.body.message)
  {
    match reply
    case NetworkFailure(m) => Failed(m)
    case Reply(status, _, text, body) =>
      if !IsOk(status) then
        if status == 404 then NotImplemented else Failed(StatusError(status, text))
      else match body
        case Ok(v) => Saved(v)
        case Err(m) => Failed(m)
  }

  // ---------------------------------------------------------------------------
  // sendFeedback

  /** The `TypeError` a second read of an already-consumed body rejects with
      (Chromium's wording; section 5 of the Fetch Standard, "consume body"). */
  const BODY_ALREADY_READ: string := "Failed to execute 'text' on 'Response': body stream already read"

  function FeedbackError(status: int, details: string): string {
    "Erro ao enviar feedback (" + IntToString(status) + "): " + details
  }

  /** `sendFeedback` as written: on an HTTP failure it reads the body as JSON and,
      when that fails, reads it again as text. The second read always rejects, so an
      error body that is not JSON loses the formatted message. `stringify` is
      `JSON.stringify`. */
  function SendFeedbackAsWritten<T, E>(reply: Reply<T>, errorJson: Result<E>, stringify: E -> string): (r: Result<T>)
    ensures reply.Reply? && !IsOk(reply.status) && errorJson.Err? ==> r == Err(BODY_ALREADY_READ)
    ensures reply.Reply? && !IsOk(reply.status) && errorJson.Ok? ==>
      r == Err(FeedbackError(reply.status, stringify(errorJson.value)))
    ensures reply.NetworkFailure? || IsOk(reply.status) ==> r == Json(reply, "")
  {
    if reply.Reply? && !IsOk(reply.status) then
      match errorJson
      case Ok(e) => Err(FeedbackError(reply.status, stringify(e)))
      case Err(_) => Err(BODY_ALREADY_READ)
    else Json(reply, "")
  }

  /** As written, two failures whose error bodies are not JSON throw the same
      error whatever their statuses: a 422 cannot be told from a 502. */
  lemma SendFeedbackAsWrittenLosesStatus<T, E>(reply1: Reply<T>, reply2: Reply<T>,
                                               parseError1: string, parseError2: string, stringify: E -> string)
    requires reply1.Reply? && !IsOk(reply1.status)
    requires reply2.Reply? && !IsOk(reply2.status)
    ensures SendFeedbackAsWritten(reply1, Err(parseError1), stringify)
         == SendFeedbackAsWritten(reply2, Err(parseError2), stringify)
         == Err(BODY_ALREADY_READ)
  {
  }

  /** `sendFeedback` with the error details taken from one read of the body: the
      JSON re-serialised when it parses, the text otherwise. */
  function SendFeedback<T, E>(reply: Reply<T>, errorJson: Result<E>, stringify: E -> string): (r: Result<T>)
    ensures reply.Reply? && !IsOk(reply.status) ==>
      r == Err(FeedbackError(reply.status, if errorJson.Ok? then stringify(errorJson.value) else reply.text))
    ensures reply.NetworkFailure? || IsOk(reply.status) ==> r == Json(reply, "")
  {
    if reply.Reply? && !IsOk(reply.status) then
      Err(FeedbackError(reply.status, if errorJson.Ok? then stringify(errorJson.value) else reply.text))
    else Json(reply, "")
  }

  /** Every HTTP failure of `sendFeedback` names its status as the first number
      in its message (what the page looks for to flag a 422). */
  lemma SendFeedbackNamesStatus<T, E>(reply: Reply<T>, errorJson: Result<E>, stringify: E -> string)
    requires reply.Reply? && !IsOk(reply.status) && reply.status >= 0
    ensures var r := SendFeedback(reply, errorJson, stringify);
      r.Err? && FirstDigitRun(r.message) == Some(NatToString(reply.status))
  {
    var details := if errorJson.Ok? then stringify(errorJson.value) else reply.text;
    var p, d, q := "Erro ao enviar feedback (", NatToString(reply.status), "): " + details;
    assert FeedbackError(reply.status, details) == p + d + q;
    FirstDigitRunAfter(p, d, q);
  }

  // ---------------------------------------------------------------------------
  // deleteChat

  /** What one `DELETE` gives: the fetch rejects, or a response with a status. */
  datatype DeleteAttempt = Threw(message: string) | Status(code: int)

  /** The three endpoints `deleteChat` tries, in order. */
  function DeleteEndpoints(base: string, sessionId: string): (eps: seq<string>)
    ensures |eps| == 3
    ensures forall i :: 0 <= i < |eps| ==> StartsWith(eps[i], base + "/chat/")
  {
    [base + "/chat/" + sessionId, base + "/chat/history/" + sessionId, base + "/chat/" + sessionId + "/delete"]
  }

  predicate Deleted(a: DeleteAttempt) {
    a.Status? && IsOk(a.code)
  }

  /** The error a failed attempt leaves as `lastError`. */
  function AttemptError(a: DeleteAttempt): string {
    match a
    case Threw(m) => m
    case Status(c) => "Erro ao deletar conversa (" + IntToString(c) + ")"
  }

  const NO_DELETE_ENDPOINT: string := "Nenhum endpoint de delete disponível"

  /** `deleteChat`: the endpoints are tried in order until one answers 2xx. `tried`
      are the endpoints contacted. The request carries the fixed development user,
      not the Moodle user. When every endpoint fails, the last failure is thrown;
      the "no endpoint" fallback is never reached. */
  method DeleteChat(base: string, sessionId: string, respond: string -> DeleteAttempt)
    returns (result: Result<bool>, tried: seq<string>)
    ensures var eps := DeleteEndpoints(base, sessionId);
      1 <= |tried| <= |eps| && tried == eps[..|tried|]
    ensures forall k :: 0 <= k < |tried| - 1 ==> !Deleted(respond(tried[k]))
    ensures result.Ok? <==> Deleted(respond(tried[|tried| - 1]))
    ensures result.Ok? ==> result.value
    ensures result.Err? ==>
      tried == DeleteEndpoints(base, sessionId) && result.message == AttemptError(respond(tried[2]))
  {
    var endpoints := DeleteEndpoints(base, sessionId);
    var lastError: Option<string> := None;
    tried := [];
    var i := 0;
    while i < |endpoints|
      invariant 0 <= i <= |endpoints|
      invariant tried == endpoints[..i]
      invariant forall k :: 0 <= k < i ==> !Deleted(respond(endpoints[k]))
      invariant i == 0 <==> lastError.None?
      invariant i > 0 ==> lastError == Some(AttemptError(respond(endpoints[i - 1])))
    {
      var endpoint := endpoints[i];
      tried := tried + [endpoint];
      var attempt := respond(endpoint);
      if Deleted(attempt) {
        return Ok(true), tried;
      }
      lastError := Some(AttemptError(attempt));
      i := i + 1;
    }
    result := Err(lastError.GetOr(NO_DELETE_ENDPOINT));
  }
}

=== FILE: chat_stream.dfy ===
/** The streaming answer reader of the chat service (`getChatStream`): the stream URL,
    the line framing of the response body (the `data:` field of Server-Sent Events,
    HTML Living Standard section 9.2), the dispatch of each decoded frame to
    citations, media or text, and the 404 fallback to the stored conversation.

    The response body is given as the sequence of already-decoded text chunks the
    reader delivers; `JSON.parse` is the parameter `decode`, which may fail. */
module ChatStream {
  import opened Wrappers
  import opened Strings
  import opened Http

  // ---------------------------------------------------------------------------
  // Decoded frames and what the reader reports to its caller

  /** One entry of the `videos` or `images` array of a media frame. A missing or
      falsy property is the empty string. `upperLink` is the property `Link`. */
  datatype MediaItem = MediaItem(name: string, title: string, upperLink: string, link: string, url: string)

  /** A citation record, passed through untouched. */
  type Citation = map<string, string>

  /** The JSON object of a `data:` line. `documents`, `videos` and `images` are
      `Some` exactly when the property is an array; text properties that are
      missing or falsy are the empty string. */
  datatype Frame = Frame(
    event: string,
    documents: Option<seq<Citation>>,
    videos: Option<seq<MediaItem>>,
    images: Option<seq<MediaItem>>,
    delta: string,
    content: string,
    text: string)

  /** `JSON.parse` of a payload: `None` when it throws (or yields no object). */
  type Decoder = string -> Option<Frame>

  datatype Media = Video(title: string, url: string) | Image(url: string, alt: string)

  /** The third argument of `onChunk`. */
  datatype Extra = NoExtra | Sources(documents: seq<Citation>) | MediaList(media: seq<Media>)

  /** One invocation of a caller's callback, in the order they happen. */
  datatype Callback =
    | OnChunk(fragment: string, accumulated: string, extra: Extra)
    | OnComplete(finalText: string)
    | OnError(message: string)

  const DATA_PREFIX: string := "data: "
  const DONE_MARKER: string := "[DONE]"

  // ---------------------------------------------------------------------------
  // Stream URL

  /** `API_BASE_URL.replace(/\/api\/?$/, '')`. */
  function StripApiSuffix(base: string): (r: string)
    ensures r == base || r + "/api" == base || r + "/api/" == base
    ensures EndsWith(base, "/api/") ==> r + "/api/" == base
    ensures EndsWith(base, "/api") ==> r + "/api" == base
    ensures !EndsWith(base, "/api") && !EndsWith(base, "/api/") ==> r == base
  {
    if EndsWith(base, "/api/") then
      assert base[|base| - 1] == '/';
      base[..|base| - 5]
    else if EndsWith(base, "/api") then base[..|base| - 4]
    else base
  }

  /** The URL the stream is read from. `streamUrl` is the empty string when the
      backend gave none. */
  function StreamUrl(base: string, sessionId: string, streamUrl: string): (url: string)
    ensures streamUrl == "" ==> url == base + "/chat/stream/" + sessionId
    ensures streamUrl != "" && StartsWith(streamUrl, "http") ==> url == streamUrl
    ensures streamUrl != "" ==> EndsWith(url, streamUrl)
    // a relative path under `/api/` goes after the base without its `/api`, any other after the base
    ensures streamUrl != "" && !StartsWith(streamUrl, "http") ==>
      url == (if StartsWith(streamUrl, "/api/") then StripApiSuffix(base) else base) + streamUrl
  {
    if streamUrl == "" then base + "/chat/stream/" + sessionId
    else if StartsWith(streamUrl, "http") then streamUrl
    else if StartsWith(streamUrl, "/api/") then StripApiSuffix(base) + streamUrl
    else base + streamUrl
  }

  lemma StripApiOfApiBase(host: string)
    ensures StripApiSuffix(host + "/api") == host
  {
    var base := host + "/api";
    assert base[|base| - 4..] == "/api";
    assert base[|base| - 1] == 'i';
    assert base[..|base| - 4] == host;
  }

  /** A backend path under `/api/` joined to a base that ends in `/api` does not
      repeat the `/api` segment. */
  lemma StreamUrlJoinsApiPathOnce(host: string, sessionId: string, path: string)
    ensures StreamUrl(host + "/api", sessionId, "/api/" + path) == host + "/api/" + path
  {
    var u := "/api/" + path;
    ApiPathIsRelative(path);
    StripApiOfApiBase(host);
    assert StreamUrl(host + "/api", sessionId, u) == host + u;
  }

  lemma ApiPathIsRelative(path: string)
    ensures StartsWith("/api/" + path, "/api/") && !StartsWith("/api/" + path, "http")
  {
    var u := "/api/" + path;
    assert u[..5] == "/api/";
    FirstCharMismatch(u, "http");
  }

  /** Any other relative path is appended to the base as it stands. */
  lemma StreamUrlAppendsOtherPaths(host: string, sessionId: string, path: string)
    requires !StartsWith("/" + path, "/api/")
    ensures StreamUrl(host + "/api", sessionId, "/" + path) == host + "/api/" + path
  {
    var u := "/" + path;
    FirstCharMismatch(u, "http");
    assert StreamUrl(host + "/api", sessionId, u) == host + "/api" + u;
    assert host + "/api" + u == host + "/api/" + path;
  }

  // ---------------------------------------------------------------------------
  // Media normalisation

  function VideoEntry(v: MediaItem): Media {
    Video(Or(v.name, v.title), Or(Or(v.upperLink, v.link), v.url))
  }

  function ImageEntry(v: MediaItem): Media {
    Image(Or(Or(v.upperLink, v.link), v.url), Or(v.name, v.title))
  }

  function VideoEntries(vs: seq<MediaItem>): (m: seq<Media>)
    ensures |m| == |vs|
  {
    if vs == [] then [] else VideoEntries(vs[..|vs| - 1]) + [VideoEntry(vs[|vs| - 1])]
  }

  function ImageEntries(vs: seq<MediaItem>): (m: seq<Media>)
    ensures |m| == |vs|
  {
    if vs == [] then [] else ImageEntries(vs[..|vs| - 1]) + [ImageEntry(vs[|vs| - 1])]
  }

  /** Each entry is built from the item at the same position. */
  lemma {:induction false} EntriesPointwise(vs: seq<MediaItem>)
    ensures forall i :: 0 <= i < |vs| ==> VideoEntries(vs)[i] == VideoEntry(vs[i])
    ensures forall i :: 0 <= i < |vs| ==> ImageEntries(vs)[i] == ImageEntry(vs[i])
    decreases |vs|
  {
    if vs != [] {
      var front := vs[..|vs| - 1];
      EntriesPointwise(front);
      assert forall i :: 0 <= i < |front| ==> front[i] == vs[i];
    }
  }

  /** The media list of a media frame. */
  function MediaOf(f: Frame): (m: seq<Media>)
    ensures |m| == |f.videos.GetOr([])| + |f.images.GetOr([])|
  {
    VideoEntries(f.videos.GetOr([])) + ImageEntries(f.images.GetOr([]))
  }

  /** Every video in input order, then every image in input order; a list that is
      absent (not an array) contributes nothing. */
  lemma MediaOfLayout(f: Frame)
    ensures forall k :: 0 <= k < |f.videos.GetOr([])| ==> MediaOf(f)[k] == VideoEntry(f.videos.GetOr([])[k])
    ensures forall k :: |f.videos.GetOr([])| <= k < |MediaOf(f)| ==>
              MediaOf(f)[k] == ImageEntry(f.images.GetOr([])[k - |f.videos.GetOr([])|])
    ensures forall k :: 0 <= k < |MediaOf(f)| ==> (MediaOf(f)[k].Video? <==> k < |f.videos.GetOr([])|)
  {
    var vs, ims := f.videos.GetOr([]), f.images.GetOr([]);
    var m := MediaOf(f);
    forall k | 0 <= k < |m|
      ensures k < |vs| ==> m[k] == VideoEntry(vs[k])
      ensures k >= |vs| ==> m[k] == ImageEntry(ims[k - |vs|])
    {
      MediaAt(vs, ims, k);
    }
  }

  lemma MediaAt(vs: seq<MediaItem>, ims: seq<MediaItem>, k: nat)
    requires k < |vs| + |ims|
    ensures k < |vs| ==> (VideoEntries(vs) + ImageEntries(ims))[k] == VideoEntry(vs[k])
    ensures k >= |vs| ==> (VideoEntries(vs) + ImageEntries(ims))[k] == ImageEntry(ims[k - |vs|])
  {
    var a, b := VideoEntries(vs), ImageEntries(ims);
    if k < |vs| {
      EntriesPointwise(vs);
      assert (a + b)[k] == a[k];
    } else {
      EntriesPointwise(ims);
      assert (a + b)[k] == b[k - |vs|];
    }
  }

  /** The two `forEach` loops that build the media list of a media frame. */
  method NormalizeMedia(f: Frame) returns (media: seq<Media>)
    ensures media == MediaOf(f)
  {
    var videos := CollectVideos(f.videos.GetOr([]));
    var images := CollectImages(f.images.GetOr([]));
    media := videos + images;
  }

  /** The `videos.forEach` loop; an absent list is an empty one. */
  method CollectVideos(vs: seq<MediaItem>) returns (media: seq<Media>)
    ensures media == VideoEntries(vs)
  {
    media := [];
    for i := 0 to |vs|
      invariant media == VideoEntries(vs[..i])
    {
      VideoEntriesStep(vs, i);
      media := media + [VideoEntry(vs[i])];
    }
    assert vs[..|vs|] == vs;
  }

  /** The `images.forEach` loop. */
  method CollectImages(ims: seq<MediaItem>) returns (media: seq<Media>)
    ensures media == ImageEntries(ims)
  {
    media := [];
    for i := 0 to |ims|
      invariant media == ImageEntries(ims[..i])
    {
      ImageEntriesStep(ims, i);
      media := media + [ImageEntry(ims[i])];
    }
    assert ims[..|ims|] == ims;
  }

  lemma VideoEntriesStep(vs: seq<MediaItem>, i: nat)
    requires i < |vs|
    ensures VideoEntries(vs[..i + 1]) == VideoEntries(vs[..i]) + [VideoEntry(vs[i])]
  {
    assert vs[..i + 1][..i] == vs[..i];
  }

  lemma ImageEntriesStep(vs: seq<MediaItem>, i: nat)
    requires i < |vs|
    ensures ImageEntries(vs[..i + 1]) == ImageEntries(vs[..i]) + [ImageEntry(vs[i])]
  {
    assert vs[..i + 1][..i] == vs[..i];
  }

  // ---------------------------------------------------------------------------
  // One frame, one line

  /** The first truthy of `delta`, `content` and `text`. */
  function TextDelta(f: Frame): string {
    Or(Or(f.delta, f.content), f.text)
  }

  predicate IsSourcesFrame(f: Frame) {
    f.event == "sources" && f.documents.Some?
  }

  datatype StreamState = StreamState(fullText: string, calls: seq<Callback>)

  /** What one decoded frame does to the running text, and the callback it causes. */
  function Dispatch(fullText: string, f: Frame): (r: StreamState)
    ensures IsSourcesFrame(f) ==> r == StreamState(fullText, [OnChunk("", fullText, Sources(f.documents.value))])
    ensures !IsSourcesFrame(f) && f.event == "media" ==> r == StreamState(fullText, [OnChunk("", fullText, MediaList(MediaOf(f)))])
    ensures !IsSourcesFrame(f) && f.event != "media" ==>
      && r.fullText == fullText + TextDelta(f)
      && (r.calls == [] <==> TextDelta(f) == "")
    ensures |r.calls| <= 1
    ensures r.calls == [] ==> r.fullText == fullText
    ensures forall c | c in r.calls :: c.OnChunk? && c.accumulated == r.fullText == fullText + c.fragment
  {
    if IsSourcesFrame(f) then StreamState(fullText, [OnChunk("", fullText, Sources(f.documents.value))])
    else if f.event == "media" then StreamState(fullText, [OnChunk("", fullText, MediaList(MediaOf(f)))])
    else if f.delta != "" then StreamState(fullText + f.delta, [OnChunk(f.delta, fullText + f.delta, NoExtra)])
    else if f.content != "" then StreamState(fullText + f.content, [OnChunk(f.content, fullText + f.content, NoExtra)])
    else if f.text != "" then StreamState(fullText + f.text, [OnChunk(f.text, fullText + f.text, NoExtra)])
    else StreamState(fullText, [])
  }

  /** The JSON text of a line that is handed to the decoder: `None` for a blank
      line, a line without the `data: ` prefix, and the `[DONE]` marker. */
  function FramePayload(line: string): (p: Option<string>)
    ensures p.Some? ==> StartsWith(line, DATA_PREFIX) && Trim(line) != "" && p.value != DONE_MARKER
  {
    if Trim(line) == "" then None
    else if !StartsWith(line, DATA_PREFIX) then None
    else
      var payload := Trim(line[|DATA_PREFIX|..]);
      if payload == DONE_MARKER then None else Some(payload)
  }

  /** One complete line applied to the reader's state. */
  function Step(st: StreamState, line: string, decode: Decoder): (r: StreamState)
    ensures |st.calls| <= |r.calls| <= |st.calls| + 1 && r.calls[..|st.calls|] == st.calls
  {
    match FramePayload(line)
    case None => st
    case Some(payload) =>
      match decode(payload)
      case None => st
      case Some(f) =>
        var d := Dispatch(st.fullText, f);
        StreamState(d.fullText, st.calls + d.calls)
  }

  /** The lines, in order, applied to a state. */
  function RunLines(st: StreamState, lines: seq<string>, decode: Decoder): StreamState
    decreases |lines|
  {
    if lines == [] then st
    else Step(RunLines(st, lines[..|lines| - 1], decode), lines[|lines| - 1], decode)
  }

  /** A line that is blank, is not a `data:` line, carries `[DONE]`, or does not
      decode: such a line changes nothing. */
  predicate Ignored(line: string, decode: Decoder) {
    FramePayload(line).None? || decode(FramePayload(line).value).None?
  }

  lemma {:induction false} RunLinesAppend(st: StreamState, a: seq<string>, b: seq<string>, decode: Decoder)
    ensures RunLines(st, a + b, decode) == RunLines(RunLines(st, a, decode), b, decode)
    decreases |b|
  {
    if b == [] {
      assert a + b == a;
    } else {
      assert (a + b)[..|a + b| - 1] == a + b[..|b| - 1];
      RunLinesAppend(st, a, b[..|b| - 1], decode);
    }
  }

  /** An ignored line, wherever it stands, leaves the whole outcome as if it were
      absent; in particular a `[DONE]` line does not end the processing of the
      lines after it. */
  lemma IgnoredLineDropsOut(st: StreamState, a: seq<string>, line: string, b: seq<string>, decode: Decoder)
    requires Ignored(line, decode)
    ensures RunLines(st, a + [line] + b, decode) == RunLines(st, a + b, decode)
  {
    RunLinesAppend(st, a + [line], b, decode);
    RunLinesAppend(st, a, [line], decode);
    assert RunLines(RunLines(st, a, decode), [line], decode) == RunLines(st, a, decode) by {
      assert [line][..0] == [];
    }
    RunLinesAppend(st, a, b, decode);
  }

  lemma DoneMarkerDoesNotStop(st: StreamState, a: seq<string>, b: seq<string>, decode: Decoder)
    ensures RunLines(st, a + ["data: [DONE]"] + b, decode) == RunLines(st, a + b, decode)
  {
    var line := "data: [DONE]";
    assert StartsWith(line, DATA_PREFIX) by { assert line[..6] == DATA_PREFIX; }
    assert line[|DATA_PREFIX|..] == DONE_MARKER;
    assert Trim(DONE_MARKER) == DONE_MARKER by {
      assert !IsWhitespace(DONE_MARKER[0]) && !IsWhitespace(DONE_MARKER[|DONE_MARKER| - 1]);
    }
    assert Trim(line) != "" by { assert !IsWhitespace(line[0]); }
    IgnoredLineDropsOut(st, a, line, b, decode);
  }

  // ---------------------------------------------------------------------------
  // The callbacks a run produces

  /** The text fragments carried by a sequence of callbacks, concatenated. */
  function Fragments(calls: seq<Callback>): string
    decreases |calls|
  {
    if calls == [] then ""
    else Fragments(calls[..|calls| - 1]) + (if calls[|calls| - 1].OnChunk? then calls[|calls| - 1].fragment else "")
  }

  /** Every callback is an `onChunk` whose accumulated text is `start` followed by
      all fragments up to and including its own. */
  predicate Coherent(start: string, calls: seq<Callback>)
    decreases |calls|
  {
    calls == [] ||
      (Coherent(start, calls[..|calls| - 1])
       && calls[|calls| - 1].OnChunk?
       && calls[|calls| - 1].accumulated == start + Fragments(calls))
  }

  /** In a coherent sequence every callback is an `onChunk`. */
  lemma {:induction false} CoherentOnlyChunks(start: string, calls: seq<Callback>)
    requires Coherent(start, calls)
    ensures forall i :: 0 <= i < |calls| ==> calls[i].OnChunk?
    decreases |calls|
  {
    if calls != [] {
      var front := calls[..|calls| - 1];
      CoherentOnlyChunks(start, front);
      assert forall i :: 0 <= i < |front| ==> calls[i] == front[i];
    }
  }

  /** Appending one `onChunk` that carries the text accumulated so far keeps a
      sequence of callbacks coherent. */
  lemma CoherentSnoc(start: string, calls: seq<Callback>, c: Callback)
    requires Coherent(start, calls)
    requires c.OnChunk? && c.accumulated == start + Fragments(calls) + c.fragment
    ensures Coherent(start, calls + [c]) && Fragments(calls + [c]) == Fragments(calls) + c.fragment
  {
    assert (calls + [c])[..|calls|] == calls;
  }

  /** One decoded frame keeps the callbacks coherent with the running text. */
  lemma DispatchCoherent(start: string, p: StreamState, f: Frame)
    requires Coherent(start, p.calls) && p.fullText == start + Fragments(p.calls)
    ensures var d := Dispatch(p.fullText, f);
      Coherent(start, p.calls + d.calls) && d.fullText == start + Fragments(p.calls + d.calls)
  {
    var d := Dispatch(p.fullText, f);
    if d.calls == [] {
      assert p.calls + d.calls == p.calls;
    } else {
      var c := d.calls[0];
      assert c in d.calls;
      assert d.calls == [c];
      CoherentSnoc(start, p.calls, c);
    }
  }

  /** One line keeps the callbacks coherent with the running text. */
  lemma StepCoherent(start: string, p: StreamState, line: string, decode: Decoder)
    requires Coherent(start, p.calls) && p.fullText == start + Fragments(p.calls)
    ensures var r := Step(p, line, decode);
      Coherent(start, r.calls) && r.fullText == start + Fragments(r.calls)
  {
    var payload := FramePayload(line);
    if payload.Some? && decode(payload.value).Some? {
      DispatchCoherent(start, p, decode(payload.value).value);
    }
  }

  /** The running text only ever grows: starting from `start` with no callbacks,
      a run makes only `onChunk` calls, each carrying the text accumulated so far,
      and ends with `start` followed by every fragment it reported. */
  lemma {:induction false} RunLinesAppendOnly(start: string, lines: seq<string>, decode: Decoder)
    ensures var r := RunLines(StreamState(start, []), lines, decode);
      Coherent(start, r.calls) && r.fullText == start + Fragments(r.calls)
    decreases |lines|
  {
    if lines != [] {
      RunLinesAppendOnly(start, lines[..|lines| - 1], decode);
      StepCoherent(start, RunLines(StreamState(start, []), lines[..|lines| - 1], decode), lines[|lines| - 1], decode);
    }
  }

  // ---------------------------------------------------------------------------
  // Line framing: `buffer.split('\n')`

  /** `s.split('\n')`: never empty; no part holds a newline. */
  function Split(s: string): (parts: seq<string>)
    ensures |parts| >= 1
    decreases |s|
  {
    if s == [] then [""]
    else
      var rest := Split(s[1..]);
      if s[0] == '\n' then [""] + rest
      else [[s[0]] + rest[0]] + rest[1..]
  }

  /** No part of a split holds a newline. */
  lemma {:induction false} SplitNoNewline(s: string)
    ensures forall i :: 0 <= i < |Split(s)| ==> '\n' !in Split(s)[i]
    decreases |s|
  {
    if s != [] {
      SplitNoNewline(s[1..]);
      var rest := Split(s[1..]);
      if s[0] != '\n' {
        assert '\n' !in rest[0];
        assert '\n' !in [s[0]] + rest[0];
      }
    }
  }

  /** `parts.join('\n')`. */
  function Join(parts: seq<string>): string
    requires |parts| >= 1
    decreases |parts|
  {
    if |parts| == 1 then parts[0] else parts[0] + "\n" + Join(parts[1..])
  }

  /** Splitting then joining gives back the text. */
  lemma {:induction false} JoinSplit(s: string)
    ensures Join(Split(s)) == s
    decreases |s|
  {
    if s != [] {
      var rest := Split(s[1..]);
      JoinSplit(s[1..]);
      if s[0] == '\n' {
        assert ([""] + rest)[1..] == rest;
        assert s == "\n" + s[1..];
      } else {
        var parts := [[s[0]] + rest[0]] + rest[1..];
        if |rest| == 1 {
          assert s == [s[0]] + s[1..];
        } else {
          assert parts[1..] == rest[1..];
          assert s == [s[0]] + s[1..];
        }
      }
    }
  }

  /** Joining newline-free parts then splitting gives back the parts. */
  lemma {:induction false} SplitJoin(parts: seq<string>)
    requires |parts| >= 1
    requires forall i :: 0 <= i < |parts| ==> '\n' !in parts[i]
    ensures Split(Join(parts)) == parts
    decreases |parts|, |parts[0]|
  {
    if parts[0] == [] {
      if |parts| > 1 {
        SplitJoin(parts[1..]);
        assert Join(parts) == "\n" + Join(parts[1..]);
        assert Join(parts)[1..] == Join(parts[1..]);
      }
    } else {
      var c := parts[0][0];
      var smaller := [parts[0][1..]] + parts[1..];
      assert smaller[1..] == parts[1..];
      SplitJoin(smaller);
      if |parts| == 1 {
        assert Join(parts)[1..] == Join(smaller);
      } else {
        assert Join(smaller) == parts[0][1..] + "\n" + Join(parts[1..]);
        assert Join(parts)[1..] == Join(smaller);
      }
      assert [c] + parts[0][1..] == parts[0];
      assert Split(Join(parts)) == [[c] + smaller[0]] + smaller[1..];
    }
  }

  /** The lines of `s` that a newline has ended. */
  function CompleteLines(s: string): seq<string> {
    Split(s)[..|Split(s)| - 1]
  }

  /** The trailing segment not yet ended by a newline: what `buffer` keeps. */
  function Pending(s: string): string {
    Split(s)[|Split(s)| - 1]
  }

  /** The heart of chunk-boundary independence: splitting a longer text equals the
      complete lines of its start followed by the split of the held-back segment
      with the rest appended. */
  lemma {:induction false} SplitAppend(s: string, t: string)
    ensures Split(s + t) == CompleteLines(s) + Split(Pending(s) + t)
    decreases |s|
  {
    if s == [] {
      assert s + t == t;
    } else {
      var c, rest := s[0], s[1..];
      SplitAppend(rest, t);
      assert s == [c] + rest;
      assert s + t == [c] + (rest + t);
      if c == '\n' {
        SplitAppendNewline(rest, t);
      } else if |Split(rest)| == 1 {
        SplitAppendShort(c, rest, t);
      } else {
        SplitAppendLong(c, rest, t);
      }
    }
  }

  /** `Split` of a text that starts with a newline. */
  lemma SplitNewline(s: string)
    ensures Split("\n" + s) == [""] + Split(s)
  {
    assert ("\n" + s)[1..] == s;
  }

  /** `Split` of a text that starts with another character. */
  lemma SplitChar(c: char, s: string)
    requires c != '\n'
    ensures Split([c] + s) == [[c] + Split(s)[0]] + Split(s)[1..]
  {
    assert ([c] + s)[1..] == s;
  }

  lemma SplitAppendNewline(rest: string, t: string)
    requires Split(rest + t) == CompleteLines(rest) + Split(Pending(rest) + t)
    ensures Split("\n" + (rest + t)) == CompleteLines("\n" + rest) + Split(Pending("\n" + rest) + t)
  {
    SplitNewline(rest + t);
    LinesAfterNewline(rest);
  }

  lemma LinesAfterNewline(rest: string)
    ensures CompleteLines("\n" + rest) == [""] + CompleteLines(rest)
    ensures Pending("\n" + rest) == Pending(rest)
  {
    SplitNewline(rest);
    var r := Split(rest);
    assert ([""] + r)[..|r|] == [""] + r[..|r| - 1];
  }

  lemma SplitAppendShort(c: char, rest: string, t: string)
    requires c != '\n' && |Split(rest)| == 1
    requires Split(rest + t) == CompleteLines(rest) + Split(Pending(rest) + t)
    ensures Split([c] + (rest + t)) == CompleteLines([c] + rest) + Split(Pending([c] + rest) + t)
  {
    SplitChar(c, rest);
    SplitChar(c, rest + t);
    var p := Pending(rest);
    PendingOfShort(c, rest, t);
    SplitChar(c, p + t);
  }

  lemma PendingOfShort(c: char, rest: string, t: string)
    requires c != '\n' && |Split(rest)| == 1
    ensures Pending([c] + rest) + t == [c] + (Pending(rest) + t)
    ensures CompleteLines([c] + rest) == [] && CompleteLines(rest) == []
  {
    SplitChar(c, rest);
  }

  lemma SplitAppendLong(c: char, rest: string, t: string)
    requires c != '\n' && |Split(rest)| > 1
    requires Split(rest + t) == CompleteLines(rest) + Split(Pending(rest) + t)
    ensures Split([c] + (rest + t)) == CompleteLines([c] + rest) + Split(Pending([c] + rest) + t)
  {
    SplitChar(c, rest + t);
    LinesAfterChar(c, rest);
    ConsLongAlgebra(c, Split(rest), Split(rest + t), Split(Pending(rest) + t));
  }

  lemma ConsLongAlgebra(c: char, r: seq<string>, big: seq<string>, q: seq<string>)
    requires |r| > 1 && big == r[..|r| - 1] + q
    ensures [[c] + big[0]] + big[1..] == ([[c] + r[0]] + r[1..|r| - 1]) + q
  {
    assert big[0] == r[0];
    assert big[1..] == r[1..|r| - 1] + q;
  }

  lemma LinesAfterChar(c: char, rest: string)
    requires c != '\n' && |Split(rest)| > 1
    ensures var r := Split(rest);
      CompleteLines([c] + rest) == [[c] + r[0]] + r[1..|r| - 1] && Pending([c] + rest) == Pending(rest)
  {
    var r := Split(rest);
    SplitChar(c, rest);
    ReplaceHead([c] + r[0], r);
  }

  /** Sequence algebra for a list whose first element is replaced. */
  lemma ReplaceHead<T>(x: T, r: seq<T>)
    requires |r| > 1
    ensures var w := [x] + r[1..]; w[..|w| - 1] == [x] + r[1..|r| - 1] && w[|w| - 1] == r[|r| - 1]
  {
  }

  /** Sequence algebra for the last element of a concatenation. */
  lemma AppendLast<T>(a: seq<T>, b: seq<T>)
    requires |b| >= 1
    ensures var w := a + b; w[..|w| - 1] == a + b[..|b| - 1] && w[|w| - 1] == b[|b| - 1]
  {
  }

  /** A last line not ended by a newline is never decoded: appending newline-free
      text adds no complete line, only extends the held-back segment. */
  lemma UnterminatedTailNotDecoded(s: string, t: string)
    requires '\n' !in t
    ensures CompleteLines(s + t) == CompleteLines(s)
    ensures Pending(s + t) == Pending(s) + t
  {
    SplitAppend(s, t);
    var p := Pending(s);
    SplitNoNewline(s);
    assert '\n' !in p + t;
    SplitJoin([p + t]);
    assert Join([p + t]) == p + t;
  }

  /** The chunks delivered by the reader, concatenated. */
  function Concat(chunks: seq<string>): string
    decreases |chunks|
  {
    if chunks == [] then "" else Concat(chunks[..|chunks| - 1]) + chunks[|chunks| - 1]
  }

  /** The state after every complete line of the whole body, however it was cut into chunks. */
  function BodyState(chunks: seq<string>, decode: Decoder): StreamState {
    RunLines(StreamState("", []), CompleteLines(Concat(chunks)), decode)
  }

  // ---------------------------------------------------------------------------
  // The read loop

  /** The body of the inner loop: one complete line against the running text and
      the callbacks made so far. A line whose JSON does not parse is skipped. */
  method HandleLine(fullText: string, calls: seq<Callback>, line: string, decode: Decoder)
    returns (newText: string, newCalls: seq<Callback>)
    ensures StreamState(newText, newCalls) == Step(StreamState(fullText, calls), line, decode)
  {
    newText, newCalls := fullText, calls;
    if Trim(line) == "" {
      return;
    }
    if !StartsWith(line, DATA_PREFIX) {
      return;
    }
    var dataStr := Trim(line[|DATA_PREFIX|..]);
    if dataStr == DONE_MARKER {
      return;
    }
    assert FramePayload(line) == Some(dataStr);
    var parsed := decode(dataStr);
    if parsed.None? {
      return;
    }
    var data := parsed.value;
    ghost var d := Dispatch(fullText, data);
    StepOfFrame(StreamState(fullText, calls), line, decode, dataStr, data);
    if data.event == "sources" && data.documents.Some? {
      newCalls := calls + [OnChunk("", fullText, Sources(data.documents.value))];
    } else if data.event == "media" {
      var media := NormalizeMedia(data);
      newCalls := calls + [OnChunk("", fullText, MediaList(media))];
    } else if data.delta != "" {
      newText := fullText + data.delta;
      newCalls := calls + [OnChunk(data.delta, newText, NoExtra)];
    } else if data.content != "" {
      newText := fullText + data.content;
      newCalls := calls + [OnChunk(data.content, newText, NoExtra)];
    } else if data.text != "" {
      newText := fullText + data.text;
      newCalls := calls + [OnChunk(data.text, newText, NoExtra)];
    }
    assert newText == d.fullText && newCalls == calls + d.calls;
  }

  lemma StepOfFrame(st: StreamState, line: string, decode: Decoder, payload: string, f: Frame)
    requires FramePayload(line) == Some(payload) && decode(payload) == Some(f)
    ensures Step(st, line, decode) == StreamState(Dispatch(st.fullText, f).fullText, st.calls + Dispatch(st.fullText, f).calls)
  {
  }

  /** The inner loop: the complete lines of one read, in order. */
  method HandleLines(fullText: string, calls: seq<Callback>, lines: seq<string>, decode: Decoder)
    returns (newText: string, newCalls: seq<Callback>)
    ensures StreamState(newText, newCalls) == RunLines(StreamState(fullText, calls), lines, decode)
  {
    newText, newCalls := fullText, calls;
    for j := 0 to |lines|
      invariant StreamState(newText, newCalls) == RunLines(StreamState(fullText, calls), lines[..j], decode)
    {
      assert lines[..j + 1][..j] == lines[..j];
      newText, newCalls := HandleLine(newText, newCalls, lines[j], decode);
    }
    assert lines[..|lines|] == lines;
  }

  /** One more chunk: the lines it completes are those of the held-back segment
      with the chunk appended, and what is left of them is held back next. */
  lemma ChunkStep(chunks: seq<string>, i: nat)
    requires i < |chunks|
    ensures var lines := Split(Pending(Concat(chunks[..i])) + chunks[i]);
      && CompleteLines(Concat(chunks[..i + 1])) == CompleteLines(Concat(chunks[..i])) + lines[..|lines| - 1]
      && Pending(Concat(chunks[..i + 1])) == lines[|lines| - 1]
  {
    var before := Concat(chunks[..i]);
    ConcatStep(chunks, i);
    SplitAppend(before, chunks[i]);
    AppendLast(CompleteLines(before), Split(Pending(before) + chunks[i]));
  }

  lemma ConcatStep(chunks: seq<string>, i: nat)
    requires i < |chunks|
    ensures Concat(chunks[..i + 1]) == Concat(chunks[..i]) + chunks[i]
  {
    assert chunks[..i + 1][..i] == chunks[..i];
  }

  /** The `while (true)` read loop over the response body, with its carry-over
      `buffer` and the inner loop over complete lines. `readError` is the error
      the reader throws after the given chunks, if it throws at all. The result
      depends on the chunks only through their concatenation: chunk boundaries
      do not matter. */
  method ConsumeBody(chunks: seq<string>, readError: Option<string>, decode: Decoder)
    returns (calls: seq<Callback>, outcome: Result<string>)
    ensures readError.None? ==>
      && calls == BodyState(chunks, decode).calls + [OnComplete(BodyState(chunks, decode).fullText)]
      && outcome == Ok(BodyState(chunks, decode).fullText)
    ensures readError.Some? ==> calls == BodyState(chunks, decode).calls && outcome == Err(readError.value)
  {
    var fullText := "";
    var buffer := "";
    calls := [];
    var i := 0;
    while i < |chunks|
      invariant 0 <= i <= |chunks|
      invariant buffer == Pending(Concat(chunks[..i]))
      invariant StreamState(fullText, calls) == RunLines(StreamState("", []), CompleteLines(Concat(chunks[..i])), decode)
    {
      ChunkStep(chunks, i);
      buffer := buffer + chunks[i];
      var lines := Split(buffer);
      var complete := lines[..|lines| - 1];
      buffer := lines[|lines| - 1];
      RunLinesAppend(StreamState("", []), CompleteLines(Concat(chunks[..i])), complete, decode);
      fullText, calls := HandleLines(fullText, calls, complete, decode);
      i := i + 1;
    }
    assert chunks[..|chunks|] == chunks;
    if readError.Some? {
      outcome := Err(readError.value);
    } else {
      calls := calls + [OnComplete(fullText)];
      outcome := Ok(fullText);
    }
  }

  // ---------------------------------------------------------------------------
  // The 404 fallback

  /** A message of a stored conversation, as `loadChat` returns it; falsy
      properties are the empty string. */
  datatype StoredMessage = StoredMessage(msgType: string, sender: string, text: string, content: string, message: string)

  /** A stored conversation; `messages` is `Some` exactly when it is an array. */
  datatype StoredChat = StoredChat(messages: Option<seq<StoredMessage>>)

  predicate IsAssistant(m: StoredMessage) {
    m.msgType == "ai" || m.msgType == "assistant" || m.sender == "ai"
  }

  function MessageText(m: StoredMessage): string {
    Or(Or(m.text, m.content), m.message)
  }

  /** `messages.filter(...)` keeping the assistant's messages, in order. */
  function AssistantMessages(ms: seq<StoredMessage>): (r: seq<StoredMessage>)
    ensures |r| <= |ms|
    ensures forall k :: 0 <= k < |r| ==> IsAssistant(r[k])
    decreases |ms|
  {
    if ms == [] then []
    else if IsAssistant(ms[|ms| - 1]) then AssistantMessages(ms[..|ms| - 1]) + [ms[|ms| - 1]]
    else AssistantMessages(ms[..|ms| - 1])
  }

  /** The last message the filter keeps is the last assistant message. */
  lemma {:induction false} LastOfAssistantMessages(ms: seq<StoredMessage>, i: nat)
    requires i < |ms| && IsAssistant(ms[i])
    requires forall j :: i < j < |ms| ==> !IsAssistant(ms[j])
    ensures AssistantMessages(ms) != [] && AssistantMessages(ms)[|AssistantMessages(ms)| - 1] == ms[i]
    decreases |ms|
  {
    if i < |ms| - 1 {
      var front := ms[..|ms| - 1];
      assert forall j :: i < j < |front| ==> front[j] == ms[j];
      LastOfAssistantMessages(front, i);
    }
  }

  /** The filter keeps nothing exactly when no message is the assistant's. */
  lemma {:induction false} NoAssistantMessages(ms: seq<StoredMessage>)
    ensures AssistantMessages(ms) == [] <==> forall j :: 0 <= j < |ms| ==> !IsAssistant(ms[j])
    decreases |ms|
  {
    if ms != [] {
      var front := ms[..|ms| - 1];
      NoAssistantMessages(front);
      assert forall j :: 0 <= j < |front| ==> front[j] == ms[j];
    }
  }

  /** The text of the last assistant message of a stored conversation, or the empty
      string when there is none (or no conversation could be loaded). */
  function LastAssistantText(chat: Option<StoredChat>): (t: string)
    ensures chat.None? || chat.value.messages.None? ==> t == ""
  {
    if chat.None? || chat.value.messages.None? then ""
    else
      var ai := AssistantMessages(chat.value.messages.value);
      if ai == [] then "" else MessageText(ai[|ai| - 1])
  }

  /** The fallback text is that of the last message the assistant sent... */
  lemma LastAssistantTextIsLast(ms: seq<StoredMessage>, i: nat)
    requires i < |ms| && IsAssistant(ms[i])
    requires forall j :: i < j < |ms| ==> !IsAssistant(ms[j])
    ensures LastAssistantText(Some(StoredChat(Some(ms)))) == MessageText(ms[i])
  {
    LastOfAssistantMessages(ms, i);
  }

  /** ... and there is none when the assistant sent nothing. */
  lemma LastAssistantTextNone(ms: seq<StoredMessage>)
    requires forall j :: 0 <= j < |ms| ==> !IsAssistant(ms[j])
    ensures LastAssistantText(Some(StoredChat(Some(ms)))) == ""
  {
    NoAssistantMessages(ms);
  }

  // ---------------------------------------------------------------------------
  // The whole operation

  /** What `fetch` of the stream URL gives: it rejects with a message, or it
      responds with a status and a body (the chunks the reader delivers and the
      error it throws after them, if any). */
  datatype StreamFetch =
    | FetchFailed(message: string)
    | Responded(status: int, chunks: seq<string>, readError: Option<string>)

  function StreamErrorMessage(status: int): string {
    "Erro ao obter stream: " + IntToString(status)
  }

  /** What `getChatStream` returns (`Ok`) or throws (`Err`). */
  function StreamResult(fetch: StreamFetch, storedChat: Option<StoredChat>, decode: Decoder): Result<string> {
    match fetch
    case FetchFailed(message) => Err(message)
    case Responded(status, chunks, readError) =>
      if !IsOk(status) then
        if status == 404 && LastAssistantText(storedChat) != "" then Ok(LastAssistantText(storedChat))
        else Err(StreamErrorMessage(status))
      else if readError.Some? then Err(readError.value)
      else Ok(BodyState(chunks, decode).fullText)
  }

  /** `getChatStream`: the callbacks it makes, in order, and what it returns or
      throws. `storedChat` is what `loadChat` gives for the session on a 404. */
  method GetChatStream(fetch: StreamFetch, storedChat: Option<StoredChat>, decode: Decoder)
    returns (calls: seq<Callback>, result: Result<string>)
    ensures fetch.FetchFailed? ==> calls == [OnError(fetch.message)] && result == Err(fetch.message)
    ensures fetch.Responded? && IsOk(fetch.status) ==>
      var st := BodyState(fetch.chunks, decode);
      match fetch.readError
      case None => calls == st.calls + [OnComplete(st.fullText)] && result == Ok(st.fullText)
      case Some(e) => calls == st.calls + [OnError(e)] && result == Err(e)
    ensures fetch.Responded? && !IsOk(fetch.status) ==>
      var fallback := LastAssistantText(storedChat);
      if fetch.status == 404 && fallback != "" then
        calls == [OnComplete(fallback)] && result == Ok(fallback)
      else
        calls == [OnError(StreamErrorMessage(fetch.status))] && result == Err(StreamErrorMessage(fetch.status))
    // exactly one terminal callback, last, matching the outcome
    ensures |calls| >= 1 && forall i :: 0 <= i < |calls| - 1 ==> calls[i].OnChunk?
    ensures result.Ok? ==> calls[|calls| - 1] == OnComplete(result.value)
    ensures result.Err? ==> calls[|calls| - 1] == OnError(result.message)
    ensures result == StreamResult(fetch, storedChat, decode)
  {
    if fetch.FetchFailed? {
      calls, result := [OnError(fetch.message)], Err(fetch.message);
      return;
    }
    if !IsOk(fetch.status) {
      if fetch.status == 404 {
        var lastAiMessage := LastAssistantText(storedChat);
        if lastAiMessage != "" {
          calls, result := [OnComplete(lastAiMessage)], Ok(lastAiMessage);
          return;
        }
      }
      var message := StreamErrorMessage(fetch.status);
      calls, result := [OnError(message)], Err(message);
      return;
    }
    var outcome;
    calls, outcome := ConsumeBody(fetch.chunks, fetch.readError, decode);
    RunLinesAppendOnly("", CompleteLines(Concat(fetch.chunks)), decode);
    CoherentOnlyChunks("", BodyState(fetch.chunks, decode).calls);
    if outcome.Err? {
      calls := calls + [OnError(outcome.message)];
    }
    result := outcome;
  }
}

=== FILE: day_labels.dfy ===
/** The day-difference labels of the history sidebar (`HOJE`, `ONTEM`, `HÁ n DIAS`,
    weeks, months, years) and the order in which their groups are listed. The order is
    computed, as in the sidebar, from the label TEXT alone: a label is put in a category
    by the words it contains and ranked by the number it carries. */
module DayLabels {
  import opened Wrappers
  import opened Strings
  import opened Sorting

  const TODAY := "HOJE"
  const YESTERDAY := "ONTEM"

  /** The text `HÁ ${n} ${unit}`. */
  function Ago(n: int, unit: string): string {
    "HÁ " + IntToString(n) + " " + unit
  }

  /** The label of a chat `d` whole days old (`d` as the sidebar computes it, by
      `Math.floor` of the difference of two local midnights). */
  function DayLabel(d: int): string {
    if d == 0 then TODAY
    else if d == 1 then YESTERDAY
    else if 2 <= d <= 6 then Ago(d, "DIAS")
    else if 7 <= d < 14 then Ago(1, "SEMANA")
    else if 14 <= d < 21 then Ago(2, "SEMANAS")
    else if 21 <= d < 28 then Ago(3, "SEMANAS")
    else if 28 <= d < 60 then Ago(d / 7, "SEMANAS")
    else if 60 <= d < 365 then
      var months := d / 30;
      if months == 1 then Ago(1, "MÊS") else Ago(months, "MESES")
    else
      var years := d / 365;
      if years == 1 then Ago(1, "ANO") else Ago(years, "ANOS")
  }

  /** A label some non-negative day difference produces. */
  ghost predicate IsAgeLabel(k: string) {
    exists d: nat {:trigger DayLabel(d)} :: k == DayLabel(d)
  }

  // ---------------------------------------------------------------------------
  // The sidebar's category filters and sort keys, on label text

  predicate IsDaysLabel(k: string) { StartsWith(k, "HÁ") && Contains(k, "DIAS") }
  predicate IsWeeksLabel(k: string) { Contains(k, "SEMANA") }
  predicate IsMonthsLabel(k: string) { Contains(k, "MÊS") || Contains(k, "MESES") }
  predicate IsYearsLabel(k: string) { Contains(k, "ANO") }

  /** `parseInt(k.match(/\d+/)[0])`. A label without digits would make the sidebar
      throw; no label `DayLabel` produces is one, and 0 stands for that case. */
  function Num(k: string): nat {
    match FirstDigitRun(k)
    case Some(digits) => DigitsValue(digits)
    case None => 0
  }

  function DaysKey(k: string): int { Num(k) }
  function WeeksKey(k: string): int { if Contains(k, "1 SEMANA") then 1 else Num(k) }
  function MonthsKey(k: string): int { if Contains(k, "1 MÊS") then 1 else Num(k) }

  /** The year key as the sidebar writes it: any label containing `1 ANO` ranks as one
      year, which includes `HÁ 11 ANOS`, `HÁ 21 ANOS`, ... */
  function YearsKeyAsWritten(k: string): int { if Contains(k, "1 ANO") then 1 else Num(k) }

  /** The year key ranked by the number of years, as the other categories are. */
  function YearsKey(k: string): int { Num(k) }

  /** The elements of `xs` that satisfy `p`, in order (`Array.prototype.filter`). */
  function Filter(xs: seq<string>, p: string -> bool): (r: seq<string>)
    ensures |r| <= |xs|
    ensures forall x :: x in r <==> x in xs && p(x)
    decreases |xs|
  {
    if xs == [] then []
    else
      var init := xs[..|xs| - 1];
      assert xs == init + [xs[|xs| - 1]];
      Filter(init, p) + (if p(xs[|xs| - 1]) then [xs[|xs| - 1]] else [])
  }

  /** `orderedLabels`: today, yesterday, then the day, week, month and year labels
      among `keys`, each category sorted ascending by its key. */
  function OrderedLabelsBy(keys: seq<string>, yearKey: string -> int): seq<string> {
    [TODAY, YESTERDAY]
    + SortBy(Filter(keys, IsDaysLabel), DaysKey)
    + SortBy(Filter(keys, IsWeeksLabel), WeeksKey)
    + SortBy(Filter(keys, IsMonthsLabel), MonthsKey)
    + SortBy(Filter(keys, IsYearsLabel), yearKey)
  }

  function OrderedLabelsAsWritten(keys: seq<string>): seq<string> {
    OrderedLabelsBy(keys, YearsKeyAsWritten)
  }

  function OrderedLabels(keys: seq<string>): seq<string> {
    OrderedLabelsBy(keys, YearsKey)
  }

  // ---------------------------------------------------------------------------
  // Ranks: the position a label's group takes in the list

  /** The rank of a label as `orderedLabels` places it: category first (today,
      yesterday, days, weeks, months, years), then the category's key. */
  function LabelCode(k: string): int {
    if k == TODAY then 0
    else if k == YESTERDAY then 100
    else if IsDaysLabel(k) then 200 + DaysKey(k)
    else if IsWeeksLabel(k) then 300 + WeeksKey(k)
    else if IsMonthsLabel(k) then 400 + MonthsKey(k)
    else if IsYearsLabel(k) then 500 + YearsKey(k)
    else 600
  }

  /** The same rank computed from the day difference. */
  function AgeCode(d: nat): int {
    if d == 0 then 0
    else if d == 1 then 100
    else if d <= 6 then 200 + d
    else if d < 60 then 300 + d / 7
    else if d < 365 then 400 + d / 30
    else 500 + d / 365
  }

  /** An older chat never ranks before a more recent one. */
  lemma AgeCodeMonotone(d1: nat, d2: nat)
    requires d1 <= d2
    ensures AgeCode(d1) <= AgeCode(d2)
  {
    assert d1 / 7 <= d2 / 7 && d1 / 30 <= d2 / 30 && d1 / 365 <= d2 / 365;
  }

  /** Two day differences of the same rank get the same label. */
  lemma AgeCodeDetermines(d1: nat, d2: nat)
    requires AgeCode(d1) == AgeCode(d2)
    ensures DayLabel(d1) == DayLabel(d2)
  {
    AgeCodeBand(d1);
    AgeCodeBand(d2);
  }

  /** The hundreds of a rank name the category, the rest the count within it. */
  lemma AgeCodeBand(d: nat)
    ensures 2 <= d <= 6 ==> AgeCode(d) == 200 + d
    ensures 7 <= d < 60 ==> 301 <= AgeCode(d) <= 308 && AgeCode(d) == 300 + d / 7
    ensures 60 <= d < 365 ==> 402 <= AgeCode(d) <= 412 && AgeCode(d) == 400 + d / 30
    ensures 365 <= d ==> 501 <= AgeCode(d) && AgeCode(d) == 500 + d / 365
  {
  }

  // ---------------------------------------------------------------------------
  // What the filters and keys see in a label `DayLabel` produces

  lemma NumeralChars(n: int)
    ensures forall c :: c in IntToString(n) ==> IsDigit(c) || c == '-'
  {
    var t := IntToString(n);
    forall c | c in t
      ensures IsDigit(c) || c == '-'
    {
      var i :| 0 <= i < |t| && t[i] == c;
      if n < 0 {
        assert t == "-" + NatToString(-n);
        if i > 0 {
          assert t[i] == NatToString(-n)[i - 1];
        }
      }
    }
  }

  /** The characters of `Ago(n, unit)`: those of `HÁ `, of the number, and of ` unit`. */
  lemma AgoChars(n: int, unit: string, c: char)
    requires !IsDigit(c) && c != '-' && c != 'H' && c != 'Á' && c != ' ' && c !in unit
    ensures c !in Ago(n, unit)
  {
    NumeralChars(n);
  }

  /** `Ago(n, unit)` read back by `match(/\d+/)` and `parseInt`. */
  lemma NumOfAgo(n: nat, unit: string)
    ensures Num(Ago(n, unit)) == n
  {
    var p, d, q := "HÁ ", NatToString(n), " " + unit;
    assert Ago(n, unit) == p + d + q;
    assert NoDigits(p) by {
      forall i | 0 <= i < |p| ensures !IsDigit(p[i]) { }
    }
    FirstDigitRunAfter(p, d, q);
    DigitsValueOfNatToString(n);
  }

  lemma StartsWithHa(n: int, unit: string)
    ensures StartsWith(Ago(n, unit), "HÁ")
  {
    assert Ago(n, unit)[..2] == "HÁ";
  }

  lemma ContainsUnit(n: int, unit: string)
    ensures Contains(Ago(n, unit), unit)
  {
    var s := Ago(n, unit);
    assert s == ("HÁ " + IntToString(n) + " ") + unit;
    ContainsConcat("HÁ " + IntToString(n) + " ", unit);
  }

  /** The week labels hold `SEMANA`, the M of which is followed by A, so they never
      contain `MESES`. */
  lemma WeeksNotMeses(n: int, unit: string)
    requires unit == "SEMANA" || unit == "SEMANAS"
    ensures !Contains(Ago(n, unit), "MESES")
  {
    var t := IntToString(n);
    var q := " " + unit;
    var s := Ago(n, unit);
    assert s == "HÁ " + t + q;
    NumeralChars(n);
    assert forall j :: 0 <= j < |q| - 1 ==> q[j] != 'M' || q[j + 1] != 'E';
    forall i: nat
      ensures !OccursAt(s, "MESES", i)
    {
      if i + 5 <= |s| {
        assert s[i..i + 5][0] == s[i] && s[i..i + 5][1] == s[i + 1];
        if i < 3 {
          assert s[i] == "HÁ "[i];
        } else if i < 3 + |t| {
          assert s[i] == t[i - 3] && s[i] in t;
        } else {
          assert s[i] == q[i - 3 - |t|] && s[i + 1] == q[i - 3 - |t| + 1];
        }
      }
    }
    NotContains(s, "MESES");
  }

  lemma ContainsWord(n: int, unit: string, word: string)
    requires StartsWith(unit, word)
    ensures Contains(Ago(n, unit), word)
  {
    ContainsUnit(n, unit);
    assert Contains(unit, word);
    ContainsTransitive(Ago(n, unit), unit, word);
  }

  lemma AgoLength(n: int, unit: string)
    ensures |Ago(n, unit)| >= 5 + |unit|
  {
  }

  lemma DaysFacts(n: nat)
    requires 2 <= n <= 6
    ensures IsDaysLabel(Ago(n, "DIAS")) && DaysKey(Ago(n, "DIAS")) == n
    ensures !IsWeeksLabel(Ago(n, "DIAS")) && !IsMonthsLabel(Ago(n, "DIAS")) && !IsYearsLabel(Ago(n, "DIAS"))
  {
    var l := Ago(n, "DIAS");
    StartsWithHa(n, "DIAS");
    ContainsUnit(n, "DIAS");
    NumOfAgo(n, "DIAS");
    AgoChars(n, "DIAS", 'E');
    MissingChar(l, "SEMANA", 1);
    AgoChars(n, "DIAS", 'M');
    MissingChar(l, "MÊS", 0);
    MissingChar(l, "MESES", 0);
    AgoChars(n, "DIAS", 'O');
    MissingChar(l, "ANO", 2);
  }

  lemma WeeksFacts(n: nat, unit: string)
    requires 1 <= n <= 8 && unit == (if n == 1 then "SEMANA" else "SEMANAS")
    ensures IsWeeksLabel(Ago(n, unit)) && WeeksKey(Ago(n, unit)) == n
    ensures !IsDaysLabel(Ago(n, unit)) && !IsMonthsLabel(Ago(n, unit)) && !IsYearsLabel(Ago(n, unit))
  {
    ContainsWord(n, unit, "SEMANA");
    WeeksKeyOf(n, unit);
    WeeksExclusive(n, unit);
  }

  lemma WeeksKeyOf(n: nat, unit: string)
    requires 1 <= n <= 8 && unit == (if n == 1 then "SEMANA" else "SEMANAS")
    ensures WeeksKey(Ago(n, unit)) == n
  {
    var l := Ago(n, unit);
    NumOfAgo(n, unit);
    if n > 1 {
      assert NatToString(n) == [DigitChar(n)];
      assert '1' !in l;
      MissingChar(l, "1 SEMANA", 0);
    }
  }

  lemma WeeksExclusive(n: nat, unit: string)
    requires unit == "SEMANA" || unit == "SEMANAS"
    ensures !IsDaysLabel(Ago(n, unit)) && !IsMonthsLabel(Ago(n, unit)) && !IsYearsLabel(Ago(n, unit))
  {
    var l := Ago(n, unit);
    AgoChars(n, unit, 'D');
    MissingChar(l, "DIAS", 0);
    AgoChars(n, unit, 'Ê');
    MissingChar(l, "MÊS", 1);
    WeeksNotMeses(n, unit);
    AgoChars(n, unit, 'O');
    MissingChar(l, "ANO", 2);
  }

  lemma MonthsFacts(n: nat)
    requires 2 <= n <= 12
    ensures IsMonthsLabel(Ago(n, "MESES")) && MonthsKey(Ago(n, "MESES")) == n
    ensures !IsDaysLabel(Ago(n, "MESES")) && !IsWeeksLabel(Ago(n, "MESES")) && !IsYearsLabel(Ago(n, "MESES"))
  {
    var l := Ago(n, "MESES");
    ContainsUnit(n, "MESES");
    NumOfAgo(n, "MESES");
    AgoChars(n, "MESES", 'Ê');
    MissingChar(l, "1 MÊS", 3);
    AgoChars(n, "MESES", 'D');
    MissingChar(l, "DIAS", 0);
    AgoChars(n, "MESES", 'N');
    MissingChar(l, "SEMANA", 4);
    AgoChars(n, "MESES", 'O');
    MissingChar(l, "ANO", 2);
  }

  lemma YearsFacts(n: nat, unit: string)
    requires 1 <= n && unit == (if n == 1 then "ANO" else "ANOS")
    ensures IsYearsLabel(Ago(n, unit)) && YearsKey(Ago(n, unit)) == n
    ensures !IsDaysLabel(Ago(n, unit)) && !IsWeeksLabel(Ago(n, unit)) && !IsMonthsLabel(Ago(n, unit))
  {
    var l := Ago(n, unit);
    ContainsWord(n, unit, "ANO");
    NumOfAgo(n, unit);
    AgoChars(n, unit, 'D');
    MissingChar(l, "DIAS", 0);
    AgoChars(n, unit, 'E');
    MissingChar(l, "SEMANA", 1);
    AgoChars(n, unit, 'M');
    MissingChar(l, "MÊS", 0);
    MissingChar(l, "MESES", 0);
  }

  /** For a non-negative day difference, the rank the sidebar reads off the label is
      the rank of the day difference, and each category's key lies in its band. */
  predicate RankedAsAge(d: nat) {
    var l := DayLabel(d);
    && LabelCode(l) == AgeCode(d)
    && (IsDaysLabel(l) ==> 2 <= d <= 6 && LabelCode(l) == 200 + DaysKey(l))
    && (IsWeeksLabel(l) ==> 7 <= d < 60 && LabelCode(l) == 300 + WeeksKey(l))
    && (IsMonthsLabel(l) ==> 60 <= d < 365 && LabelCode(l) == 400 + MonthsKey(l))
    && (IsYearsLabel(l) ==> 365 <= d && LabelCode(l) == 500 + YearsKey(l))
  }

  lemma ClassifyDays(d: nat)
    requires 2 <= d <= 6
    ensures RankedAsAge(d)
  {
    assert DayLabel(d) == Ago(d, "DIAS");
    DaysFacts(d);
    AgoLength(d, "DIAS");
  }

  lemma ClassifyWeeks(d: nat)
    requires 7 <= d < 60
    ensures RankedAsAge(d)
  {
    var n := d / 7;
    var unit := if n == 1 then "SEMANA" else "SEMANAS";
    assert DayLabel(d) == Ago(n, unit);
    AgeCodeBand(d);
    WeeksFacts(n, unit);
    AgoLength(n, unit);
  }

  lemma ClassifyMonths(d: nat)
    requires 60 <= d < 365
    ensures RankedAsAge(d)
  {
    assert DayLabel(d) == Ago(d / 30, "MESES");
    AgeCodeBand(d);
    MonthsFacts(d / 30);
    AgoLength(d / 30, "MESES");
  }

  lemma ClassifyYears(d: nat)
    requires 365 <= d
    ensures RankedAsAge(d)
  {
    var n := d / 365;
    var unit := if n == 1 then "ANO" else "ANOS";
    assert DayLabel(d) == Ago(n, unit);
    AgeCodeBand(d);
    YearsFacts(n, unit);
    AgoLength(n, unit);
  }

  lemma Classify(d: nat)
    ensures RankedAsAge(d)
  {
    if d <= 1 {
      assert !IsDaysLabel(DayLabel(d)) by {
        assert DayLabel(d)[..2][1] == DayLabel(d)[1] != 'Á';
      }
      assert !IsWeeksLabel(DayLabel(d)) && !IsMonthsLabel(DayLabel(d)) && !IsYearsLabel(DayLabel(d)) by {
        MissingChar(DayLabel(d), "SEMANA", 0);
        MissingChar(DayLabel(d), "MÊS", 1);
        MissingChar(DayLabel(d), "MESES", 2);
        MissingChar(DayLabel(d), "ANO", 0);
      }
    } else if d <= 6 {
      ClassifyDays(d);
    } else if d < 60 {
      ClassifyWeeks(d);
    } else if d < 365 {
      ClassifyMonths(d);
    } else {
      ClassifyYears(d);
    }
  }

  /** Every label, of any day difference, is today, yesterday, or passes one of the
      category filters: no chat's group is left out of `orderedLabels`. */
  predicate Listed(l: string) {
    l == TODAY || l == YESTERDAY || IsDaysLabel(l) || IsWeeksLabel(l) || IsMonthsLabel(l) || IsYearsLabel(l)
  }

  lemma AlwaysListed(d: int)
    ensures Listed(DayLabel(d))
  {
    if 2 <= d <= 6 {
      assert DayLabel(d) == Ago(d, "DIAS");
      StartsWithHa(d, "DIAS");
      ContainsUnit(d, "DIAS");
    } else if 7 <= d < 60 {
      var unit := if d < 14 then "SEMANA" else "SEMANAS";
      assert DayLabel(d) == Ago(d / 7, unit);
      ContainsWord(d / 7, unit, "SEMANA");
    } else if 60 <= d < 365 {
      assert DayLabel(d) == Ago(d / 30, "MESES");
      ContainsUnit(d / 30, "MESES");
    } else if d < 0 || d >= 365 {
      var unit := if d / 365 == 1 then "ANO" else "ANOS";
      assert DayLabel(d) == Ago(d / 365, unit);
      ContainsWord(d / 365, unit, "ANO");
    }
  }

  // ---------------------------------------------------------------------------
  // The order of `orderedLabels`

  /** The sidebar's rank tells labels apart. */
  lemma CodeInjective(a: string, b: string)
    requires IsAgeLabel(a) && IsAgeLabel(b) && LabelCode(a) == LabelCode(b)
    ensures a == b
  {
    var d1: nat :| a == DayLabel(d1);
    var d2: nat :| b == DayLabel(d2);
    Classify(d1);
    Classify(d2);
    AgeCodeDetermines(d1, d2);
  }

  /** The category bands of the ranks of produced labels. */
  lemma Band(l: string)
    requires IsAgeLabel(l)
    ensures IsDaysLabel(l) ==> LabelCode(l) == 200 + DaysKey(l) && 202 <= LabelCode(l) <= 206
    ensures IsWeeksLabel(l) ==> LabelCode(l) == 300 + WeeksKey(l) && 301 <= LabelCode(l) <= 308
    ensures IsMonthsLabel(l) ==> LabelCode(l) == 400 + MonthsKey(l) && 402 <= LabelCode(l) <= 412
    ensures IsYearsLabel(l) ==> LabelCode(l) == 500 + YearsKey(l) && 501 <= LabelCode(l)
  {
    var d: nat :| l == DayLabel(d);
    Classify(d);
    AgeCodeBand(d);
  }

  /** A category block, sorted by its own key, is sorted by rank. */
  lemma BlockSorted(keys: seq<string>, p: string -> bool, key: string -> int, base: int)
    requires forall l :: l in keys && p(l) ==> LabelCode(l) == base + key(l)
    ensures SortedBy(SortBy(Filter(keys, p), key), LabelCode)
    ensures forall l :: l in SortBy(Filter(keys, p), key) ==> l in keys && p(l)
  {
    var b := SortBy(Filter(keys, p), key);
    forall l | l in b
      ensures l in keys && p(l)
    {
      assert l in multiset(b);
    }
    forall i, j | 0 <= i < j < |b|
      ensures LabelCode(b[i]) <= LabelCode(b[j])
    {
      assert b[i] in b && b[j] in b;
    }
  }

  /** A category block of produced labels: sorted by rank, every rank within
      `lo..hi`. */
  lemma {:induction false} BlockInBand(keys: seq<string>, p: string -> bool, key: string -> int, base: int, lo: int, hi: int)
    requires forall l :: l in keys ==> IsAgeLabel(l)
    requires forall l :: IsAgeLabel(l) && p(l) ==> LabelCode(l) == base + key(l) && lo <= LabelCode(l) <= hi
    ensures SortedBy(SortBy(Filter(keys, p), key), LabelCode)
    ensures forall i :: 0 <= i < |SortBy(Filter(keys, p), key)| ==> lo <= LabelCode(SortBy(Filter(keys, p), key)[i]) <= hi
  {
    var b := SortBy(Filter(keys, p), key);
    BlockSorted(keys, p, key, base);
    forall i | 0 <= i < |b|
      ensures lo <= LabelCode(b[i]) <= hi
    {
      assert b[i] in b;
    }
  }

  lemma DaysBand()
    ensures forall l :: IsAgeLabel(l) && IsDaysLabel(l) ==> LabelCode(l) == 200 + DaysKey(l) && 202 <= LabelCode(l) <= 206
  {
    forall l | IsAgeLabel(l) && IsDaysLabel(l)
      ensures LabelCode(l) == 200 + DaysKey(l) && 202 <= LabelCode(l) <= 206
    {
      Band(l);
    }
  }

  lemma WeeksBand()
    ensures forall l :: IsAgeLabel(l) && IsWeeksLabel(l) ==> LabelCode(l) == 300 + WeeksKey(l) && 301 <= LabelCode(l) <= 308
  {
    forall l | IsAgeLabel(l) && IsWeeksLabel(l)
      ensures LabelCode(l) == 300 + WeeksKey(l) && 301 <= LabelCode(l) <= 308
    {
      Band(l);
    }
  }

  lemma MonthsBand()
    ensures forall l :: IsAgeLabel(l) && IsMonthsLabel(l) ==> LabelCode(l) == 400 + MonthsKey(l) && 402 <= LabelCode(l) <= 412
  {
    forall l | IsAgeLabel(l) && IsMonthsLabel(l)
      ensures LabelCode(l) == 400 + MonthsKey(l) && 402 <= LabelCode(l) <= 412
    {
      Band(l);
    }
  }

  /** Year ranks are unbounded above; `hi` is the largest among `keys`. */
  lemma YearsBand(keys: seq<string>) returns (hi: int)
    ensures forall l :: IsAgeLabel(l) && IsYearsLabel(l) && l in keys ==> LabelCode(l) == 500 + YearsKey(l) && 501 <= LabelCode(l) <= hi
  {
    hi := MaxCode(keys);
    forall l | IsAgeLabel(l) && IsYearsLabel(l) && l in keys
      ensures LabelCode(l) == 500 + YearsKey(l) && 501 <= LabelCode(l) <= hi
    {
      Band(l);
    }
  }

  function MaxCode(keys: seq<string>): (m: int)
    ensures forall l :: l in keys ==> LabelCode(l) <= m
  {
    if keys == [] then 0
    else
      var m := MaxCode(keys[1..]);
      assert forall l :: l in keys ==> l == keys[0] || l in keys[1..];
      if LabelCode(keys[0]) > m then LabelCode(keys[0]) else m
  }

  /** With the year key corrected, `orderedLabels` lists the labels of non-negative
      day differences by ascending rank. */
  lemma {:induction false} OrderedLabelsSorted(keys: seq<string>)
    requires forall l :: l in keys ==> IsAgeLabel(l)
    ensures SortedBy(OrderedLabels(keys), LabelCode)
  {
    var head: seq<string> := [TODAY, YESTERDAY];
    var days := SortBy(Filter(keys, IsDaysLabel), DaysKey);
    var weeks := SortBy(Filter(keys, IsWeeksLabel), WeeksKey);
    var months := SortBy(Filter(keys, IsMonthsLabel), MonthsKey);
    var years := SortBy(Filter(keys, IsYearsLabel), YearsKey);
    DaysBlock(keys);
    WeeksBlock(keys);
    MonthsBlock(keys);
    YearsBlock(keys);
    HeadRanks();
    SortedBands(head, days, weeks, months, years, LabelCode, 100, 300, 400, 500);
  }

  lemma DaysBlock(keys: seq<string>)
    requires forall l :: l in keys ==> IsAgeLabel(l)
    ensures SortedBy(SortBy(Filter(keys, IsDaysLabel), DaysKey), LabelCode)
    ensures forall i :: 0 <= i < |SortBy(Filter(keys, IsDaysLabel), DaysKey)| ==> 100 <= LabelCode(SortBy(Filter(keys, IsDaysLabel), DaysKey)[i]) <= 300
  {
    DaysBand();
    BlockInBand(keys, IsDaysLabel, DaysKey, 200, 202, 206);
  }

  lemma WeeksBlock(keys: seq<string>)
    requires forall l :: l in keys ==> IsAgeLabel(l)
    ensures SortedBy(SortBy(Filter(keys, IsWeeksLabel), WeeksKey), LabelCode)
    ensures forall i :: 0 <= i < |SortBy(Filter(keys, IsWeeksLabel), WeeksKey)| ==> 300 <= LabelCode(SortBy(Filter(keys, IsWeeksLabel), WeeksKey)[i]) <= 400
  {
    WeeksBand();
    BlockInBand(keys, IsWeeksLabel, WeeksKey, 300, 301, 308);
  }

  lemma MonthsBlock(keys: seq<string>)
    requires forall l :: l in keys ==> IsAgeLabel(l)
    ensures SortedBy(SortBy(Filter(keys, IsMonthsLabel), MonthsKey), LabelCode)
    ensures forall i :: 0 <= i < |SortBy(Filter(keys, IsMonthsLabel), MonthsKey)| ==> 400 <= LabelCode(SortBy(Filter(keys, IsMonthsLabel), MonthsKey)[i]) <= 500
  {
    MonthsBand();
    BlockInBand(keys, IsMonthsLabel, MonthsKey, 400, 402, 412);
  }

  lemma HeadRanks()
    ensures SortedBy([TODAY, YESTERDAY], LabelCode)
    ensures forall i :: 0 <= i < 2 ==> LabelCode([TODAY, YESTERDAY][i]) <= 100
  {
    assert LabelCode(TODAY) == 0 && LabelCode(YESTERDAY) == 100;
  }

  lemma YearsBlock(keys: seq<string>)
    requires forall l :: l in keys ==> IsAgeLabel(l)
    ensures SortedBy(SortBy(Filter(keys, IsYearsLabel), YearsKey), LabelCode)
    ensures forall i :: 0 <= i < |SortBy(Filter(keys, IsYearsLabel), YearsKey)| ==> 500 <= LabelCode(SortBy(Filter(keys, IsYearsLabel), YearsKey)[i])
  {
    var b := SortBy(Filter(keys, IsYearsLabel), YearsKey);
    var hi := YearsBand(keys);
    BlockSorted(keys, IsYearsLabel, YearsKey, 500);
    forall i | 0 <= i < |b|
      ensures 501 <= LabelCode(b[i])
    {
      assert b[i] in b;
    }
  }

  // ---------------------------------------------------------------------------
  // The year key as written

  lemma FilterPair(x: string, y: string, p: string -> bool)
    ensures Filter([x, y], p) == (if p(x) then [x] else []) + (if p(y) then [y] else [])
  {
    assert [x, y][..1] == [x] && [x][..0] == [];
  }

  /** With no day, week or month labels, only the year labels follow today and
      yesterday. */
  lemma OnlyYears(keys: seq<string>, yearKey: string -> int)
    requires Filter(keys, IsDaysLabel) == [] && Filter(keys, IsWeeksLabel) == [] && Filter(keys, IsMonthsLabel) == []
    ensures OrderedLabelsBy(keys, yearKey) == [TODAY, YESTERDAY] + SortBy(Filter(keys, IsYearsLabel), yearKey)
  {
    var none: seq<string> := [];
    assert SortBy(none, DaysKey) == none && SortBy(none, WeeksKey) == none && SortBy(none, MonthsKey) == none;
  }

  lemma FilterNone(a: string, b: string, p: string -> bool)
    requires !p(a) && !p(b)
    ensures Filter([a, b], p) == []
  {
    FilterPair(a, b, p);
  }

  lemma FilterAll(a: string, b: string, p: string -> bool)
    requires p(a) && p(b)
    ensures Filter([a, b], p) == [a, b]
  {
    FilterPair(a, b, p);
  }

  lemma YearPairListed(a: string, b: string, yearKey: string -> int)
    requires IsYearsLabel(a) && !IsDaysLabel(a) && !IsWeeksLabel(a) && !IsMonthsLabel(a)
    requires IsYearsLabel(b) && !IsDaysLabel(b) && !IsWeeksLabel(b) && !IsMonthsLabel(b)
    ensures OrderedLabelsBy([a, b], yearKey) == [TODAY, YESTERDAY] + SortBy([a, b], yearKey)
  {
    FilterNone(a, b, IsDaysLabel);
    FilterNone(a, b, IsWeeksLabel);
    FilterNone(a, b, IsMonthsLabel);
    FilterAll(a, b, IsYearsLabel);
    OnlyYears([a, b], yearKey);
  }

  /** Two year labels are listed, after today and yesterday, in their year order. */
  lemma YearPairOrder(a: string, b: string, yearKey: string -> int)
    requires IsYearsLabel(a) && !IsDaysLabel(a) && !IsWeeksLabel(a) && !IsMonthsLabel(a)
    requires IsYearsLabel(b) && !IsDaysLabel(b) && !IsWeeksLabel(b) && !IsMonthsLabel(b)
    ensures OrderedLabelsBy([a, b], yearKey)
      == [TODAY, YESTERDAY] + if yearKey(b) < yearKey(a) then [b, a] else [a, b]
  {
    YearPairListed(a, b, yearKey);
    SortPair(a, b, yearKey);
  }

  /** The label of a chat `n` whole years old, `n` at least 2. */
  lemma YearsLabel(d: nat, n: nat)
    requires 2 <= n && n * 365 <= d < (n + 1) * 365
    ensures d / 365 == n && DayLabel(d) == Ago(n, "ANOS")
    ensures IsYearsLabel(DayLabel(d)) && !IsDaysLabel(DayLabel(d)) && !IsWeeksLabel(DayLabel(d)) && !IsMonthsLabel(DayLabel(d))
    ensures Num(DayLabel(d)) == n
  {
    assert d / 365 == n;
    YearsFacts(n, "ANOS");
  }

  lemma ElevenHasOneAno(b: string, n: nat)
    requires n == 11 && b == Ago(n, "ANOS")
    ensures YearsKeyAsWritten(b) == 1
  {
    assert NatToString(n) == NatToString(n / 10) + [DigitChar(n % 10)];
    assert b[4..9] == "1 ANO";
    ContainsAt(b, "1 ANO", 4);
  }

  lemma TwoHasNoOneAno(a: string, n: nat)
    requires n == 2 && a == Ago(n, "ANOS")
    ensures YearsKeyAsWritten(a) == 2
  {
    assert NatToString(n) == [DigitChar(n)];
    AgoChars(n, "ANOS", 'x');
    assert '1' !in a;
    MissingChar(a, "1 ANO", 0);
    NumOfAgo(n, "ANOS");
  }

  /** Every chat eleven years old (`HÁ 11 ANOS`) is listed before every chat two years
      old (`HÁ 2 ANOS`): `HÁ 11 ANOS` contains `1 ANO`, so the year key ranks it as
      one year. */
  lemma ElevenYearsListedFirst(d2: nat, d11: nat)
    requires 730 <= d2 < 1095 && 4015 <= d11 < 4380
    ensures AgeCode(d2) < AgeCode(d11)
    ensures OrderedLabelsAsWritten([DayLabel(d2), DayLabel(d11)])
      == [TODAY, YESTERDAY] + [DayLabel(d11), DayLabel(d2)]
  {
    var a, b := DayLabel(d2), DayLabel(d11);
    YearsLabel(d2, 2);
    YearsLabel(d11, 11);
    AgeCodeBand(d2);
    AgeCodeBand(d11);
    ElevenHasOneAno(b, 11);
    TwoHasNoOneAno(a, 2);
    YearPairOrder(a, b, YearsKeyAsWritten);
  }

  /** With the corrected key the same chats are listed more recent first. */
  lemma TwoYearsListedFirst(d2: nat, d11: nat)
    requires 730 <= d2 < 1095 && 4015 <= d11 < 4380
    ensures OrderedLabels([DayLabel(d2), DayLabel(d11)])
      == [TODAY, YESTERDAY] + [DayLabel(d2), DayLabel(d11)]
  {
    var a, b := DayLabel(d2), DayLabel(d11);
    YearsLabel(d2, 2);
    YearsLabel(d11, 11);
    assert YearsKey(a) == 2 && YearsKey(b) == 11;
    YearPairOrder(a, b, YearsKey);
  }
}

=== FILE: grouping.dfy ===
/** Grouping a list under labels, as the history sidebar's `groupByDate` does with a
    plain object: a first pass files each item under its label in input order, a
    second copies the non-empty lists in a given label order. */
module Grouping {

  datatype Group<T> = Group(heading: string, chats: seq<T>)

  /** The chats of `xs` filed under `tag`, in order. */
  function Members<T>(xs: seq<T>, labelOf: T -> string, tag: string): (r: seq<T>)
    ensures forall c :: c in r ==> c in xs && labelOf(c) == tag
    decreases |xs|
  {
    if xs == [] then []
    else
      var init := xs[..|xs| - 1];
      var last := xs[|xs| - 1];
      assert xs == init + [last];
      Members(init, labelOf, tag) + (if labelOf(last) == tag then [last] else [])
  }

  /** Appending a chat appends it to the members of its own label only. */
  lemma MembersSnoc<T>(xs: seq<T>, x: T, labelOf: T -> string, tag: string)
    ensures Members(xs + [x], labelOf, tag) == Members(xs, labelOf, tag) + (if labelOf(x) == tag then [x] else [])
  {
    assert (xs + [x])[..|xs|] == xs;
  }

  /** A label no chat has has no members. */
  lemma {:induction false} MembersNone<T>(xs: seq<T>, labelOf: T -> string, tag: string)
    requires forall c :: c in xs ==> labelOf(c) != tag
    ensures Members(xs, labelOf, tag) == []
    decreases |xs|
  {
    if xs != [] {
      assert xs[|xs| - 1] in xs;
      MembersNone(xs[..|xs| - 1], labelOf, tag);
    }
  }

  /** Every chat is in exactly one group, the group of its label, the groups holding
      the chats in their input order and none of them empty. */
  ghost predicate GroupedBy<T>(history: seq<T>, labelOf: T -> string, groups: seq<Group<T>>) {
    && (forall i :: 0 <= i < |groups| ==>
          groups[i].chats != [] && groups[i].chats == Members(history, labelOf, groups[i].heading))
    && (forall i, j :: 0 <= i < j < |groups| ==> groups[i].heading != groups[j].heading)
    && (forall c :: c in history ==> exists i :: 0 <= i < |groups| && groups[i].heading == labelOf(c))
  }

  /** The first loop of `groupByDate`: each chat appended to the list of its label,
      the labels recorded in the order they first occur. */
  method CollectByLabel<T>(history: seq<T>, labelOf: T -> string) returns (keys: seq<string>, buckets: map<string, seq<T>>)
    ensures Collected(history, labelOf, keys, buckets)
  {
    keys, buckets := [], map[];
    var n := 0;
    while n < |history|
      invariant 0 <= n <= |history|
      invariant Collected(history[..n], labelOf, keys, buckets)
    {
      var chat := history[n];
      var tag := labelOf(chat);
      assert history[..n + 1] == history[..n] + [chat];
      if tag !in buckets {
        CollectNew(history[..n], chat, labelOf, keys, buckets);
        keys := keys + [tag];
        buckets := buckets[tag := [chat]];
      } else {
        CollectOld(history[..n], chat, labelOf, keys, buckets);
        buckets := buckets[tag := buckets[tag] + [chat]];
      }
      n := n + 1;
    }
    assert history[..n] == history;
  }

  /** What the first loop has built from the chats `xs`: the labels met, each once,
      and for each its chats in order. */
  ghost predicate Collected<T>(xs: seq<T>, labelOf: T -> string, keys: seq<string>, buckets: map<string, seq<T>>) {
    && (forall k :: k in buckets <==> k in keys)
    && (forall k :: k in buckets ==> buckets[k] != [] && buckets[k] == Members(xs, labelOf, k))
    && (forall c :: c in xs ==> labelOf(c) in buckets)
  }

  lemma CollectNew<T>(xs: seq<T>, x: T, labelOf: T -> string, keys: seq<string>, buckets: map<string, seq<T>>)
    requires Collected(xs, labelOf, keys, buckets) && labelOf(x) !in buckets
    ensures Collected(xs + [x], labelOf, keys + [labelOf(x)], buckets[labelOf(x) := [x]])
  {
    var tag := labelOf(x);
    var buckets' := buckets[tag := [x]];
    MembersNone(xs, labelOf, tag);
    forall k | k in buckets'
      ensures buckets'[k] != [] && buckets'[k] == Members(xs + [x], labelOf, k)
    {
      MembersSnoc(xs, x, labelOf, k);
    }
    forall c | c in xs + [x]
      ensures labelOf(c) in buckets'
    {
      if c != x {
        assert c in xs;
      }
    }
  }

  lemma CollectOld<T>(xs: seq<T>, x: T, labelOf: T -> string, keys: seq<string>, buckets: map<string, seq<T>>)
    requires Collected(xs, labelOf, keys, buckets) && labelOf(x) in buckets
    ensures Collected(xs + [x], labelOf, keys, buckets[labelOf(x) := buckets[labelOf(x)] + [x]])
  {
    forall k | k in buckets
      ensures Members(xs + [x], labelOf, k) == Members(xs, labelOf, k) + (if labelOf(x) == k then [x] else [])
    {
      MembersSnoc(xs, x, labelOf, k);
    }
  }

  /** The second loop of `groupByDate`: for each label of `labels` that has chats, its
      group, once, in the order of `labels`. `pos` gives where each group's label
      stands in `labels`. */
  method CopyInOrder<T>(labels: seq<string>, buckets: map<string, seq<T>>) returns (groups: seq<Group<T>>, ghost pos: seq<nat>)
    ensures |pos| == |groups|
    ensures forall i :: 0 <= i < |groups| ==>
      && pos[i] < |labels| && labels[pos[i]] == groups[i].heading
      && groups[i].heading in buckets && groups[i].chats == buckets[groups[i].heading]
    ensures forall i, i' :: 0 <= i < i' < |groups| ==> pos[i] < pos[i']
    ensures forall i, i' :: 0 <= i < i' < |groups| ==> groups[i].heading != groups[i'].heading
    ensures forall m :: 0 <= m < |labels| && labels[m] in buckets ==>
      exists i :: 0 <= i < |groups| && groups[i].heading == labels[m]
  {
    groups, pos := [], [];
    var emitted: set<string> := {};
    var j := 0;
    while j < |labels|
      invariant 0 <= j <= |labels|
      invariant Copied(labels, buckets, j, groups, pos, emitted)
    {
      var tag := labels[j];
      if tag in buckets && tag !in emitted {
        CopyTake(labels, buckets, j, groups, pos, emitted);
        groups := groups + [Group(tag, buckets[tag])];
        pos := pos + [j];
        emitted := emitted + {tag};
      } else {
        CopySkip(labels, buckets, j, groups, pos, emitted);
      }
      j := j + 1;
    }
  }

  /** What the second loop has built after the first `j` labels: the groups of the
      labels met so far that have chats, each once, in the order met; `emitted` holds
      the labels already copied. */
  ghost predicate Copied<T>(labels: seq<string>, buckets: map<string, seq<T>>, j: nat,
                            groups: seq<Group<T>>, pos: seq<nat>, emitted: set<string>)
  {
    && CopiedAt(labels, buckets, j, groups, pos)
    && EmittedAre(groups, emitted)
    && DistinctHeadings(groups)
    && (forall m :: 0 <= m < j && m < |labels| && labels[m] in buckets ==> labels[m] in emitted)
  }

  /** Each group is the bucket of the label at its position, the positions ascending
      and below `j`. */
  ghost predicate CopiedAt<T>(labels: seq<string>, buckets: map<string, seq<T>>, j: nat,
                              groups: seq<Group<T>>, pos: seq<nat>)
  {
    && |pos| == |groups|
    && (forall i :: 0 <= i < |groups| ==>
        && pos[i] < j && pos[i] < |labels| && labels[pos[i]] == groups[i].heading
        && groups[i].heading in buckets && groups[i].chats == buckets[groups[i].heading])
    && (forall i, i' :: 0 <= i < i' < |groups| ==> pos[i] < pos[i'])
  }

  /** `emitted` is the set of the groups' labels. */
  ghost predicate EmittedAre<T>(groups: seq<Group<T>>, emitted: set<string>) {
    && (forall i :: 0 <= i < |groups| ==> groups[i].heading in emitted)
    && (forall k :: k in emitted ==> exists i :: 0 <= i < |groups| && groups[i].heading == k)
  }

  ghost predicate DistinctHeadings<T>(groups: seq<Group<T>>) {
    forall i, i' :: 0 <= i < i' < |groups| ==> groups[i].heading != groups[i'].heading
  }

  lemma CopyTake<T>(labels: seq<string>, buckets: map<string, seq<T>>, j: nat,
                    groups: seq<Group<T>>, pos: seq<nat>, emitted: set<string>)
    requires j < |labels| && Copied(labels, buckets, j, groups, pos, emitted)
    requires labels[j] in buckets && labels[j] !in emitted
    ensures Copied(labels, buckets, j + 1, groups + [Group(labels[j], buckets[labels[j]])], pos + [j], emitted + {labels[j]})
  {
    var g := Group(labels[j], buckets[labels[j]]);
    CopiedAtTake(labels, buckets, j, groups, pos);
    EmittedAreTake(groups, emitted, g);
    DistinctTake(groups, emitted, g);
  }

  lemma CopiedAtTake<T>(labels: seq<string>, buckets: map<string, seq<T>>, j: nat,
                        groups: seq<Group<T>>, pos: seq<nat>)
    requires j < |labels| && labels[j] in buckets && CopiedAt(labels, buckets, j, groups, pos)
    ensures CopiedAt(labels, buckets, j + 1, groups + [Group(labels[j], buckets[labels[j]])], pos + [j])
  {
  }

  lemma EmittedAreTake<T>(groups: seq<Group<T>>, emitted: set<string>, g: Group<T>)
    requires EmittedAre(groups, emitted)
    ensures EmittedAre(groups + [g], emitted + {g.heading})
  {
    var groups' := groups + [g];
    forall k | k in emitted + {g.heading}
      ensures exists i :: 0 <= i < |groups'| && groups'[i].heading == k
    {
      if k == g.heading {
        assert groups'[|groups|].heading == k;
      } else {
        var i :| 0 <= i < |groups| && groups[i].heading == k;
        assert groups'[i].heading == k;
      }
    }
  }

  lemma DistinctTake<T>(groups: seq<Group<T>>, emitted: set<string>, g: Group<T>)
    requires DistinctHeadings(groups) && g.heading !in emitted
    requires forall i :: 0 <= i < |groups| ==> groups[i].heading in emitted
    ensures DistinctHeadings(groups + [g])
  {
  }

  lemma CopySkip<T>(labels: seq<string>, buckets: map<string, seq<T>>, j: nat,
                    groups: seq<Group<T>>, pos: seq<nat>, emitted: set<string>)
    requires j < |labels| && Copied(labels, buckets, j, groups, pos, emitted)
    requires !(labels[j] in buckets && labels[j] !in emitted)
    ensures Copied(labels, buckets, j + 1, groups, pos, emitted)
  {
  }

}

=== FILE: history_sidebar.dfy ===
/** The history sidebar: the title shown for a stored chat, the time shown beside it,
    and the grouping of the chat list under day-difference labels. */
module HistorySidebar {
  import opened Wrappers
  import opened Strings
  import opened Sorting
  import opened DayLabels
  import opened Grouping

  /** A calendar date in local time, as `getDate`, `getMonth() + 1` and `getFullYear`
      read it. */
  datatype CalendarDate = CalendarDate(day: nat, month: nat, year: int)

  predicate ValidDate(d: CalendarDate) {
    1 <= d.day <= 31 && 1 <= d.month <= 12
  }

  // ---------------------------------------------------------------------------
  // Titles

  /** `DD/MM/YYYY`, day and month zero-padded. */
  function DateText(d: CalendarDate): string {
    Pad2(d.day) + "/" + Pad2(d.month) + "/" + IntToString(d.year)
  }

  /** `Chat DD/MM/YYYY`. */
  function DateTitle(d: CalendarDate): string {
    "Chat " + DateText(d)
  }

  /** `/^Chat \d{2}\/\d{2}\/\d{4}$/.test(t)` */
  predicate IsDateTitle(t: string) {
    && |t| == 15
    && StartsWith(t, "Chat ")
    && AllDigits(t[5..7]) && t[7] == '/'
    && AllDigits(t[8..10]) && t[10] == '/'
    && AllDigits(t[11..15])
  }

  /** A stored title the sidebar shows as it is: not empty, not the start of a
      greeting or a question, and not a generated date title. */
  predicate KeptTitle(t: string) {
    && t != ""
    && !StartsWith(t, "Olá") && !StartsWith(t, "Como posso") && !StartsWith(t, "Qual")
    && !EndsWith(t, "?")
    && !(StartsWith(t, "Chat ") && IsDateTitle(t))
  }

  /** `generateDisplayTitle(chat)`. `date` is the chat's first truthy date field
      (`timestamp`, `created_at`, `updated_at`, `date`) when it parses to a valid date;
      `today` is the current date. */
  function GenerateDisplayTitle(title: string, date: Option<CalendarDate>, today: CalendarDate): (r: string)
    ensures KeptTitle(title) ==> r == title
    ensures !KeptTitle(title) ==> r == DateTitle(date.GetOr(today))
  {
    if title != "" && !StartsWith(title, "Olá") && !StartsWith(title, "Como posso")
      && !StartsWith(title, "Qual") && !EndsWith(title, "?")
    then
      if StartsWith(title, "Chat ") then
        if !IsDateTitle(title) then title else DateTitle(date.GetOr(today))
      else title
    else DateTitle(date.GetOr(today))
  }

  /** The generated title has the shape the sidebar recognises as generated, and its
      day, month and year read back as the date's. */
  lemma DateTitleRoundTrip(d: CalendarDate)
    requires ValidDate(d) && 1000 <= d.year <= 9999
    ensures IsDateTitle(DateTitle(d))
    ensures DigitsValue(DateTitle(d)[5..7]) == d.day
    ensures DigitsValue(DateTitle(d)[8..10]) == d.month
    ensures DigitsValue(DateTitle(d)[11..15]) == d.year
  {
    var t := DateTitle(d);
    var dd, mm, yy := Pad2(d.day), Pad2(d.month), NatToString(d.year);
    assert |yy| == 4 by { NatToStringLength(d.year); }
    assert t == "Chat " + dd + "/" + mm + "/" + yy;
    assert t[5..7] == dd && t[8..10] == mm && t[11..15] == yy;
    DigitsValueOfNatToString(d.year);
  }

  lemma {:induction false} NatToStringLength(n: nat)
    requires 1000 <= n <= 9999
    ensures |NatToString(n)| == 4
  {
    assert NatToString(n) == NatToString(n / 10) + [DigitChar(n % 10)];
    assert NatToString(n / 10) == NatToString(n / 100) + [DigitChar(n / 10 % 10)];
    assert NatToString(n / 100) == NatToString(n / 1000) + [DigitChar(n / 100 % 10)];
  }

  /** Showing a title twice gives the title shown once, for dates with four-digit
      years. */
  lemma TitleIdempotent(title: string, date: Option<CalendarDate>, today: CalendarDate)
    requires ValidDate(date.GetOr(today)) && 1000 <= date.GetOr(today).year <= 9999
    ensures GenerateDisplayTitle(GenerateDisplayTitle(title, date, today), date, today)
      == GenerateDisplayTitle(title, date, today)
  {
    if !KeptTitle(title) {
      var t := DateTitle(date.GetOr(today));
      DateTitleRoundTrip(date.GetOr(today));
      assert t[..5] == "Chat ";
    }
  }

  /** A question is never shown as a title: a title ending with `?` is replaced. */
  lemma QuestionReplaced(title: string, date: Option<CalendarDate>, today: CalendarDate)
    requires EndsWith(title, "?")
    ensures GenerateDisplayTitle(title, date, today) != title
  {
    var t := DateTitle(date.GetOr(today));
    var y := IntToString(date.GetOr(today).year);
    assert t == ("Chat " + Pad2(date.GetOr(today).day) + "/" + Pad2(date.GetOr(today).month) + "/") + y;
    assert t[|t| - 1] == y[|y| - 1];
    assert IsDigit(y[|y| - 1]) by {
      if date.GetOr(today).year < 0 {
        assert y[|y| - 1] == NatToString(-date.GetOr(today).year)[|y| - 2];
      }
    }
    assert title[|title| - 1] == '?' by {
      assert title[|title| - 1..] == "?";
    }
  }

  // ---------------------------------------------------------------------------
  // Time beside a chat

  /** `formatTime(timestamp)`: `DD.MM`, or the fixed `03.11` when there is none. */
  function FormatTime(timestamp: Option<CalendarDate>): (r: string)
    ensures timestamp.None? ==> r == "03.11"
  {
    match timestamp
    case None => "03.11"
    case Some(d) => Pad2(d.day) + "." + Pad2(d.month)
  }

  /** The day and month read back from the time shown. */
  lemma FormatTimeRoundTrip(d: CalendarDate)
    requires ValidDate(d)
    ensures |FormatTime(Some(d))| == 5 && FormatTime(Some(d))[2] == '.'
    ensures AllDigits(FormatTime(Some(d))[..2]) && DigitsValue(FormatTime(Some(d))[..2]) == d.day
    ensures AllDigits(FormatTime(Some(d))[3..]) && DigitsValue(FormatTime(Some(d))[3..]) == d.month
  {
    var r := FormatTime(Some(d));
    assert r[..2] == Pad2(d.day) && r[3..] == Pad2(d.month);
  }

  // ---------------------------------------------------------------------------
  // Grouping by date

  /** The label `groupByDate` files a chat under, given the chat's whole-day
      difference from today. */
  function LabelOf<T>(dayDiff: T -> int): T -> string {
    c => DayLabel(dayDiff(c))
  }

  /** The group labels strictly ascend in rank. */
  predicate RankOrdered<T>(groups: seq<Group<T>>) {
    forall i, j :: 0 <= i < j < |groups| ==> LabelCode(groups[i].heading) < LabelCode(groups[j].heading)
  }

  /** `groupByDate(history)`: a dictionary from label to chats, filled in input order,
      then copied in the order of `orderedLabels`. `dayDiff` is the whole-day
      difference between today and the chat's date. */
  method GroupByDate<T>(history: seq<T>, dayDiff: T -> int) returns (groups: seq<Group<T>>)
    ensures GroupedBy(history, LabelOf(dayDiff), groups)
    ensures (forall c :: c in history ==> dayDiff(c) >= 0) ==> RankOrdered(groups)
  {
    var keys, buckets := CollectByLabel(history, LabelOf(dayDiff));
    KeysListed(history, dayDiff, keys, buckets);
    var labels := OrderedLabels(keys);
    ghost var pos;
    groups, pos := CopyInOrder(labels, buckets);
    EveryChatGrouped(history, dayDiff, keys, buckets, groups);
    if forall c :: c in history ==> dayDiff(c) >= 0 {
      KeysAreAges(history, dayDiff, keys, buckets);
      OrderedLabelsSorted(keys);
      RankOrderedByPosition(labels, groups, pos);
    }
  }

  /** Every label the first loop meets is one `orderedLabels` lists. */
  lemma KeysListed<T>(history: seq<T>, dayDiff: T -> int, keys: seq<string>, buckets: map<string, seq<T>>)
    requires Collected(history, LabelOf(dayDiff), keys, buckets)
    ensures forall k :: k in keys ==> Listed(k) && k in OrderedLabels(keys)
  {
    forall k | k in keys
      ensures Listed(k) && k in OrderedLabels(keys)
    {
      var c := buckets[k][0];
      assert c in buckets[k];
      AlwaysListed(dayDiff(c));
      ListedInOrder(keys, k);
    }
  }

  /** With no chat dated in the future, every label met is the label of an age. */
  lemma KeysAreAges<T>(history: seq<T>, dayDiff: T -> int, keys: seq<string>, buckets: map<string, seq<T>>)
    requires Collected(history, LabelOf(dayDiff), keys, buckets)
    requires forall c :: c in history ==> dayDiff(c) >= 0
    ensures forall k :: k in keys ==> IsAgeLabel(k)
  {
    forall k | k in keys
      ensures IsAgeLabel(k)
    {
      var c := buckets[k][0];
      assert c in buckets[k];
      var d: nat := dayDiff(c);
      assert k == DayLabel(d);
    }
  }

  /** Every chat's label is the label of some group. */
  lemma EveryChatGrouped<T>(history: seq<T>, dayDiff: T -> int, keys: seq<string>, buckets: map<string, seq<T>>, groups: seq<Group<T>>)
    requires Collected(history, LabelOf(dayDiff), keys, buckets)
    requires forall k :: k in keys ==> k in OrderedLabels(keys)
    requires forall m :: 0 <= m < |OrderedLabels(keys)| && OrderedLabels(keys)[m] in buckets ==>
      exists i :: 0 <= i < |groups| && groups[i].heading == OrderedLabels(keys)[m]
    ensures forall c :: c in history ==> exists i :: 0 <= i < |groups| && groups[i].heading == LabelOf(dayDiff)(c)
  {
    var labels := OrderedLabels(keys);
    forall c | c in history
      ensures exists i :: 0 <= i < |groups| && groups[i].heading == LabelOf(dayDiff)(c)
    {
      var k := LabelOf(dayDiff)(c);
      var m :| 0 <= m < |labels| && labels[m] == k;
    }
  }

  /** Groups copied in the order of a rank-sorted label list, with distinct labels of
      distinct rank, are in strictly ascending rank. */
  lemma RankOrderedByPosition<T>(labels: seq<string>, groups: seq<Group<T>>, pos: seq<nat>)
    requires SortedBy(labels, LabelCode)
    requires |pos| == |groups|
    requires forall i :: 0 <= i < |groups| ==> pos[i] < |labels| && labels[pos[i]] == groups[i].heading
    requires forall i, i' :: 0 <= i < i' < |groups| ==> pos[i] < pos[i']
    requires forall i, i' :: 0 <= i < i' < |groups| ==> groups[i].heading != groups[i'].heading
    requires forall i :: 0 <= i < |groups| ==> IsAgeLabel(groups[i].heading)
    ensures RankOrdered(groups)
  {
    forall i, i' | 0 <= i < i' < |groups|
      ensures LabelCode(groups[i].heading) < LabelCode(groups[i'].heading)
    {
      assert LabelCode(labels[pos[i]]) <= LabelCode(labels[pos[i']]);
      if LabelCode(groups[i].heading) == LabelCode(groups[i'].heading) {
        CodeInjective(groups[i].heading, groups[i'].heading);
      }
    }
  }

  /** Each label among `keys` appears in `orderedLabels(keys)`. */
  lemma ListedInOrder(keys: seq<string>, k: string)
    requires k in keys && Listed(k)
    ensures k in OrderedLabels(keys)
  {
    var head := [TODAY, YESTERDAY];
    var days := SortBy(Filter(keys, IsDaysLabel), DaysKey);
    var weeks := SortBy(Filter(keys, IsWeeksLabel), WeeksKey);
    var months := SortBy(Filter(keys, IsMonthsLabel), MonthsKey);
    var years := SortBy(Filter(keys, IsYearsLabel), YearsKey);
    assert OrderedLabels(keys) == head + days + weeks + months + years;
    if k == TODAY || k == YESTERDAY {
    } else if IsDaysLabel(k) {
      assert k in multiset(days);
    } else if IsWeeksLabel(k) {
      assert k in multiset(weeks);
    } else if IsMonthsLabel(k) {
      assert k in multiset(months);
    } else {
      assert k in multiset(years);
    }
  }

  /** Groups listed earlier hold more recent chats: every chat of an earlier group is
      strictly younger than every chat of a later one. */
  lemma GroupsByAge<T>(history: seq<T>, dayDiff: T -> int, groups: seq<Group<T>>, i: nat, j: nat, a: T, b: T)
    requires GroupedBy(history, LabelOf(dayDiff), groups) && RankOrdered(groups)
    requires forall c :: c in history ==> dayDiff(c) >= 0
    requires i < j < |groups| && a in groups[i].chats && b in groups[j].chats
    ensures dayDiff(a) < dayDiff(b)
  {
    var da: nat, db: nat := dayDiff(a), dayDiff(b);
    Classify(da);
    Classify(db);
    if db <= da {
      AgeCodeMonotone(db, da);
    }
  }
}

=== FILE: http.dfy ===
/** What a `fetch` call gives the widget: either the promise rejects (network
    failure, abort) with an error message, or a response arrives with a status,
    a status text, the raw body text and the outcome of `response.json()`. */
module Http {
  import opened Wrappers

  datatype Reply<T> =
    | NetworkFailure(message: string)
    | Reply(status: int, statusText: string, text: string, body: Result<T>)

  /** `response.ok`. */
  predicate IsOk(status: int) {
    200 <= status <= 299
  }
}

=== FILE: moodle_auth.dfy ===
/** The Moodle identity helpers: reading the launch parameters from the page URL,
    deciding whether the page was opened from Moodle, mapping the backend's
    handshake reply into a result that never throws, and keeping the signed-in
    user in `sessionStorage` under `moodle_user`. */
module MoodleAuth {
  import opened Wrappers
  import opened Strings
  import opened Http
  import opened Storage

  /** The query string as `URLSearchParams` sees it: a parameter is absent or holds
      a (possibly empty) string. */
  type UrlParams = map<string, string>

  /** `params.get(name)`: `None` stands for `null`. */
  function Param(params: UrlParams, name: string): Option<string> {
    if name in params then Some(params[name]) else None
  }

  /** JavaScript truthiness of a `get` result: present and non-empty. */
  predicate Truthy(v: Option<string>) {
    v.Some? && v.value != ""
  }

  /** The object `getMoodleTokenFromURL` returns. */
  datatype LaunchParams = LaunchParams(token: Option<string>, origin: string, courseId: Option<string>, page: string)

  function TokenFromUrl(params: UrlParams): (r: LaunchParams)
    ensures Truthy(Param(params, "moodle_token")) ==> r.token == Param(params, "moodle_token")
    ensures !Truthy(Param(params, "moodle_token")) ==> r.token == Param(params, "token")
    ensures r.origin == (if Truthy(Param(params, "origin")) then params["origin"] else "moodle")
    ensures r.page == (if Truthy(Param(params, "page")) then params["page"] else "chat")
    ensures r.courseId == Param(params, "course_id")
    ensures r.origin != "" && r.page != ""
  {
    var moodleToken := Param(params, "moodle_token");
    var origin := Param(params, "origin");
    var page := Param(params, "page");
    LaunchParams(
      if Truthy(moodleToken) then moodleToken else Param(params, "token"),
      if Truthy(origin) then origin.value else "moodle",
      Param(params, "course_id"),
      if Truthy(page) then page.value else "chat")
  }

  /** `isFromMoodle`. */
  predicate IsFromMoodle(params: UrlParams) {
    var p := TokenFromUrl(params);
    Truthy(p.token) && p.origin == "moodle"
  }

  /** Opened from Moodle exactly when some token parameter is non-empty and the
      origin is `moodle` or absent (empty counts as absent). */
  lemma IsFromMoodleIff(params: UrlParams)
    ensures IsFromMoodle(params) <==>
      (Truthy(Param(params, "moodle_token")) || Truthy(Param(params, "token")))
      && (!Truthy(Param(params, "origin")) || params["origin"] == "moodle")
  {
  }

  /** The body of a successful handshake reply; a missing property is `false` or
      the empty string. */
  datatype HandshakeData = HandshakeData(ok: bool, valid: bool, userId: string, userName: string, userEmail: string)

  /** The object `validateMoodleSession` resolves to. On failure `ok` is false, the
      identity fields are absent (the empty string) and `error` holds a message;
      on success `error` is absent (the empty string). */
  datatype SessionResult = SessionResult(ok: bool, userId: string, userName: string, userEmail: string, error: string)

  function Failure(message: string): SessionResult {
    SessionResult(false, "", "", "", message)
  }

  /** `validateMoodleSession`: every outcome of the request becomes a result, none
      an exception. */
  function ValidateMoodleSession(reply: Reply<HandshakeData>): (r: SessionResult)
    ensures reply.NetworkFailure? ==> r == Failure(reply.message)
    ensures reply.Reply? && !IsOk(reply.status) && reply.status == 401 ==> r == Failure("invalid_session")
    ensures reply.Reply? && !IsOk(reply.status) && reply.status != 401 ==>
      r == Failure("Erro " + IntToString(reply.status) + ": " + reply.statusText)
    ensures reply.Reply? && IsOk(reply.status) && reply.body.Err? ==> r == Failure(reply.body.message)
    ensures reply.Reply? && IsOk(reply.status) && reply.body.Ok? ==>
      var d := reply.body.value;
      r == SessionResult(d.ok || d.valid, d.userId, d.userName, d.userEmail, "")
    ensures r.ok ==> r.error == ""
  {
    match reply
    case NetworkFailure(message) => Failure(message)
    case Reply(status, statusText, _, body) =>
      if !IsOk(status) then
        if status == 401 then Failure("invalid_session")
        else Failure("Erro " + IntToString(status) + ": " + statusText)
      else
        match body
        case Err(message) => Failure(message)
        case Ok(d) => SessionResult(d.ok || d.valid, d.userId, d.userName, d.userEmail, "")
  }

  // ---------------------------------------------------------------------------
  // The stored user

  /** A user record as it is written to `sessionStorage`. Missing identity fields
      are the empty string; `fromMoodle` is `None` when the property is absent. */
  datatype UserRecord = UserRecord(userId: string, userName: string, userEmail: string, fromMoodle: Option<bool>)

  const USER_KEY: string := "moodle_user"

  /** `getMoodleUser`. */
  function GetMoodleUser(store: KeyValueStore<UserRecord>): (r: Option<UserRecord>)
    reads store
    ensures r.None? <==> USER_KEY !in store.items
    ensures r.Some? ==> r.value == store.items[USER_KEY]
  {
    store.Get(USER_KEY)
  }

  /** `storeMoodleUser`: the record is written as given, with no renaming or
      filling-in of fields; nothing else in the store changes. */
  method StoreMoodleUser(store: KeyValueStore<UserRecord>, user: UserRecord)
    modifies store
    ensures store.items == old(store.items)[USER_KEY := user]
    ensures GetMoodleUser(store) == Some(user)
  {
    store.SetItem(USER_KEY, user);
  }

  /** `clearMoodleUser`: afterwards there is no user; nothing else changes. */
  method ClearMoodleUser(store: KeyValueStore<UserRecord>)
    modifies store
    ensures store.items == old(store.items) - {USER_KEY}
    ensures GetMoodleUser(store) == None
  {
    store.RemoveItem(USER_KEY);
  }

  /** Some identity field is set (`userId || userName || userEmail`). */
  predicate HasIdentity(u: UserRecord) {
    u.userId != "" || u.userName != "" || u.userEmail != ""
  }
}

=== FILE: relative_time.dfy ===
/** How the chat page words the age of a message: the relative time under each
    message and the separators shown between messages far apart in time. */
module RelativeTime {
  import opened Wrappers
  import opened Strings
  import opened HistorySidebar

  /** `${prefix}${n} ${n === 1 ? singular : plural}`. */
  function Counted(prefix: string, n: nat, singular: string, plural: string): string {
    prefix + NatToString(n) + " " + (if n == 1 then singular else plural)
  }

  /** The number `n` is the first number in `r`, and `r` ends with the unit word,
      in the singular exactly when `n` is 1. */
  predicate ReadsAsCount(r: string, n: nat, singular: string, plural: string) {
    FirstDigitRun(r) == Some(NatToString(n)) && EndsWith(r, " " + (if n == 1 then singular else plural))
  }

  lemma CountedReadsBack(prefix: string, n: nat, singular: string, plural: string)
    requires NoDigits(prefix)
    ensures ReadsAsCount(Counted(prefix, n, singular, plural), n, singular, plural)
    ensures StartsWith(Counted(prefix, n, singular, plural), prefix)
  {
    var unit := " " + (if n == 1 then singular else plural);
    var r := Counted(prefix, n, singular, plural);
    assert r == prefix + NatToString(n) + unit;
    FirstDigitRunAfter(prefix, NatToString(n), unit);
    assert r[|r| - |unit|..] == unit;
    assert r[..|prefix|] == prefix;
  }

  const NOW_TEXT: string := "Agora"

  /** `formatRelativeTime(timestamp)` at time `now` (milliseconds); `messageDate` is
      the calendar date of the timestamp. */
  function FormatRelativeTime(timestamp: Option<int>, now: int, messageDate: CalendarDate): (r: string)
    ensures r == NOW_TEXT <==> timestamp.None? || (now - timestamp.value) / 1000 < 60
  {
    match timestamp
    case None => NOW_TEXT
    case Some(t) =>
      var seconds := (now - t) / 1000;
      if seconds < 60 then NOW_TEXT
      else if seconds < 3600 then Counted("há ", seconds / 60, "minuto", "minutos")
      else if seconds < 86400 then Counted("há ", seconds / 3600, "hora", "horas")
      else if seconds < 2592000 then Counted("há ", seconds / 86400, "dia", "dias")
      else DateText(messageDate)
  }

  /** Under an hour: the whole minutes, from 1 to 59. */
  lemma RelativeMinutes(t: int, now: int, messageDate: CalendarDate)
    requires 60 <= (now - t) / 1000 < 3600
    ensures var m := (now - t) / 1000 / 60;
      1 <= m < 60 && ReadsAsCount(FormatRelativeTime(Some(t), now, messageDate), m, "minuto", "minutos")
  {
    CountedReadsBack("há ", (now - t) / 1000 / 60, "minuto", "minutos");
  }

  /** Under a day: the whole hours, from 1 to 23. */
  lemma RelativeHours(t: int, now: int, messageDate: CalendarDate)
    requires 3600 <= (now - t) / 1000 < 86400
    ensures var h := (now - t) / 1000 / 3600;
      1 <= h < 24 && ReadsAsCount(FormatRelativeTime(Some(t), now, messageDate), h, "hora", "horas")
  {
    CountedReadsBack("há ", (now - t) / 1000 / 3600, "hora", "horas");
  }

  /** Under thirty days: the whole days, from 1 to 29. */
  lemma RelativeDays(t: int, now: int, messageDate: CalendarDate)
    requires 86400 <= (now - t) / 1000 < 2592000
    ensures var d := (now - t) / 1000 / 86400;
      1 <= d < 30 && ReadsAsCount(FormatRelativeTime(Some(t), now, messageDate), d, "dia", "dias")
  {
    CountedReadsBack("há ", (now - t) / 1000 / 86400, "dia", "dias");
  }

  /** Thirty days or more: the message's date. */
  lemma RelativeDate(t: int, now: int, messageDate: CalendarDate)
    requires 2592000 <= (now - t) / 1000
    ensures FormatRelativeTime(Some(t), now, messageDate) == DateText(messageDate)
  {
  }

  /** `getTimeSeparator(current, previous)` on the two messages' times (milliseconds);
      `None` is `null`. */
  function GetTimeSeparator(previous: Option<int>, current: int): (r: Option<string>)
    ensures r.None? <==> previous.None? || (current - previous.value) / 60000 < 5
  {
    match previous
    case None => None
    case Some(p) =>
      var minutes := (current - p) / 60000;
      if minutes >= 5 then
        if minutes < 60 then Some("HÁ " + NatToString(minutes) + " MINUTOS")
        else if minutes < 1440 then Some(Counted("HÁ ", minutes / 60, "HORA", "HORAS"))
        else Some(Counted("HÁ ", minutes / 1440, "DIA", "DIAS"))
      else None
  }

  /** A separator under an hour gives the minutes, from 5 to 59, always with the
      plural word; under a day, the hours; beyond, the days. */
  lemma SeparatorCounts(p: int, current: int)
    requires (current - p) / 60000 >= 5
    ensures var m := (current - p) / 60000;
      var r := GetTimeSeparator(Some(p), current).value;
      && (m < 60 ==> ReadsAsCount(r, m, "MINUTOS", "MINUTOS"))
      && (60 <= m < 1440 ==> 1 <= m / 60 < 24 && ReadsAsCount(r, m / 60, "HORA", "HORAS"))
      && (1440 <= m ==> 1 <= m / 1440 && ReadsAsCount(r, m / 1440, "DIA", "DIAS"))
  {
    var m := (current - p) / 60000;
    if m < 60 {
      assert "HÁ " + NatToString(m) + " MINUTOS" == Counted("HÁ ", m, "MINUTOS", "MINUTOS");
      CountedReadsBack("HÁ ", m, "MINUTOS", "MINUTOS");
    } else if m < 1440 {
      CountedReadsBack("HÁ ", m / 60, "HORA", "HORAS");
    } else {
      CountedReadsBack("HÁ ", m / 1440, "DIA", "DIAS");
    }
  }
}

=== FILE: scope_validator.dfy ===
/** The question scope check of the chat (`scopeValidator.js`): a question is
    lower-cased and stripped of accents, rejected when it contains an off-topic
    keyword, and otherwise accepted with a reason that depends on its length and on
    whether it mentions a course keyword. */
module ScopeValidator {
  import opened Wrappers
  import opened Strings

  // ---------------------------------------------------------------------------
  // Keywords (all already in lower case, so `keyword.toLowerCase()` is the keyword)

  const COURSE_AUTOMATION: seq<string> := [
    "automação", "automatização", "industrial", "industria", "fábrica", "fabrica",
    "processo", "processos", "produção", "producao", "manufatura", "sistema", "sistemas"]
  const COURSE_CONTROLLERS: seq<string> := [
    "clp", "plc", "controlador", "controladores", "lógico", "logico", "programável", "programavel",
    "ladder", "blocos funcionais", "texto estruturado", "sequential function chart",
    "programação", "programacao", "lógica", "logica"]
  const COURSE_SENSORS: seq<string> := [
    "sensor", "sensores", "atuador", "atuadores", "transdutor", "transdutores",
    "proximidade", "temperatura", "pressão", "pressao", "nível", "nivel",
    "encoder", "potenciômetro", "potenciometro", "termistor", "termopar",
    "detecção", "deteccao", "medição", "medicao"]
  const COURSE_NETWORKS: seq<string> := [
    "rede", "redes", "comunicação", "comunicacao", "protocolo", "protocolos",
    "ethernet", "profibus", "modbus", "can", "fieldbus", "devicenet",
    "scada", "hmi", "supervisório", "supervisorio", "interface"]
  const COURSE_ELECTRICAL: seq<string> := [
    "motor", "motores", "servo", "inversor", "frequência", "frequencia",
    "contator", "relé", "rele", "disjuntor", "fusível", "fusivel",
    "transformador", "capacitor", "resistor", "indutor", "elétrico", "eletrico"]
  const COURSE_INSTRUMENTATION: seq<string> := [
    "instrumentação", "instrumentacao", "medição", "medicao", "calibração", "calibracao",
    "válvula", "valvula", "bomba", "compressor", "ventilador", "equipamento", "equipamentos"]
  const COURSE_SAFETY: seq<string> := [
    "segurança", "seguranca", "emergência", "emergencia", "parada", "proteção", "protecao",
    "categoria", "sil", "norma", "nr12", "iso", "iec", "risco", "riscos"]
  const COURSE_FLUID_POWER: seq<string> := [
    "pneumática", "pneumatica", "hidráulica", "hidraulica", "cilindro", "pistão", "pistao",
    "compressor", "reservatório", "reservatorio", "filtro", "regulador", "ar", "óleo", "oleo"]
  const COURSE_ELECTRONICS: seq<string> := [
    "eletrônica", "eletronica", "circuito", "circuitos", "amplificador", "conversor",
    "analógico", "analogico", "digital", "pwm", "dac", "adc", "sinal", "sinais"]
  const COURSE_MAINTENANCE: seq<string> := [
    "manutenção", "manutencao", "preventiva", "corretiva", "preditiva",
    "diagnóstico", "diagnostico", "falha", "falhas", "defeito", "defeitos",
    "reparo", "reparos", "conserto", "consertos"]
  const COURSE_TECHNICAL: seq<string> := [
    "técnico", "tecnico", "tecnologia", "engenharia", "mecânico", "mecanico",
    "funcionamento", "operação", "operacao", "instalação", "instalacao",
    "configuração", "configuracao", "ajuste", "ajustes"]
  const COURSE_SENAI: seq<string> := [
    "senai", "apostila", "curso", "aula", "módulo", "modulo", "capítulo", "capitulo",
    "exercício", "exercicio", "atividade", "prática", "pratica", "laboratório", "laboratorio"]
  const COURSE_QUESTIONS: seq<string> := [
    "como", "que", "qual", "onde", "quando", "por", "para", "funciona", "serve",
    "diferença", "diferenca", "vantagem", "vantagens", "aplicação", "aplicacao"]

  /** The course keywords, group by group in the order of the source. */
  const COURSE_KEYWORDS: seq<string> :=
    COURSE_AUTOMATION
    + COURSE_CONTROLLERS
    + COURSE_SENSORS
    + COURSE_NETWORKS
    + COURSE_ELECTRICAL
    + COURSE_INSTRUMENTATION
    + COURSE_SAFETY
    + COURSE_FLUID_POWER
    + COURSE_ELECTRONICS
    + COURSE_MAINTENANCE
    + COURSE_TECHNICAL
    + COURSE_SENAI
    + COURSE_QUESTIONS

  const OFF_VEHICLES: seq<string> := [
    "carro", "carros", "automóvel", "automovel", "veículo", "veiculo",
    "moto", "motocicleta", "bicicleta", "caminhão", "caminhao"]
  const OFF_COOKING: seq<string> := [
    "receita", "receitas", "cozinha", "comida", "prato", "pratos",
    "ingrediente", "ingredientes", "tempero", "temperos"]
  const OFF_SPORTS: seq<string> := [
    "futebol", "basquete", "vôlei", "volei", "tênis", "tenis",
    "natação", "natacao", "corrida", "maratona"]
  const OFF_ENTERTAINMENT: seq<string> := [
    "filme", "filmes", "série", "series", "novela", "novelas",
    "música", "musica", "canção", "cancao", "banda", "artista"]
  const OFF_OTHER_TOPICS: seq<string> := [
    "política", "politica", "religião", "religiao", "filosofia",
    "história", "historia", "geografia", "matemática", "matematica",
    "português", "portugues", "inglês", "ingles"]

  /** The off-topic keywords, group by group in the order of the source. */
  const OUT_OF_SCOPE_KEYWORDS: seq<string> :=
    OFF_VEHICLES
    + OFF_COOKING
    + OFF_SPORTS
    + OFF_ENTERTAINMENT
    + OFF_OTHER_TOPICS

  // ---------------------------------------------------------------------------
  // toLowerCase, normalize('NFD') and deletion of the marks U+0300 to U+036F, on Latin-1 text

  /** The combining diacritical marks the source deletes. */
  predicate IsCombiningMark(c: char) {
    '\U{0300}' <= c <= '\U{036F}'
  }

  /** An upper-case Basic Latin or Latin-1 letter. */
  predicate IsUpper(c: char) {
    'A' <= c <= 'Z' || ('\U{00C0}' <= c <= '\U{00DE}' && c != '\U{00D7}')
  }

  /** `toLowerCase` on Basic Latin and Latin-1 letters; other characters are kept. */
  function Lower(c: char): (l: char)
    ensures !IsUpper(l)
    ensures !IsUpper(c) ==> l == c
  {
    if IsUpper(c) then (c as int + 32) as char else c
  }

  /** The base letter of a lower-case Latin-1 letter whose canonical decomposition
      is a letter followed by a combining mark; any other character is kept. */
  function Base(c: char): char {
    if '\U{00E0}' <= c <= '\U{00E5}' then 'a'
    else if c == '\U{00E7}' then 'c'
    else if '\U{00E8}' <= c <= '\U{00EB}' then 'e'
    else if '\U{00EC}' <= c <= '\U{00EF}' then 'i'
    else if c == '\U{00F1}' then 'n'
    else if '\U{00F2}' <= c <= '\U{00F6}' then 'o'
    else if '\U{00F9}' <= c <= '\U{00FC}' then 'u'
    else if c == '\U{00FD}' || c == '\U{00FF}' then 'y'
    else c
  }

  /** A lower-case Latin-1 letter that decomposes under NFD into a base letter and
      a combining mark: an accented letter. */
  predicate IsAccented(c: char) {
    '\U{00E0}' <= c <= '\U{00FF}'
    && c != '\U{00E6}' && c != '\U{00F0}' && c != '\U{00F7}' && c != '\U{00F8}' && c != '\U{00FE}'
  }

  /** What the normalised question is made of: no upper-case letter, no accented
      letter and no combining mark. */
  predicate IsFolded(c: char) {
    !IsUpper(c) && !IsAccented(c) && !IsCombiningMark(c)
  }

  function Fold(c: char): (f: char)
    ensures IsFolded(c) ==> f == c
    ensures !IsCombiningMark(c) ==> IsFolded(f)
  {
    Base(Lower(c))
  }

  /** The accent-free lower-case form of a question. */
  function Normalise(s: string): (r: string)
    ensures |r| <= |s|
    ensures forall i :: 0 <= i < |r| ==> IsFolded(r[i])
    decreases |s|
  {
    if s == [] then []
    else if IsCombiningMark(s[0]) then Normalise(s[1..])
    else [Fold(s[0])] + Normalise(s[1..])
  }

  /** Text already in folded form is left as it is. */
  lemma {:induction false} NormaliseFolded(s: string)
    requires forall i :: 0 <= i < |s| ==> IsFolded(s[i])
    ensures Normalise(s) == s
    decreases |s|
  {
    if s != [] {
      NormaliseFolded(s[1..]);
    }
  }

  // ---------------------------------------------------------------------------
  // The decision

  datatype Verdict = Verdict(isValid: bool, reason: string)

  const INVALID_QUESTION: string := "Pergunta inválida"
  const OUT_OF_SCOPE_REASON: string := "Esta pergunta parece estar fora do escopo do curso de Automação Industrial."
  const SHORT_REASON: string := "Pergunta muito curta, permitindo"
  const COURSE_REASON: string := "Pergunta contém palavras-chave do curso"
  const GENERIC_REASON: string := "Pergunta técnica genérica, permitindo"

  /** `keywords.some(k => s.includes(k))`. */
  predicate AnyOccurs(s: string, keywords: seq<string>) {
    exists i :: 0 <= i < |keywords| && Contains(s, keywords[i])
  }

  /** The accepting branches, shared by the check as written and by the
      whole-word variant: short questions first, then course keywords. */
  function Accept(norm: string): (v: Verdict)
    ensures v.isValid
  {
    if |norm| < 15 then Verdict(true, SHORT_REASON)
    else if AnyOccurs(norm, COURSE_KEYWORDS) then Verdict(true, COURSE_REASON)
    else Verdict(true, GENERIC_REASON)
  }

  /** `validateQuestionScope`. `None` is a value that is not a string. */
  function ValidateQuestionScope(question: Option<string>): (v: Verdict)
    // rejected exactly for a missing or empty question, or an off-topic substring
    ensures !v.isValid <==>
      question.None? || question.value == [] || AnyOccurs(Normalise(question.value), OUT_OF_SCOPE_KEYWORDS)
    ensures question.None? || question.value == [] ==> v == Verdict(false, INVALID_QUESTION)
    ensures question.Some? && question.value != [] && AnyOccurs(Normalise(question.value), OUT_OF_SCOPE_KEYWORDS) ==>
      v == Verdict(false, OUT_OF_SCOPE_REASON)
    // course keywords change only the reason, and only for questions of 15 characters or more
    ensures v.isValid ==>
      var norm := Normalise(question.value);
      && (|norm| < 15 ==> v.reason == SHORT_REASON)
      && (|norm| >= 15 ==> (v.reason == COURSE_REASON <==> AnyOccurs(norm, COURSE_KEYWORDS)))
      && (|norm| >= 15 && !AnyOccurs(norm, COURSE_KEYWORDS) ==> v.reason == GENERIC_REASON)
  {
    if question.None? || question.value == [] then Verdict(false, INVALID_QUESTION)
    else
      var norm := Normalise(question.value);
      if AnyOccurs(norm, OUT_OF_SCOPE_KEYWORDS) then Verdict(false, OUT_OF_SCOPE_REASON)
      else Accept(norm)
  }

  /** An off-topic keyword that carries an accent can never match: the normalised
      question has no accented letter, and the keyword is compared as written. */
  lemma AccentedKeywordNeverMatches(question: string, keyword: string, j: nat)
    requires j < |keyword| && IsAccented(keyword[j])
    ensures !Contains(Normalise(question), keyword)
  {
    var norm := Normalise(question);
    forall i: nat
      ensures !OccursAt(norm, keyword, i)
    {
      if i + |keyword| <= |norm| {
        assert norm[i..i + |keyword|][j] == norm[i + j];
        assert IsFolded(norm[i + j]);
      }
    }
    NotContains(norm, keyword);
  }

  /** As written, "motor", itself a course keyword, is rejected: it contains the
      off-topic "moto". So is every question that mentions a motor. */
  lemma MotorRejectedAsWritten(before: string, after: string)
    ensures "motor" in COURSE_KEYWORDS
    ensures ValidateQuestionScope(Some("motor")) == Verdict(false, OUT_OF_SCOPE_REASON)
    ensures !ValidateQuestionScope(Some(before + "motor" + after)).isValid
  {
    assert COURSE_KEYWORDS[|COURSE_AUTOMATION + COURSE_CONTROLLERS + COURSE_SENSORS + COURSE_NETWORKS|] == "motor";
    MentionsMoto(before, after);
    MentionsMoto("", "");
    assert "" + "motor" + "" == "motor";
  }

  /** A normalised question that mentions "motor" contains the off-topic "moto". */
  lemma MentionsMoto(before: string, after: string)
    ensures AnyOccurs(Normalise(before + "motor" + after), OUT_OF_SCOPE_KEYWORDS)
  {
    var norm := Normalise(before + "motor" + after);
    NormaliseKeepsMotor(before, after);
    var k := |Normalise(before)|;
    assert norm[k..k + 4] == "moto";
    ContainsAt(norm, "moto", k);
    assert OUT_OF_SCOPE_KEYWORDS[6] == "moto";
  }

  lemma NormaliseKeepsMotor(before: string, after: string)
    ensures Normalise(before + "motor" + after) == Normalise(before) + "motor" + Normalise(after)
  {
    NormaliseAppend(before + "motor", after);
    NormaliseAppend(before, "motor");
    NormaliseFolded("motor");
  }

  lemma {:induction false} NormaliseAppend(s: string, t: string)
    ensures Normalise(s + t) == Normalise(s) + Normalise(t)
    decreases |s|
  {
    if s != [] {
      assert (s + t)[0] == s[0];
      assert (s + t)[1..] == s[1..] + t;
      NormaliseAppend(s[1..], t);
    } else {
      assert s + t == t;
    }
  }

  // ---------------------------------------------------------------------------
  // The off-topic check by whole words

  /** Characters that belong to a word: digits, letters of either case and every
      character from U+00C0 on except the two Latin-1 operators. */
  predicate IsWordChar(c: char) {
    IsDigit(c) || 'a' <= c <= 'z' || 'A' <= c <= 'Z'
    || ('\U{00C0}' <= c && c != '\U{00D7}' && c != '\U{00F7}')
  }

  /** `k` occurs in `s` at `i` with no word character directly around it. */
  predicate WordAt(s: string, k: string, i: nat) {
    i + |k| <= |s| && s[i..i + |k|] == k
    && (i == 0 || !IsWordChar(s[i - 1]))
    && (i + |k| == |s| || !IsWordChar(s[i + |k|]))
  }

  predicate AnyWordOccurs(s: string, keywords: seq<string>) {
    exists i, p :: 0 <= i < |keywords| && 0 <= p <= |s| && WordAt(s, keywords[i], p)
  }

  /** The check with off-topic keywords matched as whole words, the way the keyword
      list spells out plural forms one by one. */
  function ValidateQuestionScopeByWord(question: Option<string>): (v: Verdict)
    ensures !v.isValid <==>
      question.None? || question.value == [] || AnyWordOccurs(Normalise(question.value), OUT_OF_SCOPE_KEYWORDS)
    ensures v.isValid ==> v == Accept(Normalise(question.value))
  {
    if question.None? || question.value == [] then Verdict(false, INVALID_QUESTION)
    else
      var norm := Normalise(question.value);
      if AnyWordOccurs(norm, OUT_OF_SCOPE_KEYWORDS) then Verdict(false, OUT_OF_SCOPE_REASON)
      else Accept(norm)
  }

  /** Whole-word matching only removes rejections: whatever it rejects, the check
      as written rejects too, with the same reason, and what both accept gets the
      same reason. */
  lemma ByWordRejectsLess(question: Option<string>)
    ensures !ValidateQuestionScopeByWord(question).isValid ==>
      ValidateQuestionScope(question) == ValidateQuestionScopeByWord(question)
    ensures ValidateQuestionScope(question).isValid ==>
      ValidateQuestionScope(question) == ValidateQuestionScopeByWord(question)
  {
    if question.Some? && question.value != [] {
      var norm := Normalise(question.value);
      if AnyWordOccurs(norm, OUT_OF_SCOPE_KEYWORDS) {
        var i, p :| 0 <= i < |OUT_OF_SCOPE_KEYWORDS| && 0 <= p <= |norm| && WordAt(norm, OUT_OF_SCOPE_KEYWORDS[i], p);
        ContainsAt(norm, OUT_OF_SCOPE_KEYWORDS[i], p);
      }
    }
  }

  /** In a text made only of word characters, the only whole word is the text. */
  lemma OnlyWholeWord(s: string, k: string, p: nat)
    requires forall i :: 0 <= i < |s| ==> IsWordChar(s[i])
    requires WordAt(s, k, p)
    ensures k == s
  {
    assert p == 0 by {
      if p > 0 {
        assert false;
      }
    }
    assert p + |k| == |s| by {
      if p + |k| < |s| {
        assert false;
      }
    }
    assert s[..] == s[p..p + |k|];
  }

  /** By whole words, "motor" is no longer off-topic. */
  lemma MotorAcceptedByWord()
    ensures ValidateQuestionScopeByWord(Some("motor")) == Verdict(true, SHORT_REASON)
  {
    NormaliseFolded("motor");
    NotAnOffTopicKeyword();
    if AnyWordOccurs("motor", OUT_OF_SCOPE_KEYWORDS) {
      var i, p :| 0 <= i < |OUT_OF_SCOPE_KEYWORDS| && 0 <= p <= 5 && WordAt("motor", OUT_OF_SCOPE_KEYWORDS[i], p);
      OnlyWholeWord("motor", OUT_OF_SCOPE_KEYWORDS[i], p);
      assert false;
    }
  }

  lemma NotAnOffTopicKeyword()
    ensures "motor" !in OUT_OF_SCOPE_KEYWORDS
  {
    assert "motor" !in OFF_VEHICLES;
    assert "motor" !in OFF_COOKING;
    assert "motor" !in OFF_SPORTS;
    assert "motor" !in OFF_ENTERTAINMENT;
    assert "motor" !in OFF_OTHER_TOPICS;
  }

  // ---------------------------------------------------------------------------
  // generateOutOfScopeResponse

  datatype OutOfScopeResponse = OutOfScopeResponse(text: string, outOfScope: bool, suggestedTopics: seq<string>)

  const SUGGESTED_TOPICS: seq<string> := [
    "Controladores Lógicos Programáveis (CLP)",
    "Sensores e Atuadores",
    "Redes Industriais",
    "Sistemas SCADA",
    "Pneumática e Hidráulica",
    "Segurança Industrial",
    "Instrumentação Industrial"
  ]

  const OUT_OF_SCOPE_TEXT: string :=
    "Desculpe, mas não posso responder sobre esse tópico, pois estou limitada ao conteúdo interno do curso.\n\n"
    + "Posso ajudá-lo com conceitos, atividades, documentos ou trechos das apostilas relacionados ao seu curso do SENAI.\n\n"
    + "Se tiver dúvidas sobre automação, controladores, sensores, redes industriais, ou outros tópicos do curso, ficarei feliz em ajudar!"

  /** `generateOutOfScopeResponse`: flagged out of scope, with seven distinct
      suggested topics. */
  function GenerateOutOfScopeResponse(): (r: OutOfScopeResponse)
    ensures r.outOfScope && r.text != []
    ensures |r.suggestedTopics| == 7
    ensures forall i, j :: 0 <= i < j < |r.suggestedTopics| ==> r.suggestedTopics[i] != r.suggestedTopics[j]
  {
    OutOfScopeResponse(OUT_OF_SCOPE_TEXT, true, SUGGESTED_TOPICS)
  }
}

=== FILE: sorting.dfy ===
/** `Array.prototype.sort` with a comparator of the form `(a, b) => key(a) - key(b)`.
    The sort is stable (ECMAScript 2019 on), so for a key function its result is
    fully determined: the elements in ascending key order, equal keys kept in input
    order. `SortBy` is that result, computed by insertion. */
module Sorting {

  predicate SortedBy<T>(xs: seq<T>, key: T -> int) {
    forall i, j :: 0 <= i < j < |xs| ==> key(xs[i]) <= key(xs[j])
  }

  /** The elements of `xs` whose key is `v`, in order. */
  function WithKey<T>(xs: seq<T>, key: T -> int, v: int): (r: seq<T>)
    ensures |r| <= |xs|
    decreases |xs|
  {
    if xs == [] then []
    else WithKey(xs[..|xs| - 1], key, v) + (if key(xs[|xs| - 1]) == v then [xs[|xs| - 1]] else [])
  }

  /** `x` placed after every leading element whose key is not greater than its own. */
  function Insert<T>(x: T, xs: seq<T>, key: T -> int): (r: seq<T>)
    ensures |r| == |xs| + 1
    ensures multiset(r) == multiset(xs) + multiset{x}
    ensures r[0] == x || (xs != [] && r[0] == xs[0])
    decreases |xs|
  {
    if xs == [] then [x]
    else if key(x) < key(xs[0]) then [x] + xs
    else
      assert xs == [xs[0]] + xs[1..];
      [xs[0]] + Insert(x, xs[1..], key)
  }

  /** Inserting into a sorted sequence keeps it sorted. */
  lemma {:induction false} InsertSorted<T>(x: T, xs: seq<T>, key: T -> int)
    requires SortedBy(xs, key)
    ensures SortedBy(Insert(x, xs, key), key)
    decreases |xs|
  {
    if xs != [] && key(xs[0]) <= key(x) {
      var rest := Insert(x, xs[1..], key);
      InsertSorted(x, xs[1..], key);
      var r := [xs[0]] + rest;
      assert key(xs[0]) <= key(rest[0]);
      forall i, j | 0 <= i < j < |r|
        ensures key(r[i]) <= key(r[j])
      {
        if i > 0 {
          assert r[i] == rest[i - 1] && r[j] == rest[j - 1];
        } else if j > 1 {
          assert key(rest[0]) <= key(rest[j - 1]);
        }
      }
    }
  }

  /** The stable ascending sort of `xs` by `key`. */
  function SortBy<T>(xs: seq<T>, key: T -> int): (r: seq<T>)
    ensures |r| == |xs|
    ensures multiset(r) == multiset(xs)
    ensures SortedBy(r, key)
    decreases |xs|
  {
    if xs == [] then []
    else
      var init := xs[..|xs| - 1];
      assert xs == init + [xs[|xs| - 1]];
      InsertSorted(xs[|xs| - 1], SortBy(init, key), key);
      Insert(xs[|xs| - 1], SortBy(init, key), key)
  }

  lemma {:induction false} WithKeyCons<T>(x: T, xs: seq<T>, key: T -> int, v: int)
    ensures WithKey([x] + xs, key, v) == (if key(x) == v then [x] else []) + WithKey(xs, key, v)
    decreases |xs|
  {
    if xs != [] {
      var s := [x] + xs;
      assert s[..|s| - 1] == [x] + xs[..|xs| - 1];
      WithKeyCons(x, xs[..|xs| - 1], key, v);
    } else {
      assert [x] + xs == [x];
      assert [x][..0] == [];
    }
  }

  lemma {:induction false} WithKeyAbove<T>(xs: seq<T>, key: T -> int, v: int)
    requires forall i :: 0 <= i < |xs| ==> key(xs[i]) > v
    ensures WithKey(xs, key, v) == []
    decreases |xs|
  {
    if xs != [] {
      WithKeyAbove(xs[..|xs| - 1], key, v);
    }
  }

  /** Inserting keeps the elements of each key in order, the new one last. */
  lemma {:induction false} WithKeyInsert<T>(x: T, xs: seq<T>, key: T -> int, v: int)
    requires SortedBy(xs, key)
    ensures WithKey(Insert(x, xs, key), key, v) == WithKey(xs, key, v) + (if key(x) == v then [x] else [])
    decreases |xs|, 1
  {
    if xs == [] {
      assert [x][..0] == [];
    } else if key(x) < key(xs[0]) {
      WithKeyCons(x, xs, key, v);
      if key(x) == v {
        WithKeyAbove(xs, key, v);
      }
    } else {
      WithKeyInsertTail(x, xs, key, v);
    }
  }

  lemma {:induction false} WithKeyInsertTail<T>(x: T, xs: seq<T>, key: T -> int, v: int)
    requires SortedBy(xs, key) && xs != [] && key(xs[0]) <= key(x)
    ensures WithKey(Insert(x, xs, key), key, v) == WithKey(xs, key, v) + (if key(x) == v then [x] else [])
    decreases |xs|, 0
  {
    var tail := xs[1..];
    var rest := Insert(x, tail, key);
    var h := if key(xs[0]) == v then [xs[0]] else [];
    var e := if key(x) == v then [x] else [];
    assert Insert(x, xs, key) == [xs[0]] + rest;
    assert xs == [xs[0]] + tail;
    assert SortedBy(tail, key);
    WithKeyCons(xs[0], tail, key, v);
    WithKeyInsert(x, tail, key, v);
    WithKeyCons(xs[0], rest, key, v);
    ConcatAssoc(h, WithKey(tail, key, v), e);
  }

  /** Two sorted runs, all of the first at or below `m` and all of the second at or
      above it, form a sorted run. */
  lemma SortedConcat<T>(a: seq<T>, b: seq<T>, key: T -> int, m: int)
    requires SortedBy(a, key) && SortedBy(b, key)
    requires forall i :: 0 <= i < |a| ==> key(a[i]) <= m
    requires forall j :: 0 <= j < |b| ==> m <= key(b[j])
    ensures SortedBy(a + b, key)
  {
    var s := a + b;
    forall i, j | 0 <= i < j < |s|
      ensures key(s[i]) <= key(s[j])
    {
      if j < |a| {
        assert s[i] == a[i] && s[j] == a[j];
      } else if i >= |a| {
        assert s[i] == b[i - |a|] && s[j] == b[j - |a|];
      } else {
        assert s[i] == a[i] && s[j] == b[j - |a|];
      }
    }
  }

  /** Five sorted runs in successive key bands form a sorted run. */
  lemma SortedBands<T>(a: seq<T>, b: seq<T>, c: seq<T>, d: seq<T>, e: seq<T>, key: T -> int, m1: int, m2: int, m3: int, m4: int)
    requires m1 <= m2 <= m3 <= m4
    requires SortedBy(a, key) && SortedBy(b, key) && SortedBy(c, key) && SortedBy(d, key) && SortedBy(e, key)
    requires forall i :: 0 <= i < |a| ==> key(a[i]) <= m1
    requires forall i :: 0 <= i < |b| ==> m1 <= key(b[i]) <= m2
    requires forall i :: 0 <= i < |c| ==> m2 <= key(c[i]) <= m3
    requires forall i :: 0 <= i < |d| ==> m3 <= key(d[i]) <= m4
    requires forall i :: 0 <= i < |e| ==> m4 <= key(e[i])
    ensures SortedBy(a + b + c + d + e, key)
  {
    SortedConcat(a, b, key, m1);
    var s1 := a + b;
    assert forall i :: 0 <= i < |s1| ==> key(s1[i]) <= m2 by {
      forall i | 0 <= i < |s1| ensures key(s1[i]) <= m2 {
        if i >= |a| { assert s1[i] == b[i - |a|]; }
      }
    }
    SortedConcat(s1, c, key, m2);
    var s2 := s1 + c;
    assert forall i :: 0 <= i < |s2| ==> key(s2[i]) <= m3 by {
      forall i | 0 <= i < |s2| ensures key(s2[i]) <= m3 {
        if i >= |s1| { assert s2[i] == c[i - |s1|]; }
      }
    }
    SortedConcat(s2, d, key, m3);
    var s3 := s2 + d;
    assert forall i :: 0 <= i < |s3| ==> key(s3[i]) <= m4 by {
      forall i | 0 <= i < |s3| ensures key(s3[i]) <= m4 {
        if i >= |s2| { assert s3[i] == d[i - |s2|]; }
      }
    }
    SortedConcat(s3, e, key, m4);
  }

  lemma SortPair<T>(x: T, y: T, key: T -> int)
    ensures SortBy([x, y], key) == if key(y) < key(x) then [y, x] else [x, y]
  {
    assert [x, y][..1] == [x];
    assert [x][..0] == [];
  }

  lemma ConcatAssoc<T>(a: seq<T>, b: seq<T>, c: seq<T>)
    ensures a + (b + c) == (a + b) + c
  {
  }

  /** The sort is stable: the elements of each key keep their input order. */
  lemma {:induction false} SortByStable<T>(xs: seq<T>, key: T -> int, v: int)
    ensures WithKey(SortBy(xs, key), key, v) == WithKey(xs, key, v)
    decreases |xs|
  {
    if xs != [] {
      var init := xs[..|xs| - 1];
      SortByStable(init, key, v);
      WithKeyInsert(xs[|xs| - 1], SortBy(init, key), key, v);
    }
  }
}

=== FILE: storage.dfy ===
/** A browser `Storage` area (`sessionStorage` or `localStorage`) as a mutable
    key-value map. Values are kept as the records that were written: serialising a
    record with `JSON.stringify` and reading it back with `JSON.parse` is taken to
    give the same record. */
module Storage {
  import opened Wrappers

  class KeyValueStore<V> {
    var items: map<string, V>

    constructor ()
      ensures items == map[]
    {
      items := map[];
    }

    /** `getItem`: the value under `key`, or `null` when there is none. */
    function Get(key: string): (r: Option<V>)
      reads this
      ensures r.Some? <==> key in items
      ensures r.Some? ==> r.value == items[key]
    {
      if key in items then Some(items[key]) else None
    }

    /** `setItem`: `key` now holds `value`; every other key is untouched. */
    method SetItem(key: string, value: V)
      modifies this
      ensures items == old(items)[key := value]
      ensures Get(key) == Some(value)
    {
      items := items[key := value];
    }

    /** `removeItem`: `key` is gone; every other key is untouched. */
    method RemoveItem(key: string)
      modifies this
      ensures items == old(items) - {key}
      ensures Get(key) == None
    {
      items := items - {key};
    }
  }
}

=== FILE: strings.dfy ===
/** The few JavaScript string operations the chat widget relies on
    (`startsWith`, `endsWith`, `includes`, `trim`, number-to-text, `padStart`,
    the first run of digits found by `match(/\d+/)`), stated on `seq<char>`. */
module Strings {
  import opened Wrappers

  /** JavaScript's `a || b` on two strings: the empty string is falsy. */
  function Or(a: string, b: string): (r: string)
    ensures r == a || (a == "" && r == b)
    ensures r == "" <==> a == "" && b == ""
  {
    if a != "" then a else b
  }

  predicate StartsWith(s: string, prefix: string) {
    |prefix| <= |s| && s[..|prefix|] == prefix
  }

  /** A text does not start with a prefix whose first character differs from its own. */
  lemma FirstCharMismatch(s: string, prefix: string)
    requires s != [] && prefix != [] && s[0] != prefix[0]
    ensures !StartsWith(s, prefix)
  {
    if |prefix| <= |s| {
      assert s[..|prefix|][0] == s[0];
    }
  }

  predicate EndsWith(s: string, suffix: string) {
    |suffix| <= |s| && s[|s| - |suffix|..] == suffix
  }

  /** `s.includes(k)`, scanning from the left. */
  predicate Contains(s: string, k: string)
    decreases |s|
  {
    StartsWith(s, k) || (|s| > 0 && Contains(s[1..], k))
  }

  /** `Contains` agrees with the usual definition by an occurrence index, in both directions. */
  lemma {:induction false} ContainsAt(s: string, k: string, i: nat)
    requires i + |k| <= |s| && s[i..i + |k|] == k
    ensures Contains(s, k)
    decreases i
  {
    if i == 0 {
      assert s[..|k|] == k;
    } else {
      assert s[1..][i - 1..i - 1 + |k|] == s[i..i + |k|];
      ContainsAt(s[1..], k, i - 1);
    }
  }

  lemma {:induction false} ContainsWitness(s: string, k: string) returns (i: nat)
    requires Contains(s, k)
    ensures i + |k| <= |s| && s[i..i + |k|] == k
    decreases |s|
  {
    if StartsWith(s, k) {
      i := 0;
    } else {
      var j := ContainsWitness(s[1..], k);
      assert s[1..][j..j + |k|] == s[j + 1..j + 1 + |k|];
      i := j + 1;
    }
  }

  /** A string contains every substring of each of its substrings. */
  lemma ContainsTransitive(s: string, m: string, k: string)
    requires Contains(s, m) && Contains(m, k)
    ensures Contains(s, k)
  {
    var i := ContainsWitness(s, m);
    var j := ContainsWitness(m, k);
    forall x | 0 <= x < |k|
      ensures s[i + j + x] == k[x]
    {
      assert k[x] == m[j + x] == s[i + j + x];
    }
    assert s[i + j..i + j + |k|] == k;
    ContainsAt(s, k, i + j);
  }

  /** `k` occurs in `s` at index `i`. */
  predicate OccursAt(s: string, k: string, i: nat) {
    i + |k| <= |s| && s[i..i + |k|] == k
  }

  /** With no occurrence at any index, there is none at all. */
  lemma {:induction false} NotContains(s: string, k: string)
    requires forall i: nat :: !OccursAt(s, k, i)
    ensures !Contains(s, k)
    decreases |s|
  {
    assert !OccursAt(s, k, 0);
    if |s| > 0 {
      forall i: nat
        ensures !OccursAt(s[1..], k, i)
      {
        assert !OccursAt(s, k, i + 1);
        if i + |k| <= |s[1..]| {
          assert s[1..][i..i + |k|] == s[i + 1..i + 1 + |k|];
        }
      }
      NotContains(s[1..], k);
    }
  }

  /** A text lacking one of the characters of `k` does not contain `k`. */
  lemma {:induction false} MissingChar(s: string, k: string, j: nat)
    requires j < |k| && k[j] !in s
    ensures !Contains(s, k)
  {
    forall i: nat
      ensures !OccursAt(s, k, i)
    {
      if i + |k| <= |s| {
        assert s[i..i + |k|][j] == s[i + j];
        assert s[i + j] in s;
      }
    }
    NotContains(s, k);
  }

  lemma ContainsPrefix(s: string, k: string)
    requires StartsWith(s, k)
    ensures Contains(s, k)
  {
  }

  lemma ContainsSelf(s: string)
    ensures Contains(s, s)
  {
    assert StartsWith(s, s);
  }

  /** A concatenation contains both of its parts. */
  lemma ContainsConcat(a: string, b: string)
    ensures Contains(a + b, a) && Contains(a + b, b)
  {
    assert (a + b)[..|a|] == a;
    assert (a + b)[|a|..|a| + |b|] == b;
    ContainsAt(a + b, a, 0);
    ContainsAt(a + b, b, |a|);
  }

  // ---------------------------------------------------------------------------
  // String.prototype.trim

  /** The characters ECMAScript's `trim` removes: WhiteSpace and LineTerminator. */
  predicate IsWhitespace(c: char) {
    c == ' ' || c == '\t' || c == '\n' || c == '\r' || c == '\U{000B}' || c == '\U{000C}'
    || c == '\U{00A0}' || c == '\U{1680}' || ('\U{2000}' <= c <= '\U{200A}')
    || c == '\U{2028}' || c == '\U{2029}' || c == '\U{202F}' || c == '\U{205F}'
    || c == '\U{3000}' || c == '\U{FEFF}'
  }

  predicate AllWhitespace(s: string) {
    forall i :: 0 <= i < |s| ==> IsWhitespace(s[i])
  }

  function TrimStart(s: string): (r: string)
    ensures |r| <= |s| && r == s[|s| - |r|..]
    ensures AllWhitespace(s[..|s| - |r|])
    ensures r == [] || !IsWhitespace(r[0])
  {
    if s != [] && IsWhitespace(s[0]) then
      var r := TrimStart(s[1..]);
      assert s[..|s| - |r|] == [s[0]] + s[1..][..|s[1..]| - |r|];
      r
    else s
  }

  function TrimEnd(s: string): (r: string)
    ensures |r| <= |s| && r == s[..|r|]
    ensures AllWhitespace(s[|r|..])
    ensures r == [] || !IsWhitespace(r[|r| - 1])
  {
    if s != [] && IsWhitespace(s[|s| - 1]) then
      var r := TrimEnd(s[..|s| - 1]);
      assert s[|r|..] == s[..|s| - 1][|r|..] + [s[|s| - 1]];
      r
    else s
  }

  /** `s.trim()`: `s` without the whitespace around it. */
  function Trim(s: string): (r: string)
    ensures r == [] || (!IsWhitespace(r[0]) && !IsWhitespace(r[|r| - 1]))
    ensures r == [] <==> AllWhitespace(s)
  {
    var t := TrimStart(s);
    var r := TrimEnd(t);
    TrimEmpty(s, t, r);
    r
  }

  lemma TrimEmpty(s: string, t: string, r: string)
    requires t == TrimStart(s) && r == TrimEnd(t)
    ensures r == [] <==> AllWhitespace(s)
  {
    if r == [] {
      assert AllWhitespace(t[|r|..]);
      assert t == [];
      assert s[..|s|] == s;
    } else {
      assert t[0] == s[|s| - |t|];
      assert !IsWhitespace(t[0]);
    }
  }

  // ---------------------------------------------------------------------------
  // Numbers as text

  predicate IsDigit(c: char) { '0' <= c <= '9' }

  predicate AllDigits(s: string) {
    forall i :: 0 <= i < |s| ==> IsDigit(s[i])
  }

  function DigitChar(d: nat): (c: char)
    requires d < 10
    ensures IsDigit(c) && c as int - '0' as int == d
  {
    ('0' as int + d) as char
  }

  /** `String(n)` for a non-negative integer: its decimal digits, without leading zeros. */
  function NatToString(n: nat): (r: string)
    ensures |r| >= 1 && AllDigits(r)
    ensures |r| > 1 ==> r[0] != '0'
    decreases n
  {
    if n < 10 then [DigitChar(n)] else NatToString(n / 10) + [DigitChar(n % 10)]
  }

  /** `String(i)` for any integer: a minus sign before the digits of a negative number. */
  function IntToString(i: int): (r: string)
    ensures |r| >= 1
    ensures i >= 0 ==> r == NatToString(i)
    ensures i < 0 ==> r == "-" + NatToString(-i)
  {
    if i >= 0 then NatToString(i) else "-" + NatToString(-i)
  }

  /** The value of a string of decimal digits (what `parseInt` gives for one). */
  function DigitsValue(s: string): (n: nat)
    requires AllDigits(s)
    decreases |s|
  {
    if s == [] then 0 else 10 * DigitsValue(s[..|s| - 1]) + (s[|s| - 1] as int - '0' as int)
  }

  /** Reading back the text of a number gives the number. */
  lemma {:induction false} DigitsValueOfNatToString(n: nat)
    ensures DigitsValue(NatToString(n)) == n
    decreases n
  {
    if n >= 10 {
      var s := NatToString(n);
      assert s[..|s| - 1] == NatToString(n / 10);
      DigitsValueOfNatToString(n / 10);
    }
  }

  lemma NatToStringInjective(a: nat, b: nat)
    requires NatToString(a) == NatToString(b)
    ensures a == b
  {
    DigitsValueOfNatToString(a);
    DigitsValueOfNatToString(b);
  }

  /** Length of the maximal run of digits at the start of `s`. */
  function DigitRunLength(s: string): (n: nat)
    ensures n <= |s| && AllDigits(s[..n])
    ensures n < |s| ==> !IsDigit(s[n])
    decreases |s|
  {
    if s != [] && IsDigit(s[0]) then
      var n := 1 + DigitRunLength(s[1..]);
      assert s[..n] == [s[0]] + s[1..][..n - 1];
      n
    else 0
  }

  /** `s.match(/\d+/)[0]`: the first maximal run of decimal digits in `s`, if any. */
  function FirstDigitRun(s: string): (r: Option<string>)
    ensures r.Some? ==> r.value != [] && AllDigits(r.value) && Contains(s, r.value)
    decreases |s|
  {
    if s == [] then None
    else if IsDigit(s[0]) then
      var n := DigitRunLength(s);
      ContainsAt(s, s[..n], 0);
      Some(s[..n])
    else
      var r := FirstDigitRun(s[1..]);
      if r.Some? then ContainsTransitive(s, s[1..], r.value); assert StartsWith(s[1..], s[1..]); r else r
  }

  predicate NoDigits(s: string) {
    forall i :: 0 <= i < |s| ==> !IsDigit(s[i])
  }

  lemma {:induction false} DigitRunLengthOf(d: string, q: string)
    requires AllDigits(d)
    requires q == [] || !IsDigit(q[0])
    ensures DigitRunLength(d + q) == |d|
    decreases |d|
  {
    if d != [] {
      assert (d + q)[1..] == d[1..] + q;
      DigitRunLengthOf(d[1..], q);
    }
  }

  /** A run of digits preceded by digit-free text and followed by a non-digit is
      what `match(/\d+/)` finds. */
  lemma {:induction false} FirstDigitRunAfter(p: string, d: string, q: string)
    requires NoDigits(p)
    requires d != [] && AllDigits(d)
    requires q == [] || !IsDigit(q[0])
    ensures FirstDigitRun(p + d + q) == Some(d)
    decreases |p|
  {
    var s := p + d + q;
    if p == [] {
      assert s == d + q;
      DigitRunLengthOf(d, q);
      assert s[..|d|] == d;
    } else {
      assert s[0] == p[0];
      assert s[1..] == p[1..] + d + q;
      FirstDigitRunAfter(p[1..], d, q);
    }
  }

  /** `String(n).padStart(2, '0')`: at least two digits, the number unchanged. */
  function Pad2(n: nat): (r: string)
    ensures |r| >= 2 && AllDigits(r)
    ensures n < 100 ==> |r| == 2
    ensures DigitsValue(r) == n
  {
    DigitsValueOfNatToString(n);
    if n < 10 then
      var r := "0" + NatToString(n);
      assert r[..|r| - 1] == "0";
      assert DigitsValue("0") == 0 by { assert "0"[..0] == []; }
      r
    else NatToString(n)
  }
}

=== FILE: welcome.dfy ===
/** The chat page (`Welcome`): its state and the handlers that change it. Each
    React state variable is a field; each handler is a method that makes, in
    order, the updates its setters make, with the backend's answers and the
    clock passed in as parameters. */
module Welcome {
  import opened Wrappers
  import opened Strings
  import opened Http
  import opened ChatStream
  import opened ChatService
  import opened HistorySidebar
  import opened ChatMessages
  import opened AnswerText

  // ---------------------------------------------------------------------------
  // Values the handlers work with

  /** The two messages a submit appends: the user's text (id `len + 1`) ... */
  function UserMessage(n: nat, text: string, now: nat): (m: Message)
    ensures m.id == n + 1 && m.msgType == "user" && m.text == text && !m.isStreaming
  {
    Message(n + 1, "user", text, "user-msg-" + NatToString(now), false, false)
  }

  /** ... and an empty, streaming answer bubble (id `len + 2`). */
  function Placeholder(n: nat, now: nat): (m: Message)
    ensures m.id == n + 2 && m.msgType == "ai" && m.text == "" && m.isStreaming
  {
    Message(n + 2, "ai", "", "ai-msg-" + NatToString(now), false, true)
  }

  /** The backend call a submit makes. */
  datatype BackendCall = StartChatCall(text: string) | SendMessageCall(sessionId: string, text: string)

  /** The list after a submit that ended with `answer` in the bubble. */
  function Submitted(ms: seq<Message>, text: string, now: nat, answer: string): seq<Message> {
    ms + [UserMessage(|ms|, text, now), Placeholder(|ms|, now).(text := answer, isStreaming := false)]
  }

  /** A submit adds exactly two messages, keeps the ids positional and leaves
      nothing streaming that was not streaming before. */
  lemma SubmittedShape(ms: seq<Message>, text: string, now: nat, answer: string)
    requires IdsArePositions(ms)
    ensures var r := Submitted(ms, text, now, answer);
      && |r| == |ms| + 2 && r[..|ms|] == ms && IdsArePositions(r)
      && r[|ms|].msgType == "user" && r[|ms|].text == text
      && r[|ms| + 1].msgType == "ai" && r[|ms| + 1].text == answer && !r[|ms| + 1].isStreaming
  {
  }

  datatype FeedbackStatus = Sending | Sent
  /** An entry of `feedbackGiven`: `{type: 'like' | 'dislike', status}`. */
  datatype Feedback = Feedback(positive: bool, status: FeedbackStatus)
  datatype FeedbackRequest = FeedbackRequest(sessionId: string, messageId: string, rating: string)

  /** A click on like or dislike is ignored while that message's feedback is being
      sent, and when the same kind was already sent. */
  predicate FeedbackBlocked(given: map<string, Feedback>, messageId: string, isPositive: bool) {
    messageId in given
    && (given[messageId].status == Sending || given[messageId] == Feedback(isPositive, Sent))
  }

  predicate IsHexDigit(c: char) {
    '0' <= c <= '9' || 'a' <= c <= 'f' || 'A' <= c <= 'F'
  }

  /** `/^[0-9a-f]{8}-[0-9a-f]{4}-[1-5][0-9a-f]{3}-[89ab][0-9a-f]{3}-[0-9a-f]{12}$/i`. */
  predicate IsUuid(s: string) {
    && |s| == 36
    && (forall i :: 0 <= i < 36 ==> if i in {8, 13, 18, 23} then s[i] == '-' else IsHexDigit(s[i]))
    && '1' <= s[14] <= '5'
    && s[19] in "89abAB"
  }

  predicate NoDuplicates(s: seq<string>) {
    forall i, j :: 0 <= i < j < |s| ==> s[i] != s[j]
  }

  /** `new Set(list)`, kept in first-occurrence order. */
  function Dedup(s: seq<string>): (r: seq<string>)
    ensures NoDuplicates(r)
    ensures forall x :: x in r <==> x in s
    decreases |s|
  {
    if s == [] then []
    else
      var r := Dedup(s[..|s| - 1]);
      assert s == s[..|s| - 1] + [s[|s| - 1]];
      if s[|s| - 1] in r then r else r + [s[|s| - 1]]
  }

  // ---------------------------------------------------------------------------
  // The page

  class ChatPage {
    var input: string
    var chatTitle: string
    var isLoading: bool
    var sessionId: string
    var currentChatId: Option<string>
    var messages: seq<Message>
    var chatHistory: seq<HistoryChat>
    var historyLoaded: bool
    /** The tombstone set, in the order ids were added. */
    var deletedChats: seq<string>
    /** What `localStorage` holds under `deletedChats`, if anything was saved. */
    var persistedDeleted: Option<seq<string>>
    var feedbackGiven: map<string, Feedback>

    /** There is always at least one message and every message's id is its
        position; the tombstones are a set; the list never shows a conversation
        that has a tombstone. */
    ghost predicate Valid()
      reads this
    {
      && |messages| >= 1 && IdsArePositions(messages)
      && NoDuplicates(deletedChats)
      && forall i :: 0 <= i < |chatHistory| ==> ChatKey(chatHistory[i]) !in deletedChats
    }

    /** The page as first rendered on `today`, with `newId` from `generateUUID`. */
    constructor (newId: string, today: CalendarDate)
      ensures Valid()
      ensures input == "" && chatTitle == DateTitle(today) && !isLoading
      ensures sessionId == newId && currentChatId == None
      ensures messages == [WELCOME_MESSAGE] && chatHistory == [] && !historyLoaded
      ensures deletedChats == [] && persistedDeleted == None && feedbackGiven == map[]
    {
      input := "";
      chatTitle := DateTitle(today);
      isLoading := false;
      sessionId := newId;
      currentChatId := None;
      messages := [WELCOME_MESSAGE];
      chatHistory := [];
      historyLoaded := false;
      deletedChats := [];
      persistedDeleted := None;
      feedbackGiven := map[];
    }

    /** Typing in the input box. */
    method Type(text: string)
      modifies this`input
      ensures input == text
    {
      input := text;
    }

    /** The mount effect that restores the tombstones: `saved` is what
        `localStorage` holds, `Err` when it does not parse. It runs once, at mount,
        before the delayed first load; as written that load does not see what it
        restores (`MountLoad`), and the rest of the model uses the corrected load,
        `LoadHistory(false, ...)`, which does. */
    method RestoreDeleted(saved: Option<Result<seq<string>>>)
      requires Valid() && chatHistory == []
      modifies this`deletedChats
      ensures Valid()
      ensures saved.None? ==> deletedChats == old(deletedChats)
      ensures saved.Some? && saved.value.Ok? ==> deletedChats == Dedup(saved.value.value)
      ensures saved.Some? && saved.value.Err? ==> deletedChats == []
    {
      if saved.Some? {
        deletedChats := if saved.value.Ok? then Dedup(saved.value.value) else [];
      }
    }

    /** `loadHistory(force)`. `fetched` is what `getChatHistory` gives: `Ok(Some(list))`
        for an array, `Ok(None)` for anything else, `Err` when it throws. */
    method LoadHistory(force: bool, fetched: Result<Option<seq<HistoryChat>>>)
      requires Valid()
      modifies this`chatHistory, this`historyLoaded
      ensures Valid()
      ensures old(historyLoaded) && !force ==>
        chatHistory == old(chatHistory) && historyLoaded == old(historyLoaded)
      ensures !old(historyLoaded) || force ==>
        && historyLoaded
        && chatHistory == match fetched
             case Ok(Some(list)) => SortedHistory(list, deletedChats)
             case _ => []
    {
      if historyLoaded && !force {
        return;
      }
      if fetched.Ok? && fetched.value.Some? {
        HistoryShowsUndeleted(fetched.value.value, deletedChats);
        chatHistory := SortedHistory(fetched.value.value, deletedChats);
      } else {
        chatHistory := [];
      }
      historyLoaded := true;
    }

    /** The load the mount timer starts one second after the first render, as
        written: the timer's effect has no dependencies, so it calls the first
        render's `loadHistory`, which still sees an empty tombstone set and
        `historyLoaded` false, whatever the restore effect has done since. */
    method MountLoad(fetched: Result<Option<seq<HistoryChat>>>)
      modifies this`chatHistory, this`historyLoaded
      ensures historyLoaded
      ensures chatHistory == match fetched
        case Ok(Some(list)) => SortedHistory(list, [])
        case _ => []
    {
      if fetched.Ok? && fetched.value.Some? {
        chatHistory := SortedHistory(fetched.value.value, []);
      } else {
        chatHistory := [];
      }
      historyLoaded := true;
    }

    /** `handleSubmit`: `now` is `Date.now()`, `reply` what the `startChat` or
        `sendChatMessage` request answers, and `fetch`, `storedChat`, `decode` what
        `getChatStream` sees when the answer has to be streamed. */
    method HandleSubmit(now: nat, reply: Reply<ChatReply>, fetch: StreamFetch,
                        storedChat: Option<StoredChat>, decode: Decoder)
      returns (call: Option<BackendCall>)
      requires Valid()
      modifies this`input, this`messages, this`isLoading, this`sessionId, this`currentChatId
      ensures Valid()
      ensures Trim(old(input)) == "" || old(isLoading) ==>
        call == None && input == old(input) && isLoading == old(isLoading) && messages == old(messages)
      ensures Trim(old(input)) != "" && !old(isLoading) ==>
        var text := Trim(old(input));
        var first := |old(messages)| == 1;
        && call == Some(if first then StartChatCall(text) else SendMessageCall(old(sessionId), text))
        && messages == Submitted(old(messages), text, now, FinalText(first, reply, fetch, storedChat, decode))
        && input == "" && !isLoading
      // only a first message that `startChat` answers moves the page to a new session
      ensures Trim(old(input)) != "" && !old(isLoading) && |old(messages)| == 1 && StartChat(reply).Ok? ==>
        sessionId == StartChat(reply).value.sessionId && currentChatId == Some(sessionId)
      ensures !(Trim(old(input)) != "" && !old(isLoading) && |old(messages)| == 1 && StartChat(reply).Ok?) ==>
        sessionId == old(sessionId) && currentChatId == old(currentChatId)
    {
      var text := Trim(input);
      if text == "" || isLoading {
        return None;
      }
      call := Submit(text, now, reply, fetch, storedChat, decode);
    }

    /** The body of `handleSubmit` for an accepted text. */
    method Submit(text: string, now: nat, reply: Reply<ChatReply>, fetch: StreamFetch,
                  storedChat: Option<StoredChat>, decode: Decoder)
      returns (call: Option<BackendCall>)
      requires Valid()
      modifies this`input, this`messages, this`isLoading, this`sessionId, this`currentChatId
      ensures Valid()
      ensures var first := |old(messages)| == 1;
        && call == Some(if first then StartChatCall(text) else SendMessageCall(old(sessionId), text))
        && messages == Submitted(old(messages), text, now, FinalText(first, reply, fetch, storedChat, decode))
        && input == "" && !isLoading
      ensures |old(messages)| == 1 && StartChat(reply).Ok? ==>
        sessionId == StartChat(reply).value.sessionId && currentChatId == Some(sessionId)
      ensures !(|old(messages)| == 1 && StartChat(reply).Ok?) ==>
        sessionId == old(sessionId) && currentChatId == old(currentChatId)
    {
      var n := |messages|;
      var first := n == 1;
      call := Some(if first then StartChatCall(text) else SendMessageCall(sessionId, text));
      var placeholder := Placeholder(n, now);
      var prefix := messages + [UserMessage(n, text, now)];
      SubmittedShape(messages, text, now, "");
      messages := prefix + [placeholder];
      input := "";
      isLoading := true;
      Respond(first, prefix, placeholder, reply, fetch, storedChat, decode);
      SubmittedShape(old(messages), text, now, FinalText(first, reply, fetch, storedChat, decode));
    }

    /** `handleNewChat`: a fresh session (`newId` from `generateUUID`), the welcome
        message alone, no feedback, today's title, and the list marked stale. */
    method HandleNewChat(newId: string, today: CalendarDate)
      requires Valid()
      modifies this`sessionId, this`currentChatId, this`messages, this`feedbackGiven,
               this`chatTitle, this`historyLoaded
      ensures Valid()
      ensures sessionId == newId && currentChatId == None && messages == [WELCOME_MESSAGE]
      ensures feedbackGiven == map[] && chatTitle == DateTitle(today) && !historyLoaded
    {
      sessionId := newId;
      currentChatId := None;
      messages := [WELCOME_MESSAGE];
      feedbackGiven := map[];
      chatTitle := DateTitle(today);
      historyLoaded := false;
    }

    /** `handleLoadChat`: the conversation's key becomes the session, its title is
        recomputed, and its messages (or the welcome message) replace the list.
        `loaded` is what `loadChat` answers, `Err` when it throws. */
    method HandleLoadChat(chat: HistoryChat, loaded: Result<ChatData>, today: CalendarDate)
      requires Valid()
      modifies this`currentChatId, this`sessionId, this`chatTitle, this`messages, this`feedbackGiven
      ensures Valid()
      ensures currentChatId == Some(ChatKey(chat)) && sessionId == ChatKey(chat)
      ensures chatTitle == GenerateDisplayTitle(chat.title, chat.titleDate, today)
      ensures messages == LoadedMessages(loaded, chat)
      ensures feedbackGiven == map[]
    {
      var chatId := ChatKey(chat);
      currentChatId := Some(chatId);
      sessionId := chatId;
      chatTitle := GenerateDisplayTitle(chat.title, chat.titleDate, today);
      messages := LoadedMessages(loaded, chat);
      feedbackGiven := map[];
    }

    /** `handleDeleteChat`: the key gets a tombstone and leaves the list at once; the
        open conversation is replaced by a new one when it is the one deleted; the
        saved array is the tombstones as they were plus the key. Returns the key the
        backend is asked to delete, whose outcome changes nothing. */
    method HandleDeleteChat(chat: HistoryChat, newId: string, today: CalendarDate)
      returns (backendId: string)
      requires Valid()
      modifies this`deletedChats, this`chatHistory, this`persistedDeleted, this`sessionId,
               this`currentChatId, this`messages, this`feedbackGiven, this`chatTitle, this`historyLoaded
      ensures Valid()
      ensures backendId == ChatKey(chat)
      ensures deletedChats == if ChatKey(chat) in old(deletedChats) then old(deletedChats)
                              else old(deletedChats) + [ChatKey(chat)]
      ensures chatHistory == Visible(old(chatHistory), [ChatKey(chat)])
      ensures persistedDeleted == Some(old(deletedChats) + [ChatKey(chat)])
      ensures old(currentChatId) == Some(ChatKey(chat)) || old(sessionId) == ChatKey(chat) ==>
        && sessionId == newId && currentChatId == None && messages == [WELCOME_MESSAGE]
        && feedbackGiven == map[] && chatTitle == DateTitle(today) && !historyLoaded
      ensures !(old(currentChatId) == Some(ChatKey(chat)) || old(sessionId) == ChatKey(chat)) ==>
        && sessionId == old(sessionId) && currentChatId == old(currentChatId) && messages == old(messages)
        && feedbackGiven == old(feedbackGiven) && chatTitle == old(chatTitle)
        && historyLoaded == old(historyLoaded)
    {
      var chatId := ChatKey(chat);
      Forget(chatId);
      if currentChatId == Some(chatId) || sessionId == chatId {
        HandleNewChat(newId, today);
      }
      backendId := chatId;
    }

    /** The list and tombstone half of `handleDeleteChat`. */
    method Forget(chatId: string)
      requires Valid()
      modifies this`deletedChats, this`chatHistory, this`persistedDeleted
      ensures Valid()
      ensures deletedChats == if chatId in old(deletedChats) then old(deletedChats)
                              else old(deletedChats) + [chatId]
      ensures chatHistory == Visible(old(chatHistory), [chatId])
      ensures persistedDeleted == Some(old(deletedChats) + [chatId])
    {
      var prior := deletedChats;
      VisibleMembers(chatHistory, [chatId]);
      if chatId !in deletedChats {
        deletedChats := deletedChats + [chatId];
      }
      chatHistory := Visible(chatHistory, [chatId]);
      persistedDeleted := Some(prior + [chatId]);
    }

    /** The first half of `handleFeedback`: unless the click is blocked, the entry
        becomes `sending`, a session id that is not a UUID is replaced by `newId`
        (from `generateUUID`), and the request to send is returned. */
    method BeginFeedback(messageId: string, isPositive: bool, newId: string)
      returns (request: Option<FeedbackRequest>)
      modifies this`feedbackGiven, this`sessionId
      ensures FeedbackBlocked(old(feedbackGiven), messageId, isPositive) ==>
        request == None && feedbackGiven == old(feedbackGiven) && sessionId == old(sessionId)
      ensures !FeedbackBlocked(old(feedbackGiven), messageId, isPositive) ==>
        && feedbackGiven == old(feedbackGiven)[messageId := Feedback(isPositive, Sending)]
        && sessionId == (if IsUuid(old(sessionId)) then old(sessionId) else newId)
        && request == Some(FeedbackRequest(sessionId, messageId, if isPositive then "positive" else "negative"))
    {
      if FeedbackBlocked(feedbackGiven, messageId, isPositive) {
        return None;
      }
      feedbackGiven := feedbackGiven[messageId := Feedback(isPositive, Sending)];
      if !IsUuid(sessionId) {
        sessionId := newId;
      }
      request := Some(FeedbackRequest(sessionId, messageId, if isPositive then "positive" else "negative"));
    }

    /** The second half of `handleFeedback`, once `sendFeedback` settles: `sent` on
        success, and the entry removed on failure so the user can click again. */
    method FinishFeedback<T>(messageId: string, isPositive: bool, outcome: Result<T>)
      modifies this`feedbackGiven
      ensures outcome.Ok? ==> feedbackGiven == old(feedbackGiven)[messageId := Feedback(isPositive, Sent)]
      ensures outcome.Err? ==> feedbackGiven == old(feedbackGiven) - {messageId}
    {
      if outcome.Ok? {
        feedbackGiven := feedbackGiven[messageId := Feedback(isPositive, Sent)];
      } else {
        feedbackGiven := feedbackGiven - {messageId};
      }
    }

    /** The `try`/`catch` of `handleSubmit` once the two messages are in place: the
        bubble ends with `FinalText` and is no longer streaming. */
    method Respond(first: bool, prefix: seq<Message>, placeholder: Message, reply: Reply<ChatReply>,
                   fetch: StreamFetch, storedChat: Option<StoredChat>, decode: Decoder)
      requires IdsArePositions(prefix + [placeholder]) && placeholder.id == |prefix| + 1
      requires messages == prefix + [placeholder]
      modifies this`messages, this`isLoading, this`sessionId, this`currentChatId
      ensures messages == prefix + [placeholder.(text := FinalText(first, reply, fetch, storedChat, decode), isStreaming := false)]
      ensures !isLoading
      ensures first && StartChat(reply).Ok? ==>
        sessionId == StartChat(reply).value.sessionId && currentChatId == Some(sessionId)
      ensures !(first && StartChat(reply).Ok?) ==> sessionId == old(sessionId) && currentChatId == old(currentChatId)
    {
      var answer := Answer(first, reply);
      if answer.Err? {
        FinishAnswer(prefix, placeholder, ErrorText(answer.message));
        return;
      }
      if first {
        sessionId := answer.value.sessionId;
        currentChatId := Some(answer.value.sessionId);
      }
      var direct := DirectAnswer(answer.value);
      if direct != "" {
        FinishAnswer(prefix, placeholder, direct);
        return;
      }
      var calls, result := GetChatStream(fetch, storedChat, decode);
      ApplyCallbacks(prefix, placeholder, calls);
      if result.Ok? {
        AppliedTerminal(placeholder, calls);
      } else {
        FinishAnswer(prefix, placeholder, ErrorText(result.message));
      }
    }

    /** `{...msg, text, isStreaming: false}` for the bubble, then `setIsLoading(false)`. */
    method FinishAnswer(prefix: seq<Message>, placeholder: Message, text: string)
      requires IdsArePositions(prefix + [placeholder]) && placeholder.id == |prefix| + 1
      requires |messages| == |prefix| + 1 && messages[..|prefix|] == prefix
      requires messages[|prefix|].id == placeholder.id
      modifies this`messages, this`isLoading
      ensures messages == prefix + [old(messages)[|prefix|].(text := text, isStreaming := false)]
      ensures !isLoading
    {
      assert IdsArePositions(messages) by {
        forall i | 0 <= i < |messages| ensures messages[i].id == i + 1 {
          if i < |prefix| {
            assert messages[i] == prefix[i] == (prefix + [placeholder])[i];
          }
        }
      }
      MapByIdChangesOne(messages, |prefix|, Finish(text));
      messages := MapById(messages, |prefix| + 1, Finish(text));
      isLoading := false;
    }

    /** The callbacks `getChatStream` makes, applied in order: each patches the
        bubble, and the terminal one clears `isLoading`. */
    method ApplyCallbacks(prefix: seq<Message>, placeholder: Message, calls: seq<Callback>)
      requires IdsArePositions(prefix + [placeholder]) && placeholder.id == |prefix| + 1
      requires messages == prefix + [placeholder]
      modifies this`messages, this`isLoading
      ensures messages == prefix + [Applied(placeholder, calls)]
      ensures (exists j :: 0 <= j < |calls| && !calls[j].OnChunk?) ==> !isLoading
      ensures (forall j :: 0 <= j < |calls| ==> calls[j].OnChunk?) ==> isLoading == old(isLoading)
    {
      var k := 0;
      while k < |calls|
        invariant 0 <= k <= |calls|
        invariant messages == prefix + [Applied(placeholder, calls[..k])]
        invariant (exists j :: 0 <= j < k && !calls[j].OnChunk?) ==> !isLoading
        invariant (forall j :: 0 <= j < k ==> calls[j].OnChunk?) ==> isLoading == old(isLoading)
      {
        ApplyStep(prefix, placeholder, calls, k);
        messages := MapById(messages, |prefix| + 1, PatchOf(calls[k]));
        if !calls[k].OnChunk? {
          isLoading := false;
        }
        k := k + 1;
      }
      assert calls[..|calls|] == calls;
    }
  }

  /** One callback patches the bubble and nothing else. */
  lemma ApplyStep(prefix: seq<Message>, placeholder: Message, calls: seq<Callback>, k: nat)
    requires IdsArePositions(prefix + [placeholder]) && placeholder.id == |prefix| + 1
    requires k < |calls|
    ensures MapById(prefix + [Applied(placeholder, calls[..k])], |prefix| + 1, PatchOf(calls[k]))
         == prefix + [Applied(placeholder, calls[..k + 1])]
  {
    var ms := prefix + [Applied(placeholder, calls[..k])];
    assert calls[..k + 1][..k] == calls[..k];
    assert IdsArePositions(ms) by {
      forall i | 0 <= i < |ms| ensures ms[i].id == i + 1 {
        if i < |prefix| {
          assert ms[i] == (prefix + [placeholder])[i];
        }
      }
    }
    MapByIdChangesOne(ms, |prefix|, PatchOf(calls[k]));
  }

  /** Filtering by the tombstones already in force changes nothing. */
  lemma {:induction false} VisibleUnchanged(xs: seq<HistoryChat>, deleted: seq<string>)
    requires forall i :: 0 <= i < |xs| ==> ChatKey(xs[i]) !in deleted
    ensures Visible(xs, deleted) == xs
    decreases |xs|
  {
    if xs != [] {
      VisibleUnchanged(xs[..|xs| - 1], deleted);
      assert xs == xs[..|xs| - 1] + [xs[|xs| - 1]];
    }
  }

  /** While a message's feedback is being sent every click on it is ignored; once
      sent, the same kind is ignored and the other kind is not; after a failure
      either kind may be sent again. */
  lemma FeedbackCycle(given: map<string, Feedback>, messageId: string, isPositive: bool, other: bool)
    ensures FeedbackBlocked(given[messageId := Feedback(isPositive, Sending)], messageId, other)
    ensures FeedbackBlocked(given[messageId := Feedback(isPositive, Sent)], messageId, other) <==> other == isPositive
    ensures !FeedbackBlocked(given - {messageId}, messageId, other)
  {
  }

  /** A set of distinct ids is its own `new Set(...)`. */
  lemma {:induction false} DedupDistinct(s: seq<string>)
    requires NoDuplicates(s)
    ensures Dedup(s) == s
    decreases |s|
  {
    if s != [] {
      var init := s[..|s| - 1];
      DedupDistinct(init);
      assert forall i :: 0 <= i < |init| ==> init[i] == s[i] != s[|s| - 1];
    }
  }

  /** What a delete saves restores, on the next mount, to the tombstones the page
      held after the delete. */
  lemma DeletedRestores(deleted: seq<string>, id: string)
    requires NoDuplicates(deleted)
    ensures Dedup(deleted + [id]) == if id in deleted then deleted else deleted + [id]
  {
    DedupDistinct(deleted);
    assert (deleted + [id])[..|deleted|] == deleted;
  }

  /** A conversation with a tombstone is left out of every list loaded later. */
  lemma DeletedStaysHidden(list: seq<HistoryChat>, deleted: seq<string>, c: HistoryChat)
    requires ChatKey(c) in deleted
    ensures c !in SortedHistory(list, deleted)
  {
    HistoryShowsUndeleted(list, deleted);
  }

  /** As written, a conversation deleted before a reload is listed again by the
      mount load although its tombstone was restored; the filtered load hides it. */
  lemma MountLoadShowsDeleted(list: seq<HistoryChat>, deleted: seq<string>, c: HistoryChat)
    requires c in list && ChatKey(c) in deleted
    ensures c in SortedHistory(list, [])
    ensures c !in SortedHistory(list, deleted)
  {
    HistoryShowsUndeleted(list, []);
    HistoryShowsUndeleted(list, deleted);
  }
}

=== FILE: wrappers.dfy ===
/** Failure-carrying wrappers shared by the whole model: `Option` for JavaScript's
    `null`/`undefined`, `Result` for a value that may instead be a thrown error. */
module Wrappers {

  datatype Option<+T> = None | Some(value: T) {
    function GetOr(default: T): T {
      match this
      case Some(v) => v
      case None => default
    }
  }

  /** `Err` carries the message of the JavaScript `Error` that would be thrown. */
  datatype Result<+T> = Ok(value: T) | Err(message: string)
}
